=== FILE: README.md ===
# knowledge-base-bot in Dafny

A model of the sequential logic of the knowledge-base bot. The bot
answers product questions in WeCom and Feishu chats. It collects the
details of a problem through a guided question-and-answer session,
classifies the problem with a language model, renders a ticket template
and files a ticket in a Feishu bitable. The same model covers the
retrieval knowledge base and the two documentation crawlers that fill
it.

One Dafny module models one source file:

- `Conversations` (conversation_manager.dfy) is the session table. It
  maps a user key to a session record. The record holds a phase, the
  index of the current question, the answers collected so far (an
  insertion-ordered dict) and the start time. Sessions expire strictly
  after 30 minutes. The class `ConversationManager` changes the table in
  place. Each of its methods is tied to a pure transition function on
  maps (`Start`, `Process`, `Probe`, `Sweep`), and the lemmas are about
  those functions.
- `WeCom` (wecom_bot.dfy) and `FeishuChat` (feishu_bot.dfy) are the two
  chat adapters. They route a message to a command, to the answer of an
  active session or to a new session. Both keep their own session
  table. The messages they send are recorded in a `sent` log.
- `FeishuTickets` (feishu_integration.dfy) covers ticket fields, type
  labels, keyword priority, and the record call that always fails.
- `Classifier` (question_classifier.dfy) normalises the language model's
  reply and formats the extra information.
- `Templates` (template_manager.dfy) covers template presence, per-type
  defaults, the merge with caller values, and dispatch.
- `ConfigLoader` (config_loader.dfy) covers `${NAME}` and
  `${NAME:default}` substitution over a configuration tree, and the bot
  selection.
- `KnowledgeBase` (knowledge_base.dfy) covers result-count choice, the
  score filter, the context text and the uninitialised guards.
- `DocsUpdater` (auto_update_docs.dfy) covers the metadata bookkeeping
  of an update check (new, updated, unchanged, failed, deleted) and the
  smart-update plan.
- `ApifoxCrawler` (crawl_apifox_docs.dfy) and `SimpleCrawler`
  (simple_crawler.dfy) are the two crawlers. Each has a first-in
  first-out queue, a visited set, a page budget, a link filter, title
  cleaning and a file-name collision suffix.

Four shared modules support these:

- `Wrappers`: Option and Result.
- `Text`: Python's `startswith`, `find`, `rfind`, `split`, `join` and
  `strip`.
- `Dicts`: insertion-ordered dicts as sequences of pairs.
- `PyValues`: the JSON/YAML value tree.

Time is an integer `now` in microseconds, passed in by the caller.
Collaborators appear as function-valued parameters: HTTP fetching, HTML
parsing, `netloc`, `json.loads`, `float()`, Jinja rendering, the vector
store, the language model, hashing, file existence and Unicode
`isalnum`.

## Model

| member | source | states |
|---|---|---|
| Conversations.Answer | src/bots/conversation_manager.py:74-96 | the answer is stored under the current field's name and every other answer is unchanged; the index advances by one while a field remains, otherwise the phase becomes completed and the index stays on the last field; the start time is kept |
| Conversations.AnswerKeepsValid | src/bots/conversation_manager.py:79-96 | recording an answer keeps the index inside the field list and the answer keys exactly the names of the fields answered so far |
| Conversations.AnswerIgnoresPhase | src/bots/conversation_manager.py:65-96 | the reply, the answers and the index of an answer do not depend on the session's phase |
| Conversations.CompletedOverwritesLast | src/bots/conversation_manager.py:80-96 | an unexpired completed session that receives another message overwrites the last field's answer and reports completion again |
| Conversations.Run | src/bots/conversation_manager.py:46-96 | after any number of answers, the index is still inside the field list |
| Conversations.RunFromFresh | src/bots/conversation_manager.py:46-96 | with distinct field names, answering k of N questions from a fresh session pairs the first k field names with the answers, in order; below N the session is collecting at index k, and at N it is completed with the index on the last field |
| Conversations.Start | src/bots/conversation_manager.py:22-44 | the key is overwritten with a fresh collecting session started now with no answers; every other key is unchanged |
| Conversations.Process | src/bots/conversation_manager.py:46-96 | an absent or expired key gets a fresh session and the first prompt as a restart reply; otherwise the reply is not a restart, the start time is kept and the answer is stored under the current field's name; only the user's key changes and the table invariant is kept |
| Conversations.RestartDropsResponse | src/bots/conversation_manager.py:61-71 | when a restart happens, the triggering text has no effect on the outcome and no answer is stored |
| Conversations.Probe | src/bots/conversation_manager.py:113-133 | the key is active exactly when present, unexpired and collecting; an expired key is deleted and nothing else changes |
| Conversations.ActiveThenAnswered | src/bots/conversation_manager.py:113-133 | a key found active and answered at the same instant records the answer instead of restarting |
| Conversations.Sweep | src/bots/conversation_manager.py:146-155 | exactly the expired sessions are removed and the others are kept unchanged |
| Conversations.Summary | src/bots/conversation_manager.py:157-183 | the no-data sentinel for absent or empty data, otherwise one "- name: answer" line per answer in insertion order, with the readable field names; `SummaryNoDataIff` fixes its two cases |
| Conversations.SummaryNoDataIff | src/bots/conversation_manager.py:157-183 | the summary is the no-data sentinel exactly when there is no data or it is empty; otherwise it starts with the first answer's line |
| Conversations.ConversationManager.constructor | src/bots/conversation_manager.py:14-20 | an empty table over the configured fields |
| Conversations.ConversationManager.StartConversation | src/bots/conversation_manager.py:22-44 | the table becomes `Start` of the old one and the first field's prompt is returned |
| Conversations.ConversationManager.ProcessResponse | src/bots/conversation_manager.py:46-96 | the new table and the reply are `Process` of the old table |
| Conversations.ConversationManager.GetCollectedData | src/bots/conversation_manager.py:98-111 | `None` exactly when the key is absent, whatever its age; otherwise the stored answers |
| Conversations.ConversationManager.IsConversationActive | src/bots/conversation_manager.py:113-133 | the new table and the answer are `Probe` of the old table |
| Conversations.ConversationManager.CancelConversation | src/bots/conversation_manager.py:135-144 | the key is removed if present; nothing else changes |
| Conversations.ConversationManager.ExpiredUsers | src/bots/conversation_manager.py:146-152 | the first loop collects exactly the expired keys |
| Conversations.ConversationManager.CleanupExpiredConversations | src/bots/conversation_manager.py:146-155 | the table becomes `Sweep` of the old one |
| Conversations.ConversationManager.GetConversationSummary | src/bots/conversation_manager.py:157-183 | the summary of the stored answers, or the sentinel for an absent key |
| WeCom.TranslateTypeCases | src/bots/wecom_bot.py:231-239 | bug, feature, usage and unknown get their fixed labels, and "其他" is given exactly to every other type |
| WeCom.TicketTitle | src/bots/wecom_bot.py:132-150 | the title is the first min(length, 50) characters of the "description" answer, and "" without one |
| WeCom.Truncate | src/bots/wecom_bot.py:152 | `int()` truncates toward zero, for positive and negative values |
| WeCom.FirstAmong | src/bots/wecom_bot.py:148-156 | the first answer key among the given names, or `None` exactly when no key is among them |
| WeCom.ClashKey | src/bots/wecom_bot.py:148-156 | `None` exactly when no answer key repeats an explicit keyword or a bound parameter of the render call |
| WeCom.StrValues | src/bots/wecom_bot.py:156 | the answers become string keyword values, in order |
| WeCom.Analysis | src/bots/wecom_bot.py:114-199 | the analysis as a value: whether it ran to its end and what it sent; `AnalysisOutcome` states both |
| WeCom.AnalysisOutcome | src/bots/wecom_bot.py:128-199 | the analysis always thanks first; it runs to its end exactly when no answer key clashes, and then its last message reports the failed ticket; a clash ends it with the error message |
| WeCom.Command | src/bots/wecom_bot.py:201-229 | a command on the session table: "/cancel" drops the sender's session, and the one reply is chosen by the command; `CommandRouting` states it |
| WeCom.NewQuestion | src/bots/wecom_bot.py:55-80 | a fresh session for the sender, then the echo and the first prompt; `NewQuestionRouting` states it |
| WeCom.Converse | src/bots/wecom_bot.py:82-112 | the answer is recorded; a restart sends nothing, a collecting reply sends the next prompt, a completed one runs `Analysis` and drops the session when it ran to its end; `ActiveRouting` states it |
| WeCom.Handle | src/bots/wecom_bot.py:25-53 | the dispatch of a message: commands first, then an active session, otherwise a new question, with the clock read once by the activity check and again by the call after it; the routing lemmas and `LateExpiryDropsAnswer` state it |
| WeCom.CommandRouting | src/bots/wecom_bot.py:41-43 | a command never reaches the session flow; only "/cancel" changes the table; exactly one reply is sent (cancelled, help or unknown command) |
| WeCom.NewQuestionRouting | src/bots/wecom_bot.py:46-77 | without an active session, a new session starts at the second clock read whatever the text is; the text is only echoed, then the first question is sent |
| WeCom.ActiveRouting | src/bots/wecom_bot.py:96-109 | a session active at the first clock read and still unexpired at the second records the text as the answer and is not restarted; a collecting reply forwards the next question; a completed one sends the analysis, which drops the session exactly when no answer key clashes |
| WeCom.LateExpiryDropsAnswer | src/bots/wecom_bot.py:96-112 | a session active at the first clock read but expired at the second is started over at the second: the answer is lost and nothing is sent, because the reply has no "status" and the handler swallows the lookup error |
| WeCom.WeComBot.constructor | src/bots/wecom_bot.py:15-23 | the bot owns a fresh, empty session table |
| WeCom.WeComBot.SendMessage | src/bots/wecom_bot.py:241-268 | every call appends its content to the log |
| WeCom.WeComBot.HandleCommand | src/bots/wecom_bot.py:201-229 | the new table and the sends are those of `Command` |
| WeCom.WeComBot.HandleNewQuestion | src/bots/wecom_bot.py:55-80 | the new table and the sends are those of `NewQuestion` |
| WeCom.WeComBot.AnalyzeAndClassify | src/bots/wecom_bot.py:114-199 | the sends are those of `Analysis`; the session is dropped exactly when the analysis ran to its end |
| WeCom.WeComBot.ReportAndTicket | src/bots/wecom_bot.py:158-195 | after a clash-free merge: report, template and ticket outcome are sent, then the session is cancelled |
| WeCom.WeComBot.HandleConversation | src/bots/wecom_bot.py:82-112 | the new table and the sends are those of `Converse` |
| WeCom.WeComBot.HandleMessage | src/bots/wecom_bot.py:25-53 | the new table and the sends are those of `Handle`, with the activity check at `now` and the call after it at `later` |
| FeishuChat.SeparatorIsLast | src/bots/feishu_bot.py:52 | for a user id without "_", the key's last "_" is the separator |
| FeishuChat.KeyInjective | src/bots/feishu_bot.py:52 | for user ids without "_", equal keys mean equal chat and user |
| FeishuChat.KeyCollision | src/bots/feishu_bot.py:52 | otherwise two different chat/user pairs can share one key |
| FeishuChat.Command | src/bots/feishu_bot.py:119-138 | "/cancel" drops the composite key's session and replies, "/help" replies, anything else does nothing; `CommandRouting` states it |
| FeishuChat.NewQuestion | src/bots/feishu_bot.py:62-83 | a fresh session under the composite key, then the echo and the first question to the chat; `NewQuestionRouting` states it |
| FeishuChat.Converse | src/bots/feishu_bot.py:85-117 | the answer is recorded and only a collecting reply sends anything; `CompletedIsRestarted` states the completing case |
| FeishuChat.Handle | src/bots/feishu_bot.py:23-60 | the dispatch of an event: commands first, then an active session, otherwise a new question, with the clock read once by the activity check and again by the call after it; the routing lemmas and `LateExpiryDropsAnswer` state it |
| FeishuChat.CommandRouting | src/bots/feishu_bot.py:47-49 | a command never reaches the session flow; only "/cancel" changes the table; "/cancel" sends the cancellation text to the chat, "/help" the help text, and any other command sends nothing |
| FeishuChat.NewQuestionRouting | src/bots/feishu_bot.py:53-80 | without an active composite key, a new session starts under that key at the second clock read whatever the text is; the echo and the first question go to the chat |
| FeishuChat.CompletedIsRestarted | src/bots/feishu_bot.py:91-117 | the completing answer sends nothing and leaves the completed session in the table; the key is inactive from then on, so the next message restarts it |
| FeishuChat.LateExpiryDropsAnswer | src/bots/feishu_bot.py:85-117 | a key active at the first clock read but expired at the second is started over at the second: the answer is lost and nothing is sent to the chat |
| FeishuChat.FeishuBot.constructor | src/bots/feishu_bot.py:13-21 | the bot owns a fresh, empty session table |
| FeishuChat.FeishuBot.SendMessage | src/bots/feishu_bot.py:140-154 | every call appends chat and content to the log |
| FeishuChat.FeishuBot.HandleCommand | src/bots/feishu_bot.py:119-138 | the new table and the sends are those of `Command` |
| FeishuChat.FeishuBot.HandleNewQuestion | src/bots/feishu_bot.py:62-83 | the new table and the sends are those of `NewQuestion` |
| FeishuChat.FeishuBot.HandleConversation | src/bots/feishu_bot.py:85-117 | the new table and the sends are those of `Converse` |
| FeishuChat.FeishuBot.HandleMessage | src/bots/feishu_bot.py:23-60 | the new table and the sends are those of `Handle`, with the activity check at `now` and the call after it at `later` |
| FeishuTickets.TranslateTypeCases | src/bots/feishu_integration.py:108-115 | bug, feature and usage get their labels, and a label other than "其他" is given exactly to those three |
| FeishuTickets.BugPriority | src/bots/feishu_integration.py:129-137 | "P0" for a critical keyword, else "P1" for a severe one, else "P2"; `BugPriorityMonotone` states that more text never lowers it |
| FeishuTickets.CalculatePriority | src/bots/feishu_integration.py:117-145 | always P0 to P3; "P3" exactly for types other than bug and feature; a feature is "P2" |
| FeishuTickets.ContainsWithin | src/bots/feishu_integration.py:129-137 | a keyword found in a text is found in any text around it |
| FeishuTickets.BugPriorityMonotone | src/bots/feishu_integration.py:129-137 | adding text around a bug description never lowers its priority |
| FeishuTickets.TicketEntries | src/bots/feishu_integration.py:51-70 | every ticket starts with title, translated type and submitter (default "未知用户") and ends with the priority |
| FeishuTickets.Fill | src/bots/feishu_integration.py:51-70 | the row written entry by entry through the column mapping, failing at the first unmapped key; `FillFailure`, `FillKeys` and `FillValues` state it |
| FeishuTickets.FillFailure | src/bots/feishu_integration.py:51-70 | filling succeeds exactly when every logical key has a column; a failure carries the first missing key |
| FeishuTickets.FillKeys | src/bots/feishu_integration.py:51-70 | on success the row's columns are exactly the mapped columns |
| FeishuTickets.FillValues | src/bots/feishu_integration.py:51-70 | with distinct columns, each column holds its logical key's value |
| FeishuTickets.CreateTicket | src/bots/feishu_integration.py:28-106 | the row is filled, then the record call decides; a created record's link names the base, the table and the record; `CreateTicketFails` states that no record is created |
| FeishuTickets.CreateTicketFails | src/bots/feishu_integration.py:28-106 | no ticket is ever created; the error is that of the record call's `None` reply exactly when every logical key has a column, and otherwise the missing column's error |
| FeishuTickets.BugKeysDistinct | src/bots/feishu_integration.py:51-66 | a bug ticket writes distinct logical keys |
| FeishuTickets.BugEntries | src/bots/feishu_integration.py:51-70 | a bug ticket writes title, type, submitter, version, environment, description, steps, expected, actual and priority, in that order, with "" for missing answers |
| FeishuTickets.BugRow | src/bots/feishu_integration.py:51-70 | with every column mapped and distinct, a bug row holds each value in its own column |
| FeishuTickets.FeatureAndOtherRows | src/bots/feishu_integration.py:56-70 | a feature writes its background as the description plus the expected answer; other types write only title, type, submitter and priority |
| Classifier.Candidate | src/classifiers/question_classifier.py:134-138 | `None` exactly when there is no "{"; a non-empty candidate is a slice of the reply that starts with "{" and ends with "}", with no "{" before it and no "}" after it, so it runs from the first "{" to the last "}"; the empty candidate exactly when no "}" follows the first "{" |
| Classifier.CandidateOfObject | src/classifiers/question_classifier.py:134-138 | a reply that is one braced object is its own candidate |
| Classifier.WithDefaults | src/classifiers/question_classifier.py:142-145 | the loop over the required keys, setting each missing one to ""; `WithDefaultsGet` and `WithDefaultsPrefix` state it |
| Classifier.WithDefaultsGet | src/classifiers/question_classifier.py:142-145 | present values are kept; exactly the missing listed keys get "" |
| Classifier.WithDefaultsPrefix | src/classifiers/question_classifier.py:142-145 | filling only appends, and a dict without duplicate keys stays so |
| Classifier.RecordGet | src/classifiers/question_classifier.py:163-168 | the fallback record holds its four values under the four keys |
| Classifier.FilledRequired | src/classifiers/question_classifier.py:142-145 | after filling, each required key holds its decoded value or "" |
| Classifier.Clamp | src/classifiers/question_classifier.py:148-155 | the type check and the confidence conversion; `ClampKeepsKeys` and `ClampGet` state it |
| Classifier.ClampKeepsKeys | src/classifiers/question_classifier.py:148-155 | clamping loses no key of the filled dict |
| Classifier.ClampGet | src/classifiers/question_classifier.py:148-155 | the type becomes "unknown" unless known; the confidence becomes its float value, or 0.5 when it does not convert; reason and suggested answer are kept |
| Classifier.ClampedWellFormed | src/classifiers/question_classifier.py:142-155 | a decoded object, once filled and clamped, has the four keys, a known or "unknown" type and a float confidence |
| Classifier.ClampedType | src/classifiers/question_classifier.py:148-149 | the decoded type survives exactly when it is bug, feature or usage |
| Classifier.ClampedKeepsText | src/classifiers/question_classifier.py:142-155 | a present reason or answer is kept, a missing one becomes "", and a missing confidence becomes 0.5 |
| Classifier.Parse | src/classifiers/question_classifier.py:127-168 | the candidate object is decoded, filled and clamped, with the unparsed fallback when there is no candidate or it does not decode; `ParseWellFormed` states it |
| Classifier.ParseWellFormed | src/classifiers/question_classifier.py:127-168 | every parse result is well formed; without "{" the result is the unparsed fallback, and without a decodable candidate the suggested answer is the raw reply |
| Classifier.FormatAdditionalInfo | src/classifiers/question_classifier.py:116-125 | "无" for empty information; otherwise one "- k: v" line per entry, in order, joined by line breaks |
| Classifier.InfoLines | src/classifiers/question_classifier.py:121-123 | one "- k: v" line per entry, in order |
| Classifier.InfoLinesRecoverable | src/classifiers/question_classifier.py:116-125 | when no key or value holds a line break, the formatted text splits back into its lines |
| Classifier.Classify | src/classifiers/question_classifier.py:20-75 | the result is well formed and is the parse of the reply, or the failure record when the model call raises |
| Classifier.ClassifyOutcome | src/classifiers/question_classifier.py:63-75 | both outcomes of the model call give a well-formed classification |
| Classifier.BatchClassify | src/classifiers/question_classifier.py:170-192 | one well-formed result per request, in request order, each that request's classification |
| Templates.LoadTemplates | src/utils/template_manager.py:20-45 | a type has a template exactly when its file exists, and the template is that file's text |
| Templates.DefaultValues | src/utils/template_manager.py:63-142 | bug title "未命名 Bug" and priority "2", feature priority "3", and empty usage question, answer and related docs |
| Templates.VariablesGet | src/utils/template_manager.py:63-82 | caller values win; unspecified keys keep their defaults; extra caller keys pass through |
| Templates.TemplateManager.constructor | src/utils/template_manager.py:15-18 | the loaded templates, as in `LoadTemplates` |
| Templates.TemplateManager.RenderTemplate | src/utils/template_manager.py:148-167 | "" for an unknown type or a missing template; otherwise the type's template rendered with the merged variables |
| ConfigLoader.NameLength | src/utils/config_loader.py:93 | the run of name characters stops at the first "}" or ":" |
| ConfigLoader.MatchToken | src/utils/config_loader.py:93 | a match is at least "${x}" long and fits in the text |
| ConfigLoader.MatchSound | src/utils/config_loader.py:93 | every match is a placeholder, spelled out exactly at the start of the text |
| ConfigLoader.MatchComplete | src/utils/config_loader.py:93 | every placeholder at the start of a text is matched, with its name and default |
| ConfigLoader.DefaultEnd | src/utils/config_loader.py:93 | the default ends at the first "}" after the ":" |
| ConfigLoader.PlaceholderLayout | src/utils/config_loader.py:93 | where name, ":" and default sit in a text that starts with a placeholder |
| ConfigLoader.NameRunLength | src/utils/config_loader.py:93 | a run of n name characters before "}" or ":" has length n |
| ConfigLoader.Lookup | src/utils/config_loader.py:95-98 | a set variable wins, even when set to ""; else the default; else "" |
| ConfigLoader.Subst | src/utils/config_loader.py:100 | `re.sub` with the lookup as replacement: left to right, without overlap and without rescanning; `SubstNoMatch`, `SubstPlaceholder` and `NoRescan` state it |
| ConfigLoader.SubstNoMatch | src/utils/config_loader.py:100 | a text without a match is unchanged |
| ConfigLoader.SubstPlaceholder | src/utils/config_loader.py:100 | a leading placeholder is replaced, and scanning resumes after it |
| ConfigLoader.DefaultMayHoldColon | src/utils/config_loader.py:93-100 | "${A:b:c}" takes the default "b:c" |
| ConfigLoader.EmptyVariableWins | src/utils/config_loader.py:95-98 | a variable set to "" beats the default |
| ConfigLoader.NoRescan | src/utils/config_loader.py:100 | substituted text is not scanned again |
| ConfigLoader.EmptyNameIsText | src/utils/config_loader.py:93 | "${}" and "${:x}" are not placeholders |
| ConfigLoader.ReplaceEnv | src/utils/config_loader.py:83-108 | strings, dicts and lists keep their kind; a string is substituted; dict keys and list lengths are kept; other values are unchanged |
| ConfigLoader.ReplaceEnvLeaves | src/utils/config_loader.py:83-108 | the string leaves of the result are those of the input, in the same order, each substituted |
| ConfigLoader.ReplaceEnvIdentity | src/utils/config_loader.py:83-108 | a tree without placeholders is unchanged |
| ConfigLoader.BuildBots | src/utils/config_loader.py:119-133 | the loop builds the bot table that `BotsUpTo` describes |
| ConfigLoader.BotsFailureStays | src/utils/config_loader.py:119-133 | once the loop fails on a selected bot entry, the whole build fails |
| ConfigLoader.BotsSelected | src/utils/config_loader.py:119-133 | only "wecom" and "feishu" are kept, each exactly when present, without duplicates |
| ConfigLoader.FeishuUrlIsAppId | src/utils/config_loader.py:121-133 | Feishu's webhook URL comes from "app_id", and WeCom's from "webhook_url" |
| ConfigLoader.RagSettings | src/utils/config_loader.py:136-137 | without a "rag" section, the retrieval settings are the defaults 500, 50, 5 and 0.7 |
| KnowledgeBase.ChooseK | src/rag/knowledge_base.py:79 | the configured count exactly when the request is absent, 0 or equal to it; otherwise the request |
| KnowledgeBase.Kept | src/rag/knowledge_base.py:88-96 | the threshold filter, in order: `KeptMembers` states that a document is kept exactly when some result for it reaches the threshold, `KeptAppend` that it works result by result; the result is never longer than the input |
| KnowledgeBase.KeptAppend | src/rag/knowledge_base.py:88-96 | the filter works result by result |
| KnowledgeBase.KeptExactly | src/rag/knowledge_base.py:88-96 | when every result reaches the threshold all are kept, in order; when none does, none is kept (`KeptMembers` states membership in general) |
| KnowledgeBase.KeptMembers | src/rag/knowledge_base.py:88-96 | a document is kept exactly when some result for it reaches the threshold |
| KnowledgeBase.Found | src/rag/knowledge_base.py:63-100 | nothing without a store or when the store's search raises, otherwise `Kept` of its results; `KeptAppend`, `KeptExactly` and `KeptMembers` state the filter |
| KnowledgeBase.Blocks | src/rag/knowledge_base.py:119-124 | one block per document, numbered consecutively |
| KnowledgeBase.ContextText | src/rag/knowledge_base.py:119-126 | the not-found sentinel for no documents, otherwise the numbered blocks joined by line breaks; `ContextStartsWithFirst` states it |
| KnowledgeBase.ContextStartsWithFirst | src/rag/knowledge_base.py:119-126 | a non-empty context starts with document 1's block and is not the not-found sentinel |
| KnowledgeBase.Without | src/rag/knowledge_base.py:151-167 | exactly the documents whose id is not listed remain |
| KnowledgeBase.KnowledgeBase.constructor | src/rag/knowledge_base.py:24-32 | configured count and threshold, and no store |
| KnowledgeBase.KnowledgeBase.Initialize | src/rag/knowledge_base.py:34-61 | an existing database is loaded; otherwise the store is unchanged |
| KnowledgeBase.KnowledgeBase.Search | src/rag/knowledge_base.py:63-100 | nothing without a store or on error; otherwise the kept results for the chosen count |
| KnowledgeBase.KnowledgeBase.SearchWithContext | src/rag/knowledge_base.py:102-126 | the context text of the search |
| KnowledgeBase.KnowledgeBase.AddDocuments | src/rag/knowledge_base.py:128-149 | nothing without a store or on error; otherwise the split documents are appended |
| KnowledgeBase.KnowledgeBase.DeleteDocuments | src/rag/knowledge_base.py:151-167 | nothing without a store or on error; otherwise the listed ids are removed |
| KnowledgeBase.KnowledgeBase.Stats | src/rag/knowledge_base.py:169-184 | "not_initialized" as the only entry without a store; otherwise "ok" and the document count |
| DocsUpdater.SourceLine | src/rag/auto_update_docs.py:84-89 | the first line starting with the source marker, and `None` exactly when no line does |
| DocsUpdater.UrlAsWritten | src/rag/auto_update_docs.py:86 | as written: the text between the first and second ":", which exists exactly when there is a ":" |
| DocsUpdater.UrlOf | src/rag/auto_update_docs.py:86 | corrected: the stripped text after the first ":", which exists exactly when there is a ":" |
| DocsUpdater.SecondPiece | src/rag/auto_update_docs.py:86 | the second piece of a split is the text between the first two separators |
| DocsUpdater.HeaderGivesScheme | src/rag/auto_update_docs.py:86 | as written, a header for "scheme:rest" yields only the scheme |
| DocsUpdater.HttpsHeader | src/rag/auto_update_docs.py:86 | as written, the header of every "https:" page yields "https" |
| DocsUpdater.PaddedStrip | src/rag/auto_update_docs.py:86 | the space after the marker's ":" is stripped away |
| DocsUpdater.HeaderRoundTrip | src/rag/auto_update_docs.py:86 | corrected: the header of any page gives its URL back |
| DocsUpdater.SourceOf | src/rag/auto_update_docs.py:84-89 | for any reading of the source line, a file has no source exactly when no line starts with the marker |
| DocsUpdater.FileSource | src/rag/auto_update_docs.py:78-91 | a file is skipped exactly when it can be read and has no marker line; a file that cannot be read fails before it is counted, like a marker line without a URL |
| DocsUpdater.Record | src/rag/auto_update_docs.py:103-141 | a fetched page counted as new, updated or unchanged and taken off the pending set; `StepKeys` and `StepCounts` state it |
| DocsUpdater.Step | src/rag/auto_update_docs.py:78-147 | one file of the loop: skipped, failed before counting, failed after counting, or recorded; `StepKeys` and `StepCounts` state it |
| DocsUpdater.StepKeys | src/rag/auto_update_docs.py:91-147 | one file adds the URL it confirms to the pages, with the new hash, and takes it off the pending set; other pages are unchanged |
| DocsUpdater.StepCounts | src/rag/auto_update_docs.py:91-147 | one file raises the result counters by at most one in total, adds to `total` no less than its new results and no more than its results and failures, and deletes nothing |
| DocsUpdater.Scanned | src/rag/auto_update_docs.py:76-147 | the loop over the files, one `Step` each; `ScanKeys`, `ConfirmedHash` and `ScanCounts` state it |
| DocsUpdater.ScanKeys | src/rag/auto_update_docs.py:75-147 | after the loop, the pages are the initial ones plus the confirmed URLs, and the pending set is the initial pages minus the confirmed ones |
| DocsUpdater.Checked | src/rag/auto_update_docs.py:76-153 | the loop, then the deletion of every URL still pending; `CheckedKeys` states which pages remain |
| DocsUpdater.CheckedKeys | src/rag/auto_update_docs.py:143-153 | after a check exactly the confirmed URLs remain, and every other initial URL is counted as deleted |
| DocsUpdater.ConfirmedHash | src/rag/auto_update_docs.py:103-141 | a confirmed page was fetched and records the hash of its current content |
| DocsUpdater.ScanCounts | src/rag/auto_update_docs.py:91-147 | over the loop, new + updated + unchanged ≤ total ≤ new + updated + unchanged + failed, these are at most the number of files, and nothing is deleted yet |
| DocsUpdater.ConfirmedOnly | src/rag/auto_update_docs.py:84-141 | when every file's source is one URL or none, no other URL is confirmed |
| DocsUpdater.SingleSourceCheck | src/rag/auto_update_docs.py:75-153 | so a check over such files keeps at most that one page |
| DocsUpdater.NeverConverted | src/rag/auto_update_docs.py:97-99 | as written, no fetched page is ever converted |
| DocsUpdater.NothingRecorded | src/rag/auto_update_docs.py:91-141 | as written, the loop leaves the pages, the pending URLs and the new, updated and unchanged counters as they were |
| DocsUpdater.AsWrittenConversion | src/rag/auto_update_docs.py:97-153 | as written, a check counts no page as new, updated or unchanged, keeps no page and deletes every known one, so a smart update never reports a rebuild |
| DocsUpdater.CheckFile | src/rag/auto_update_docs.py:84-147 | the per-file body computes `Step` on the file's `FileSource`, so a file that cannot be read, like a marker line without a URL, counts as failed without counting towards the total |
| DocsUpdater.ScanFiles | src/rag/auto_update_docs.py:75-147 | the per-file loop computes `Scanned` from zero counters |
| DocsUpdater.DropPending | src/rag/auto_update_docs.py:150-153 | the deletion loop removes exactly the pending URLs and counts them |
| DocsUpdater.SmartPlan | src/rag/auto_update_docs.py:193-217 | a check runs exactly when not forced and the last update is set; a full update runs when there is no check or more than 10 changes; a rebuild is reported exactly when a check found changes |
| DocsUpdater.AutoDocsUpdater.constructor | src/rag/auto_update_docs.py:31-40 | the stored metadata, or the fresh one with no update time, no pages and version "1.0" |
| DocsUpdater.AutoDocsUpdater.CheckUpdates | src/rag/auto_update_docs.py:52-163 | for the given reading of the source line, the counters and pages are those of `Checked`, the update time is now and the version is kept |
| DocsUpdater.AutoDocsUpdater.FullUpdate | src/rag/auto_update_docs.py:165-191 | only the update time changes |
| DocsUpdater.AutoDocsUpdater.SmartUpdate | src/rag/auto_update_docs.py:193-217 | reports a rebuild as `SmartPlan` decides with the check's number of new and updated pages; the pages are those of `Checked` exactly when the plan runs a check and are otherwise unchanged; the update time is now and the version is kept |
| ApifoxCrawler.Enqueued | src/rag/crawl_apifox_docs.py:166-186 | the queue after the page's links are considered in order; `EnqueuedSpec` states it |
| ApifoxCrawler.EnqueuedSpec | src/rag/crawl_apifox_docs.py:166-186 | link extraction only appends wanted links from the page that were not queued; every wanted link ends up queued; no duplicates are introduced |
| ApifoxCrawler.KeepTitleChars | src/rag/crawl_apifox_docs.py:135 | only alphanumerics, " ", "-", "_" and "/" remain, and the text never grows |
| ApifoxCrawler.KeepTitleCharsClean | src/rag/crawl_apifox_docs.py:135 | a clean title is kept as it is |
| ApifoxCrawler.KeepTitleCharsIdempotent | src/rag/crawl_apifox_docs.py:135 | cleaning twice is cleaning once |
| ApifoxCrawler.ExtractTitle | src/rag/crawl_apifox_docs.py:121-139 | "未命名页面" when no selector matched; otherwise a clean title |
| ApifoxCrawler.CandidateInjective | src/rag/crawl_apifox_docs.py:206-213 | different attempts give different file names |
| ApifoxCrawler.FirstFreeUnique | src/rag/crawl_apifox_docs.py:206-213 | the first free name is unique |
| ApifoxCrawler.DistinctWithin | src/rag/crawl_apifox_docs.py:210-213 | distinct tried names are no more than the existing files, so the collision loop ends |
| ApifoxCrawler.ChooseFileName | src/rag/crawl_apifox_docs.py:206-213 | the chosen name is the first free one among "title.md", "title_1.md", … |
| ApifoxCrawler.FreeName | src/rag/crawl_apifox_docs.py:206-213 | some attempt "title.md", "title_1.md", … is free, and the first free one is not an existing file |
| ApifoxCrawler.FreeNameIs | src/rag/crawl_apifox_docs.py:206-213 | that name is the first free attempt |
| ApifoxCrawler.Save | src/rag/crawl_apifox_docs.py:188-225 | the directory gains exactly one file, under the first free name, holding the text; every existing file keeps its content |
| ApifoxCrawler.PageText | src/rag/crawl_apifox_docs.py:216-220 | the saved text: the title line, the source header, a rule, then the Markdown; `PageTextSource` states that it names its URL |
| ApifoxCrawler.SourceOfPage | src/rag/auto_update_docs.py:84-89 | a text whose third line is a source header has as its source the URL the reading takes from it |
| ApifoxCrawler.SourceAfterTitle | src/rag/crawl_apifox_docs.py:216-220 | a text of a title line, a blank line and the source header has as its source what the reading takes from that header |
| ApifoxCrawler.PageTextSource | src/rag/crawl_apifox_docs.py:216-220 | with the corrected reading, every saved page names its own URL |
| ApifoxCrawler.AsWrittenPageSource | src/rag/auto_update_docs.py:86 | as written, every saved page of an "https:" address has the source "https" |
| ApifoxCrawler.AsWrittenCheck | src/rag/auto_update_docs.py:75-153 | as written, a check over files this crawler wrote for "https:" pages keeps at most one page, under the URL "https" |
| ApifoxCrawler.CrawlStep | src/rag/crawl_apifox_docs.py:63-80 | one turn of the loop either crawls one more page or only drops the head of the queue |
| ApifoxCrawler.CrawlFrom | src/rag/crawl_apifox_docs.py:62-80 | `CrawlStep` repeated until the queue is empty or max_pages pages were crawled; the lemmas after it state its properties |
| ApifoxCrawler.StepFifo | src/rag/crawl_apifox_docs.py:63-80 | the rest of the queue stays at its front, in order; every appended URL is a link of the page just crawled that was not queued |
| ApifoxCrawler.CrawlBudget | src/rag/crawl_apifox_docs.py:62-80 | the count never exceeds max_pages; the loop ends only with an empty queue or a full budget |
| ApifoxCrawler.CrawlVisits | src/rag/crawl_apifox_docs.py:63-74 | the visited set only grows, by exactly one URL per crawled page, and each new URL's page succeeded |
| ApifoxCrawler.CrawlFiles | src/rag/crawl_apifox_docs.py:188-225 | one new file per crawled page; existing files keep their content |
| ApifoxCrawler.CrawlNoDup | src/rag/crawl_apifox_docs.py:166-186 | a queue without duplicates stays without duplicates |
| ApifoxCrawler.CrawlExhausts | src/rag/crawl_apifox_docs.py:62-80 | when the budget is not used up, every URL queued at the start was visited or its page failed |
| ApifoxCrawler.Crawler.constructor | src/rag/crawl_apifox_docs.py:20-32 | nothing visited, an empty queue, the existing files |
| ApifoxCrawler.Crawler.ExtractLinks | src/rag/crawl_apifox_docs.py:166-186 | the queue becomes `Enqueued` with this crawler's filter |
| ApifoxCrawler.Crawler.SavePage | src/rag/crawl_apifox_docs.py:188-225 | the page text is stored under the first free name for the title |
| ApifoxCrawler.Crawler.CrawlPage | src/rag/crawl_apifox_docs.py:87-119 | a missing page changes nothing; otherwise the page is saved under its extracted title, then its links are queued |
| ApifoxCrawler.Crawler.Visit | src/rag/crawl_apifox_docs.py:71-80 | succeeds exactly when the page does; then the URL is visited, the queue is the old one with the page's wanted links appended (filtered by the URLs visited before), and the page text is saved under the first free name; otherwise nothing changes |
| ApifoxCrawler.Crawler.Crawl | src/rag/crawl_apifox_docs.py:49-85 | the visited set, queue, files and count are those of `CrawlFrom` from the queue with the base URL appended, so `CrawlBudget`, `CrawlVisits`, `CrawlFiles`, `CrawlNoDup`, `CrawlExhausts` and `StepFifo` describe it |
| SimpleCrawler.PageTitle | src/rag/simple_crawler.py:64-84 | the stripped h1 or title text, or "未命名" when that is missing or blank; never empty |
| SimpleCrawler.ToMarkdown | src/rag/simple_crawler.py:100-121 | the three header lines and each element's line, joined by line breaks |
| SimpleCrawler.ConvertedSource | src/rag/simple_crawler.py:100-121 | a converted page has as its source what the reading takes from its header |
| SimpleCrawler.MarkdownSource | src/rag/simple_crawler.py:100-121 | with the corrected reading, a converted page names its own URL to the updater |
| SimpleCrawler.AsWrittenMarkdownSource | src/rag/auto_update_docs.py:86 | as written, every converted page of an "https:" address has the source "https" |
| SimpleCrawler.SourceLineText | src/rag/simple_crawler.py:104 | the second header line is the updater's source header |
| SimpleCrawler.KeepNameChars | src/rag/simple_crawler.py:137 | only alphanumerics, " ", "-" and "_" remain |
| SimpleCrawler.StripNameChars | src/rag/simple_crawler.py:137 | stripping keeps a name made of those characters so |
| SimpleCrawler.SafeTitle | src/rag/simple_crawler.py:137-139 | never empty: "未命名" or a clean name |
| SimpleCrawler.Convert | src/rag/simple_crawler.py:56-76 | a fetched page as it is saved and followed: cleaned title, converted text and links; `MarkdownSource` states that the text names its URL |
| SimpleCrawler.Crawler.constructor | src/rag/simple_crawler.py:23-28 | nothing visited, the queue holding the base URL, the existing files |
| SimpleCrawler.Crawler.ExtractLinks | src/rag/simple_crawler.py:123-132 | same-host, unvisited, unqueued links are appended, with no file-type or fragment filter |
| SimpleCrawler.Crawler.SaveFile | src/rag/simple_crawler.py:134-152 | the text is stored under the first free name for the cleaned title |
| SimpleCrawler.Crawler.CrawlPage | src/rag/simple_crawler.py:56-76 | a missing page changes nothing; otherwise the page is converted and saved under its cleaned title, then its links are queued |
| SimpleCrawler.Crawler.Visit | src/rag/simple_crawler.py:45-52 | succeeds exactly when the page does; then the URL is visited, the queue is the old one with the page's same-host unvisited links appended, and the converted page is saved under the first free name for its cleaned title; otherwise nothing changes |
| SimpleCrawler.Crawler.Crawl | src/rag/simple_crawler.py:30-54 | the visited set, queue, files and count are those of `CrawlFrom` from the initial queue, so the budget, visit, file, no-duplicate, exhaustion and first-in first-out lemmas describe it |

## Left out

**I/O and collaborators**
- HTTP, HTML parsing and URL handling are parameters. Parsing with BeautifulSoup gives the first title selector's text, the body elements and the absolute link targets. The content extraction removes script, style, nav, footer and header elements before links are extracted, so the link targets never include links inside those elements. Link targets arrive already made absolute by `urljoin`, and `urlparse` appears only as a `netloc` function; a link that `urljoin` or `urlparse` rejects is not modelled (see the crawler lines below).
- Markdown conversion is a parameter.
- File reading, writing and existence checks are parameters, and so are md5 hashing and `json.dump`/`json.load` of the metadata file.
- The knowledge base's vector store, embeddings and text splitting are parameters, and so is the `Anthropic` client call. Any exception in them appears as a `None` or `Failure` outcome.
- `json.loads` and `float()` are parameters. The value `float()` returns for a number, and floating-point rounding in `int(confidence * 100)`, are modelled with `real`.
- Jinja rendering is a parameter.
- The clock is an integer in microseconds. Where one message reads it twice, in the activity check and then in `process_response` or `start_conversation`, `WeCom.Handle`, `FeishuChat.Handle` and both `HandleMessage` methods take the two readings as `now` and `later`. The rest of the manager reads it once per call.
- Logging is left out.
- `send_message` has no effect beyond the log. A failed delivery is only logged in the source, so every call is recorded.
- The FastAPI webhook plumbing, the scheduler, the build scripts and `rebuild_knowledge_base` are not part of this model. The same goes for `_send_notification`, `get_record`, `update_record`, `init_client`/`close_client` and `extract_content`.

**Configuration**
- The configured questions and the Feishu column mappings are constructor parameters. The repository's own `Config` has no `info_collection` or `feishu_ticket` attribute.
- YAML loading and pydantic validation are left out.
- `ConfigLoader.RagSettings` states only the defaults for a missing "rag" section. Given fields are passed to `RAGConfig` without validation.

- `FeishuTickets.CalculatePriority` omits `.lower()` on the description (feishu_integration.py:131): every keyword is CJK text, which has no case, so lower-casing cannot change whether a keyword occurs.

**Chat adapters**
- WeCom's `FromUserName` is a dict in the source and is used as a table key. It is modelled as an opaque identity of any type; Python's refusal to hash a dict is not modelled.
- The Feishu event's JSON content is taken as already parsed. A malformed content string is left out.
- `WeCom.AnalysisOutcome`: the knowledge-base search and the classifier together form one `classify` parameter, which returns typed verdict fields. The message of the `TypeError` raised by a clashing keyword is a parameter. A missing key in the classification dict, or a non-numeric confidence, is not modelled.
- Concurrency is not modelled: both adapters handle messages one at a time.

**Knowledge base, updater and crawlers**
- `KnowledgeBase.KnowledgeBase.Search`: the store's own similarity ranking and the `k` it returns are a parameter.
- Per-file timestamps are one `now` text per check.
- `DocsUpdater.AutoDocsUpdater.FullUpdate` does not model the crawl it starts, only the metadata update.
- Metadata that exists but is malformed is not modelled.
- The reading of the source line is a parameter of `DocsUpdater.SourceOf` and of the check. `DocsUpdater.UrlAsWritten` is the reading as written and `DocsUpdater.UrlOf` the corrected one (see "## Findings").
- The `fetch` of the check is the intended conversion of a fetched page; as written the conversion always raises (see "## Findings").
- `DocsUpdater.AutoDocsUpdater.CheckUpdates` does not model the rewrite of a new or updated page's file (auto_update_docs.py:109-110 and 125-130). The source renames an updated file to `.md.backup` and overwrites the file with the converted page, which has no source line, so a later check would skip that file and delete its URL. A write error after `new` was counted would count the page as both new and failed. As written the rewrite is never reached, because the conversion before it raises.
- `SimpleCrawler.Crawler.Visit` and `ApifoxCrawler.Crawler.Visit` do not model a link that `urljoin` or `urlparse` rejects, such as `http://[x`. In the source `extract_links` runs after the page was saved (simple_crawler.py:73-76, crawl_apifox_docs.py:112-115), so its `ValueError` leaves the file written and the links before it queued, while the URL stays unvisited and uncounted; if the URL is reached again, a second file "title_1.md" is written. The model treats every page either as crawled in full or as a failed fetch that changes nothing.
- `SimpleCrawler.Crawler.Visit`: a write error in `save_file` propagates before any link is queued, so the URL stays unvisited and uncounted as after a failed fetch; a file already opened for writing, which the source may leave behind empty, is not modelled.
- `ApifoxCrawler.Crawler.SavePage` assumes every write succeeds. `save_page` catches its own errors (crawl_apifox_docs.py:224-225), so in the source a failed write leaves no file while the page is still counted and its links are queued.
- A BeautifulSoup element counts as a match when it is found; the truthiness of an empty element is not modelled.
- "/" kept in an Apifox title, which would name a sub-directory, is treated as part of the file name.

## Findings

| source | as written | input that shows it | evidently intended | confidence | as-written member | corrected member |
|---|---|---|---|---|---|---|
| src/rag/auto_update_docs.py:86 | `line.split(":")[1].strip()` keeps only the text between the first and second ":" | the header both crawlers write, "**来源**: https://apifox.com/help/", yields "https" | `line.split(":", 1)[1].strip()`, which is the whole URL after the marker | not executed | ApifoxCrawler.AsWrittenCheck | DocsUpdater.HeaderRoundTrip |
| src/rag/auto_update_docs.py:98-99 | `crawler.extract_content(response.text)` passes the response text, a `str`, where a parsed page is expected, and `crawler.markdownify` is not a method of the crawler | any file with a source line whose page is fetched: `str` has no `find_all`, so the conversion raises, the file counts as failed and its URL is deleted | parse the text with BeautifulSoup and convert it with `markdownify`, as `crawl_page` does | not executed | DocsUpdater.AsWrittenConversion | DocsUpdater.ConfirmedHash |

=== FILE: auto_update_docs.dfy ===
/** The documentation updater: the metadata kept about crawled pages, the
    per-file check that classifies each page as new, updated, unchanged
    or failed, the sweep that drops pages no longer confirmed, and the
    decision between a full and an incremental update. Fetching a page,
    hashing and the clock are parameters. */
module DocsUpdater {
  import opened Wrappers
  import opened Text

  /** What the metadata records about one page. */
  datatype PageInfo = PageInfo(hash: string, lastUpdate: string, file: string)

  /** The metadata file: time of the last update, pages by URL, version. */
  datatype Metadata = Metadata(lastUpdate: Option<string>, pages: map<string, PageInfo>, version: string)

  /** The metadata used when there is no metadata file. */
  const FreshMetadata := Metadata(None, map[], "1.0")

  /** A Markdown file of the output directory, and its text (`None` when
      opening or decoding it raises). */
  datatype MdFile = MdFile(name: string, content: Option<string>)

  const SourceMarker := "**来源**"

  /** The first line that starts with the source marker. */
  function SourceLine(lines: seq<string>): (r: Option<string>)
    ensures r.Some? ==> StartsWith(r.value, SourceMarker) && r.value in lines
    ensures r.None? <==> forall i :: 0 <= i < |lines| ==> !StartsWith(lines[i], SourceMarker)
  {
    if |lines| == 0 then None
    else if StartsWith(lines[0], SourceMarker) then Some(lines[0])
    else
      var r := SourceLine(lines[1..]);
      assert forall i :: 1 <= i < |lines| ==> lines[1..][i - 1] == lines[i];
      r
  }

  /** The URL part of a source line as the source computes it,
      `line.split(":")[1].strip()`: the text between the first and second
      ":"; `None` when the line has no ":" (an `IndexError`). */
  function UrlAsWritten(line: string): (r: Option<string>)
    ensures r.Some? <==> ':' in line
  {
    if ':' in line then Some(Strip(Split(line, ':')[1]))
    else None
  }

  /** The URL part of a source line as intended, `line.split(":", 1)[1].strip()`:
      everything after the first ":". */
  function UrlOf(line: string): (r: Option<string>)
    ensures r.Some? <==> ':' in line
  {
    if ':' in line then Some(Strip(line[IndexOf(line, ':') + 1..])) else None
  }

  /** The source line a crawler writes for a page. */
  function Header(url: string): string {
    SourceMarker + ": " + url
  }

  /** The line that is split, laid out around its first two ":". */
  lemma SecondPiece(a: string, b: string, rest: string, c: char)
    requires c !in a && c !in b
    ensures Split(a + [c] + b + [c] + rest, c)[1] == b
  {
    var s := a + [c] + b + [c] + rest;
    var tail := b + [c] + rest;
    assert s == a + [c] + tail;
    IndexOfAfter(a, c, tail);
    assert s[|a| + 1..] == tail;
    IndexOfAfter(b, c, rest);
    assert tail[..|b|] == b;
  }

  /** As written, the header of a page at "scheme:rest" yields only the
      scheme. */
  lemma HeaderGivesScheme(scheme: string, rest: string)
    requires ':' !in scheme && scheme != [] && !IsSpace(scheme[0]) && !IsSpace(scheme[|scheme| - 1])
    ensures UrlAsWritten(Header(scheme + ":" + rest)) == Some(scheme)
  {
    var line := Header(scheme + ":" + rest);
    assert line == SourceMarker + [':'] + (" " + scheme) + [':'] + rest;
    SecondPiece(SourceMarker, " " + scheme, rest, ':');
    PaddedStrip(scheme);
  }

  /** So every crawled page of an "https:" address reads as the URL
      "https". */
  lemma HttpsHeader(url: string)
    requires StartsWith(url, "https:")
    ensures UrlAsWritten(Header(url)) == Some("https")
  {
    var scheme := "https";
    assert scheme[0] == 'h' && scheme[4] == 's';
    assert ':' !in scheme;
    assert url == scheme + ":" + url[6..];
    HeaderGivesScheme(scheme, url[6..]);
  }

  /** One space before a text without padding is stripped away. */
  lemma PaddedStrip(s: string)
    requires s == [] || (!IsSpace(s[0]) && !IsSpace(s[|s| - 1]))
    ensures Strip(" " + s) == s
  {
    assert (" " + s)[1..] == s;
    assert TrimStart(" " + s) == TrimStart(s) == s;
    StripNoPadding(s);
  }

  /** Corrected: the header of any page gives its URL back. */
  lemma HeaderRoundTrip(url: string)
    requires url == [] || (!IsSpace(url[0]) && !IsSpace(url[|url| - 1]))
    ensures UrlOf(Header(url)) == Some(url)
  {
    var line := Header(url);
    assert line == SourceMarker + [':'] + (" " + url);
    IndexOfAfter(SourceMarker, ':', " " + url);
    assert line[|SourceMarker| + 1..] == " " + url;
    PaddedStrip(url);
  }

  /** Where a file's page comes from: nowhere (the file is skipped), a
      failure before the file is counted (it cannot be read, or its marker
      line has no URL), or a URL. */
  datatype Source = NoSource | Broken | Url(url: string)

  /** The source of a file: no marker line, a marker line `read` finds no
      URL on, or the URL `read` takes from it. `read` is the reading of the
      source line: `UrlAsWritten` as the program has it, `UrlOf` as
      intended. */
  function SourceOf(content: string, read: string -> Option<string>): (r: Source)
    ensures r.NoSource? <==> SourceLine(Split(content, '\n')).None?
  {
    match SourceLine(Split(content, '\n'))
    case None => NoSource
    case Some(line) =>
      match read(line)
      case None => Broken
      case Some(url) => Url(url)
  }

  /** The source of a file: a file that cannot be read fails before it is
      counted, like a marker line without a URL. */
  function FileSource(f: MdFile, read: string -> Option<string>): (r: Source)
    ensures r.NoSource? <==> f.content.Some? && SourceLine(Split(f.content.value, '\n')).None?
  {
    if f.content.None? then Broken else SourceOf(f.content.value, read)
  }

  /** The counters of a check. */
  datatype Stats = Stats(total: nat, updated: nat, added: nat, unmodified: nat, deleted: nat, failed: nat)

  const NoStats := Stats(0, 0, 0, 0, 0, 0)

  /** The state of the per-file loop: counters, pages, and the URLs known
      at the start that no file has confirmed yet. */
  datatype Scan = Scan(stats: Stats, pages: map<string, PageInfo>, pending: set<string>)

  /** The URL a file with source `source` confirms: fetching it succeeds
      (`fetch` gives the page's current Markdown, or `None` when fetching
      or converting raises). */
  function Confirms(source: Source, fetch: string -> Option<string>): set<string> {
    if source.Url? && fetch(source.url).Some? then {source.url} else {}
  }

  /** A confirmed page: counted as new, updated or unchanged, and no longer
      pending. */
  function Record(sc: Scan, url: string, entry: PageInfo): Scan {
    var counted := sc.stats.(total := sc.stats.total + 1);
    if url !in sc.pages then Scan(counted.(added := counted.added + 1), sc.pages[url := entry], sc.pending - {url})
    else if sc.pages[url].hash != entry.hash then Scan(counted.(updated := counted.updated + 1), sc.pages[url := entry], sc.pending - {url})
    else Scan(counted.(unmodified := counted.unmodified + 1), sc.pages, sc.pending - {url})
  }

  /** One file of the check, named `name` with source `source`. */
  function Step(sc: Scan, name: string, source: Source, fetch: string -> Option<string>, hash: string -> string, now: string): Scan {
    match source
    case NoSource => sc
    case Broken => sc.(stats := sc.stats.(failed := sc.stats.failed + 1))
    case Url(url) =>
      match fetch(url)
      case None => sc.(stats := sc.stats.(total := sc.stats.total + 1, failed := sc.stats.failed + 1))
      case Some(markdown) => Record(sc, url, PageInfo(hash(markdown), now, name))
  }

  /** One file adds the URL it confirms to the pages and takes it off the
      pending ones; a confirmed page holds the hash of its content, and
      every other page is left as it was. */
  lemma StepKeys(sc: Scan, name: string, source: Source, fetch: string -> Option<string>, hash: string -> string, now: string)
    ensures Step(sc, name, source, fetch, hash, now).pages.Keys == sc.pages.Keys + Confirms(source, fetch)
    ensures Step(sc, name, source, fetch, hash, now).pending == sc.pending - Confirms(source, fetch)
    ensures forall url :: url in Confirms(source, fetch) ==>
      fetch(url).Some? && Step(sc, name, source, fetch, hash, now).pages[url].hash == hash(fetch(url).value)
    ensures forall url :: url in sc.pages && url !in Confirms(source, fetch) ==>
      Step(sc, name, source, fetch, hash, now).pages[url] == sc.pages[url]
  {
  }

  /** One file raises the results by at most one and counts in `total`
      only what it also counts as a result or a failure. */
  lemma StepCounts(sc: Scan, name: string, source: Source, fetch: string -> Option<string>, hash: string -> string, now: string)
    ensures var s := sc.stats;
      var t := Step(sc, name, source, fetch, hash, now).stats;
      var before := s.added + s.updated + s.unmodified;
      var after := t.added + t.updated + t.unmodified;
      && before <= after && s.total <= t.total && s.failed <= t.failed
      && after - before <= t.total - s.total <= after - before + t.failed - s.failed
      && after + t.failed <= before + s.failed + 1
      && t.deleted == s.deleted
  {
  }

  /** The loop over `files`, from `start`. */
  function Scanned(start: Scan, files: seq<MdFile>, read: string -> Option<string>, fetch: string -> Option<string>,
                   hash: string -> string, now: string): Scan
    decreases |files|
  {
    if |files| == 0 then start
    else
      var last := files[|files| - 1];
      Step(Scanned(start, files[..|files| - 1], read, fetch, hash, now), last.name, FileSource(last, read), fetch, hash, now)
  }

  /** The URLs some file confirmed. */
  function Confirmed(files: seq<MdFile>, read: string -> Option<string>, fetch: string -> Option<string>): set<string>
    decreases |files|
  {
    if |files| == 0 then {}
    else Confirmed(files[..|files| - 1], read, fetch) + Confirms(FileSource(files[|files| - 1], read), fetch)
  }

  /** The start of a check over `pages`. */
  function Begin(pages: map<string, PageInfo>): Scan {
    Scan(NoStats, pages, pages.Keys)
  }

  /** The whole check: the loop, then every URL still pending is deleted. */
  function Checked(pages: map<string, PageInfo>, files: seq<MdFile>, read: string -> Option<string>,
                   fetch: string -> Option<string>, hash: string -> string, now: string): (Stats, map<string, PageInfo>)
  {
    var sc := Scanned(Begin(pages), files, read, fetch, hash, now);
    (sc.stats.(deleted := |sc.pending|), sc.pages - sc.pending)
  }

  /** During the loop the pages are the ones known at the start plus the
      confirmed ones, and the pending URLs are the known ones not yet
      confirmed. */
  lemma {:induction false} ScanKeys(pages: map<string, PageInfo>, files: seq<MdFile>, read: string -> Option<string>,
                                    fetch: string -> Option<string>, hash: string -> string, now: string)
    ensures Scanned(Begin(pages), files, read, fetch, hash, now).pages.Keys == pages.Keys + Confirmed(files, read, fetch)
    ensures Scanned(Begin(pages), files, read, fetch, hash, now).pending == pages.Keys - Confirmed(files, read, fetch)
    decreases |files|
  {
    if |files| > 0 {
      var init := files[..|files| - 1];
      ScanKeys(pages, init, read, fetch, hash, now);
      StepKeys(Scanned(Begin(pages), init, read, fetch, hash, now), files[|files| - 1].name, FileSource(files[|files| - 1], read), fetch, hash, now);
    }
  }

  /** After a check exactly the confirmed URLs are left: every URL known
      before that no file confirmed, including those whose fetch failed,
      is deleted. */
  lemma CheckedKeys(pages: map<string, PageInfo>, files: seq<MdFile>, read: string -> Option<string>,
                    fetch: string -> Option<string>, hash: string -> string, now: string)
    ensures Checked(pages, files, read, fetch, hash, now).1.Keys == Confirmed(files, read, fetch)
    ensures Checked(pages, files, read, fetch, hash, now).0.deleted == |pages.Keys - Confirmed(files, read, fetch)|
  {
    ScanKeys(pages, files, read, fetch, hash, now);
  }

  /** A confirmed page records the hash of its current content. */
  lemma {:induction false} ConfirmedHash(pages: map<string, PageInfo>, files: seq<MdFile>, read: string -> Option<string>,
                                         fetch: string -> Option<string>, hash: string -> string, now: string, url: string)
    requires url in Confirmed(files, read, fetch)
    ensures fetch(url).Some?
    ensures var sc := Scanned(Begin(pages), files, read, fetch, hash, now);
      url in sc.pages && sc.pages[url].hash == hash(fetch(url).value)
    decreases |files|
  {
    var init := files[..|files| - 1];
    if url in Confirmed(init, read, fetch) {
      ConfirmedHash(pages, init, read, fetch, hash, now, url);
    }
    StepKeys(Scanned(Begin(pages), init, read, fetch, hash, now), files[|files| - 1].name, FileSource(files[|files| - 1], read), fetch, hash, now);
  }

  /** Every file counted in `total` is new, updated, unchanged or failed;
      every file that changes a counter is counted once. */
  lemma {:induction false} ScanCounts(start: Scan, files: seq<MdFile>, read: string -> Option<string>,
                                      fetch: string -> Option<string>, hash: string -> string, now: string)
    requires start.stats == NoStats
    ensures var s := Scanned(start, files, read, fetch, hash, now).stats;
      && s.added + s.updated + s.unmodified <= s.total <= s.added + s.updated + s.unmodified + s.failed
      && s.added + s.updated + s.unmodified + s.failed <= |files|
      && s.deleted == 0
    decreases |files|
  {
    if |files| > 0 {
      var init := files[..|files| - 1];
      ScanCounts(start, init, read, fetch, hash, now);
      StepCounts(Scanned(start, init, read, fetch, hash, now), files[|files| - 1].name, FileSource(files[|files| - 1], read), fetch, hash, now);
    }
  }

  /** When every file's source is `url` or none, no other URL is
      confirmed. */
  lemma {:induction false} ConfirmedOnly(files: seq<MdFile>, read: string -> Option<string>,
                                         fetch: string -> Option<string>, url: string)
    requires forall i :: 0 <= i < |files| ==> FileSource(files[i], read) in {NoSource, Url(url)}
    ensures Confirmed(files, read, fetch) <= {url}
    decreases |files|
  {
    if |files| > 0 {
      var init := files[..|files| - 1];
      forall i | 0 <= i < |init|
        ensures FileSource(init[i], read) in {NoSource, Url(url)}
      {
        assert init[i] == files[i];
      }
      ConfirmedOnly(init, read, fetch, url);
    }
  }

  /** So a check over such files keeps at most that one page. */
  lemma SingleSourceCheck(pages: map<string, PageInfo>, files: seq<MdFile>, read: string -> Option<string>,
                          fetch: string -> Option<string>, hash: string -> string, now: string, url: string)
    requires forall i :: 0 <= i < |files| ==> FileSource(files[i], read) in {NoSource, Url(url)}
    ensures Checked(pages, files, read, fetch, hash, now).1.Keys <= {url}
    ensures |Checked(pages, files, read, fetch, hash, now).1| <= 1
  {
    ConfirmedOnly(files, read, fetch, url);
    CheckedKeys(pages, files, read, fetch, hash, now);
    AtMostOneKey(Checked(pages, files, read, fetch, hash, now).1, url);
  }

  /** A map whose keys are among one key holds at most one entry. */
  lemma AtMostOneKey<K, V>(m: map<K, V>, key: K)
    requires m.Keys <= {key}
    ensures |m| <= 1
  {
    if key in m {
      assert m.Keys == {key};
    } else {
      assert m.Keys == {};
    }
  }

  /** The page reading as written: the fetched text goes unparsed to the
      crawler's content extraction, which raises, so no file ever obtains
      its page. */
  function NeverConverted(url: string): (r: Option<string>)
    ensures r.None?
  {
    None
  }

  /** As written, the loop leaves the pages, the pending URLs and the
      result counters as they were. */
  lemma {:induction false} NothingRecorded(start: Scan, files: seq<MdFile>, read: string -> Option<string>,
                                           hash: string -> string, now: string)
    ensures var sc := Scanned(start, files, read, NeverConverted, hash, now);
      && sc.pages == start.pages && sc.pending == start.pending
      && sc.stats.added == start.stats.added && sc.stats.updated == start.stats.updated
      && sc.stats.unmodified == start.stats.unmodified && sc.stats.deleted == start.stats.deleted
    decreases |files|
  {
    if |files| > 0 {
      NothingRecorded(start, files[..|files| - 1], read, hash, now);
    }
  }

  /** As written, a check counts no page as new, updated or unchanged,
      deletes every known page, and so a smart update never rebuilds. */
  lemma AsWrittenConversion(pages: map<string, PageInfo>, files: seq<MdFile>, read: string -> Option<string>,
                            hash: string -> string, now: string, force: bool, lastUpdate: Option<string>)
    ensures var (stats, kept) := Checked(pages, files, read, NeverConverted, hash, now);
      && kept == map[] && stats.added == 0 && stats.updated == 0 && stats.unmodified == 0
      && stats.deleted == |pages|
      && !SmartPlan(force, lastUpdate, stats.added + stats.updated).rebuild
  {
    NothingRecorded(Begin(pages), files, read, hash, now);
    var kept := Checked(pages, files, read, NeverConverted, hash, now).1;
    assert kept.Keys == {};
  }

  /** The body of the per-file loop of `check_updates`. */
  method CheckFile(sc: Scan, name: string, source: Source, fetch: string -> Option<string>, hash: string -> string, now: string)
    returns (next: Scan)
    ensures next == Step(sc, name, source, fetch, hash, now)
  {
    var stats, pages, known := sc.stats, sc.pages, sc.pending;
    if source.Broken? {
      stats := stats.(failed := stats.failed + 1);
    } else if source.Url? {
      var url := source.url;
      stats := stats.(total := stats.total + 1);
      var markdown := fetch(url);
      if markdown.None? {
        stats := stats.(failed := stats.failed + 1);
      } else {
        var h := hash(markdown.value);
        if url !in pages {
          stats := stats.(added := stats.added + 1);
          pages := pages[url := PageInfo(h, now, name)];
        } else if pages[url].hash != h {
          stats := stats.(updated := stats.updated + 1);
          pages := pages[url := PageInfo(h, now, name)];
        } else {
          stats := stats.(unmodified := stats.unmodified + 1);
        }
        known := known - {url};
      }
    }
    next := Scan(stats, pages, known);
  }

  /** The per-file loop of `check_updates`, from zero counters and every
      known URL pending. */
  method ScanFiles(pages: map<string, PageInfo>, files: seq<MdFile>, read: string -> Option<string>,
                   fetch: string -> Option<string>, hash: string -> string, now: string)
    returns (sc: Scan)
    ensures sc == Scanned(Begin(pages), files, read, fetch, hash, now)
  {
    sc := Begin(pages);
    var i := 0;
    while i < |files|
      invariant 0 <= i <= |files|
      invariant sc == Scanned(Begin(pages), files[..i], read, fetch, hash, now)
    {
      assert files[..i + 1][..i] == files[..i];
      sc := CheckFile(sc, files[i].name, FileSource(files[i], read), fetch, hash, now);
      i := i + 1;
    }
    assert files[..i] == files;
  }

  /** The deletion loop of `check_updates`: each pending URL is removed and
      counted. */
  method DropPending(pages: map<string, PageInfo>, pending: set<string>)
    returns (kept: map<string, PageInfo>, deleted: nat)
    ensures kept == pages - pending && deleted == |pending|
  {
    kept := pages;
    deleted := 0;
    var known := pending;
    while known != {}
      invariant known <= pending
      invariant kept == pages - (pending - known)
      invariant deleted + |known| == |pending|
      decreases |known|
    {
      var url :| url in known;
      ghost var gone := pending - known;
      assert pending - (known - {url}) == gone + {url};
      assert kept - {url} == pages - (gone + {url});
      deleted := deleted + 1;
      kept := kept - {url};
      known := known - {url};
    }
    assert pending - known == pending;
  }

  /** `smart_update`'s plan: whether a check runs, whether a full update
      runs, and whether the knowledge base must be rebuilt. */
  datatype Plan = Plan(check: bool, full: bool, rebuild: bool)

  /** A first run (no truthy last-update time) or a forced run is a full
      update only; otherwise a check, a full update after more than ten
      new or updated pages, and a rebuild after any. */
  function SmartPlan(force: bool, lastUpdate: Option<string>, changed: nat): (p: Plan)
    ensures p.check <==> !force && lastUpdate.Some? && lastUpdate.value != ""
    ensures p.rebuild <==> p.check && changed > 0
    ensures p.full <==> !p.check || changed > 10
  {
    if force || lastUpdate.None? || lastUpdate.value == "" then Plan(false, true, false)
    else Plan(true, changed > 10, changed > 0)
  }

  /** The updater and its metadata. */
  class AutoDocsUpdater {
    var metadata: Metadata

    /** `_load_metadata`: the stored metadata, or the fresh one. */
    constructor(stored: Option<Metadata>)
      ensures metadata == stored.GetOr(FreshMetadata)
    {
      metadata := stored.GetOr(FreshMetadata);
    }

    /** `check_updates`: every file is checked, then the pending URLs are
        deleted and the time is recorded. */
    method CheckUpdates(files: seq<MdFile>, read: string -> Option<string>, fetch: string -> Option<string>, hash: string -> string, now: string)
      returns (stats: Stats)
      modifies this
      ensures (stats, metadata.pages) == Checked(old(metadata.pages), files, read, fetch, hash, now)
      ensures metadata.lastUpdate == Some(now) && metadata.version == old(metadata.version)
    {
      var sc := ScanFiles(metadata.pages, files, read, fetch, hash, now);
      var pages, deleted := DropPending(sc.pages, sc.pending);
      stats := sc.stats.(deleted := deleted);
      metadata := metadata.(lastUpdate := Some(now), pages := pages);
    }

    /** `full_update`: the crawl itself is not modelled; the metadata gets
        the new time. */
    method FullUpdate(now: string)
      modifies this
      ensures metadata == old(metadata).(lastUpdate := Some(now))
    {
      metadata := metadata.(lastUpdate := Some(now));
    }

    /** `smart_update`: follows `SmartPlan`, with the number of new and
        updated pages of the check it runs. */
    method SmartUpdate(force: bool, files: seq<MdFile>, read: string -> Option<string>,
                       fetch: string -> Option<string>, hash: string -> string, now: string)
      returns (rebuild: bool)
      modifies this
      ensures var (stats, pages) := Checked(old(metadata.pages), files, read, fetch, hash, now);
        var plan := SmartPlan(force, old(metadata.lastUpdate), stats.added + stats.updated);
        && rebuild == plan.rebuild
        && metadata.pages == (if plan.check then pages else old(metadata.pages))
      ensures metadata.lastUpdate == Some(now) && metadata.version == old(metadata.version)
    {
      if force || metadata.lastUpdate.None? || metadata.lastUpdate.value == "" {
        FullUpdate(now);
        return false;
      }
      var stats := CheckUpdates(files, read, fetch, hash, now);
      if stats.updated + stats.added > 10 {
        FullUpdate(now);
      }
      rebuild := stats.updated + stats.added > 0;
    }
  }
}

=== FILE: config_loader.dfy ===
/** Configuration loading: `${NAME}` / `${NAME:default}` substitution over
    the YAML tree, and the selection of bot and retrieval settings. The
    pattern `\$\{([^}:]+)(?::([^}]*))?\}` is matched by a hand-written
    scanner, proved against a description of the text it accepts. YAML
    parsing and pydantic validation are left out. */
module ConfigLoader {
  import opened Wrappers
  import opened Dicts
  import opened Text
  import opened PyValues

  /** One match of the pattern at the start of a text: the variable name,
      the default (group 2, absent when there is no ":"), and the length of
      the matched text. */
  datatype Token = Token(name: string, default: Option<string>, length: nat)

  /** The text of a placeholder. */
  function TokenText(name: string, default: Option<string>): string {
    "${" + name + (if default.Some? then ":" + default.value else "") + "}"
  }

  /** What the pattern accepts: a name of one or more characters other than
      "}" and ":", and a default without "}". */
  predicate Placeholder(name: string, default: Option<string>) {
    && |name| >= 1 && '}' !in name && ':' !in name
    && (default.Some? ==> '}' !in default.value)
  }

  /** The length of the run of name characters starting at `j`. */
  function NameLength(s: string, j: nat): (n: nat)
    requires j <= |s|
    ensures j + n <= |s|
    ensures forall k :: j <= k < j + n ==> s[k] != '}' && s[k] != ':'
    ensures j + n == |s| || s[j + n] == '}' || s[j + n] == ':'
    decreases |s| - j
  {
    if j == |s| || s[j] == '}' || s[j] == ':' then 0 else 1 + NameLength(s, j + 1)
  }

  /** The scanner: a match at the start of `s`, if the pattern has one. */
  function MatchToken(s: string): (r: Option<Token>)
    ensures r.Some? ==> 3 <= r.value.length <= |s|
  {
    if |s| < 2 || s[0] != '$' || s[1] != '{' then None
    else
      var n := NameLength(s, 2);
      if n == 0 || 2 + n == |s| then None
      else if s[2 + n] == '}' then Some(Token(s[2..2 + n], None, 3 + n))
      else
        var k := IndexOf(s[3 + n..], '}');
        if k < 0 then None
        else Some(Token(s[2..2 + n], Some(s[3 + n..3 + n + k]), 4 + n + k))
  }

  /** Everything the scanner matches is a placeholder, spelled out exactly
      by the matched text. */
  lemma MatchSound(s: string)
    requires MatchToken(s).Some?
    ensures var t := MatchToken(s).value;
      Placeholder(t.name, t.default) && s[..t.length] == TokenText(t.name, t.default)
  {
    var n := NameLength(s, 2);
    NameRunChars(s, 2, n);
    if s[2 + n] == '}' {
      assert MatchToken(s) == Some(Token(s[2..2 + n], None, 3 + n));
      SpelledPlain(s, n);
    } else {
      var k := IndexOf(s[3 + n..], '}');
      assert MatchToken(s) == Some(Token(s[2..2 + n], Some(s[3 + n..3 + n + k]), 4 + n + k));
      assert s[3 + n..][..k] == s[3 + n..3 + n + k];
      SpelledWithDefault(s, n, k);
    }
  }

  /** A run of name characters holds neither "}" nor ":". */
  lemma NameRunChars(s: string, j: nat, n: nat)
    requires j + n <= |s|
    requires forall k :: j <= k < j + n ==> s[k] != '}' && s[k] != ':'
    ensures '}' !in s[j..j + n] && ':' !in s[j..j + n]
  {
    var run := s[j..j + n];
    forall i | 0 <= i < n
      ensures run[i] != '}' && run[i] != ':'
    {
      assert run[i] == s[j + i];
    }
  }

  /** A text that starts "${", a name and "}" is spelled out by its name. */
  lemma SpelledPlain(s: string, n: nat)
    requires 3 + n <= |s| && s[0] == '$' && s[1] == '{' && s[2 + n] == '}'
    ensures s[..3 + n] == "${" + s[2..2 + n] + "}"
  {
    var rhs := "${" + s[2..2 + n] + "}";
    forall i | 0 <= i < 3 + n
      ensures s[..3 + n][i] == rhs[i]
    {
      if 2 <= i < 2 + n {
        assert rhs[i] == s[2..2 + n][i - 2];
      }
    }
  }

  /** The same with a ":" and a default between the name and the "}". */
  lemma SpelledWithDefault(s: string, n: nat, k: nat)
    requires 4 + n + k <= |s| && s[0] == '$' && s[1] == '{' && s[2 + n] == ':' && s[3 + n + k] == '}'
    ensures s[..4 + n + k] == "${" + s[2..2 + n] + (":" + s[3 + n..3 + n + k]) + "}"
  {
    var rhs := "${" + s[2..2 + n] + (":" + s[3 + n..3 + n + k]) + "}";
    forall i | 0 <= i < 4 + n + k
      ensures s[..4 + n + k][i] == rhs[i]
    {
      if 2 <= i < 2 + n {
        assert rhs[i] == s[2..2 + n][i - 2];
      } else if 3 + n <= i < 3 + n + k {
        assert rhs[i] == s[3 + n..3 + n + k][i - 3 - n];
      }
    }
  }

  /** Every placeholder at the start of a text is what the scanner matches:
      with the pattern's greedy groups no other match is possible there. */
  lemma MatchComplete(s: string, name: string, default: Option<string>)
    requires Placeholder(name, default) && StartsWith(s, TokenText(name, default))
    ensures MatchToken(s) == Some(Token(name, default, |TokenText(name, default)|))
  {
    PlaceholderLayout(s, name, default);
    MatchLayout(s, name, default);
  }

  /** The scanner on a text laid out as a placeholder. */
  lemma MatchLayout(s: string, name: string, default: Option<string>)
    requires |name| >= 1 && |s| > |name| + 2 && s[0] == '$' && s[1] == '{' && s[2..2 + |name|] == name
    requires forall k :: 2 <= k < 2 + |name| ==> s[k] != '}' && s[k] != ':'
    requires default.None? ==> s[2 + |name|] == '}'
    requires default.Some? ==> var d := default.value;
      && '}' !in d && s[2 + |name|] == ':' && |s| > 3 + |name| + |d|
      && s[3 + |name|..3 + |name| + |d|] == d && s[3 + |name| + |d|] == '}'
    ensures MatchToken(s) == Some(Token(name, default, |TokenText(name, default)|))
  {
    TokenLength(name, default);
    if default.Some? {
      DefaultEnd(s, |name|, default.value);
      ScanWithDefault(s, name, default.value);
    } else {
      ScanPlain(s, name);
    }
  }

  /** The scanner on "${", a name and "}". */
  lemma ScanPlain(s: string, name: string)
    requires |name| >= 1 && |s| > 2 + |name| && s[0] == '$' && s[1] == '{' && s[2..2 + |name|] == name
    requires forall k :: 2 <= k < 2 + |name| ==> s[k] != '}' && s[k] != ':'
    requires s[2 + |name|] == '}'
    ensures MatchToken(s) == Some(Token(name, None, 3 + |name|))
  {
    NameRunLength(s, 2, |name|);
  }

  /** The scanner on "${", a name, ":" and a default followed by its
      first "}". */
  lemma ScanWithDefault(s: string, name: string, d: string)
    requires |name| >= 1 && |s| > 3 + |name| + |d| && s[0] == '$' && s[1] == '{' && s[2..2 + |name|] == name
    requires forall j :: 2 <= j < 2 + |name| ==> s[j] != '}' && s[j] != ':'
    requires s[2 + |name|] == ':' && IndexOf(s[3 + |name|..], '}') == |d|
    requires s[3 + |name|..3 + |name| + |d|] == d
    ensures MatchToken(s) == Some(Token(name, Some(d), 4 + |name| + |d|))
  {
    var n := |name|;
    NameRunLength(s, 2, n);
    assert 2 + n != |s| && s[2 + n] != '}';
  }

  lemma TokenLength(name: string, default: Option<string>)
    ensures |TokenText(name, default)| == if default.Some? then 4 + |name| + |default.value| else 3 + |name|
  {
  }

  /** The default ends at the first "}" after the ":". */
  lemma DefaultEnd(s: string, n: nat, d: string)
    requires '}' !in d && |s| > 3 + n + |d|
    requires s[3 + n..3 + n + |d|] == d && s[3 + n + |d|] == '}'
    ensures IndexOf(s[3 + n..], '}') == |d|
  {
    var rest := s[3 + n..];
    assert rest == d + ['}'] + rest[|d| + 1..] by {
      assert forall k :: 0 <= k < |d| ==> rest[k] == d[k];
    }
    IndexOfAfter(d, '}', rest[|d| + 1..]);
  }

  /** Where the parts of a placeholder sit in a text that starts with it. */
  lemma PlaceholderLayout(s: string, name: string, default: Option<string>)
    requires Placeholder(name, default) && StartsWith(s, TokenText(name, default))
    ensures |s| > |name| + 2 && s[0] == '$' && s[1] == '{' && s[2..2 + |name|] == name
    ensures forall k :: 2 <= k < 2 + |name| ==> s[k] != '}' && s[k] != ':'
    ensures default.None? ==> s[2 + |name|] == '}'
    ensures default.Some? ==> var d := default.value;
      && s[2 + |name|] == ':' && |s| > 3 + |name| + |d|
      && s[3 + |name|..3 + |name| + |d|] == d && s[3 + |name| + |d|] == '}'
  {
    var text := TokenText(name, default);
    assert s[..|text|] == text;
    assert forall k :: 2 <= k < 2 + |name| ==> s[k] == name[k - 2];
  }

  /** A run of `n` name characters followed by "}" or ":" has length `n`. */
  lemma {:induction false} NameRunLength(s: string, j: nat, n: nat)
    requires j + n < |s|
    requires forall k :: j <= k < j + n ==> s[k] != '}' && s[k] != ':'
    requires s[j + n] == '}' || s[j + n] == ':'
    ensures NameLength(s, j) == n
    decreases n
  {
    if n > 0 {
      NameRunLength(s, j + 1, n - 1);
    }
  }

  /** `os.getenv(name, default)`: a set variable wins, even when it is set
      to the empty text; otherwise the default, or "" without one. */
  function Lookup(t: Token, env: map<string, string>): (r: string)
    ensures t.name in env ==> r == env[t.name]
    ensures t.name !in env ==> r == t.default.GetOr("")
  {
    if t.name in env then env[t.name] else t.default.GetOr("")
  }

  /** `re.sub(pattern, replacer, s)`: matches are replaced left to right
      without overlapping, and the replacement text is not scanned again. */
  function Subst(s: string, env: map<string, string>): string
    decreases |s|
  {
    if |s| == 0 then ""
    else
      match MatchToken(s)
      case Some(t) => Lookup(t, env) + Subst(s[t.length..], env)
      case None => [s[0]] + Subst(s[1..], env)
  }

  /** A text in which the pattern matches nowhere is left unchanged. */
  lemma {:induction false} SubstNoMatch(s: string, env: map<string, string>)
    requires forall i :: 0 <= i < |s| ==> MatchToken(s[i..]).None?
    ensures Subst(s, env) == s
    decreases |s|
  {
    if |s| > 0 {
      assert s[0..] == s;
      assert forall i :: 0 <= i < |s| - 1 ==> s[1..][i..] == s[i + 1..];
      SubstNoMatch(s[1..], env);
    }
  }

  /** A placeholder followed by more text: its replacement comes first, and
      only the text after it is scanned further. */
  lemma SubstPlaceholder(name: string, default: Option<string>, rest: string, env: map<string, string>)
    requires Placeholder(name, default)
    ensures Subst(TokenText(name, default) + rest, env) ==
      (if name in env then env[name] else default.GetOr("")) + Subst(rest, env)
  {
    var s := TokenText(name, default) + rest;
    assert s[..|TokenText(name, default)|] == TokenText(name, default);
    MatchComplete(s, name, default);
    assert s[|TokenText(name, default)|..] == rest;
  }

  /** The default runs to the first "}" and may itself hold ":". */
  lemma DefaultMayHoldColon()
    ensures Subst("${A:b:c}", map[]) == "b:c"
  {
    var env := map[];
    var text := TokenText("A", Some("b:c"));
    assert text == "${A:b:c}";
    assert text + "" == text;
    SubstPlaceholder("A", Some("b:c"), "", env);
    assert Subst("", env) == "";
  }

  /** A variable that is set to "" still wins over the default. */
  lemma EmptyVariableWins()
    ensures Subst("${A:d}", map["A" := ""]) == ""
  {
    var env := map["A" := ""];
    var text := TokenText("A", Some("d"));
    assert text == "${A:d}";
    assert text + "" == text;
    SubstPlaceholder("A", Some("d"), "", env);
    assert Subst("", env) == "";
  }

  /** A replacement that looks like a placeholder is not substituted again. */
  lemma NoRescan()
    ensures Subst("${A}", map["A" := "${B}", "B" := "x"]) == "${B}"
  {
    var env := map["A" := "${B}", "B" := "x"];
    var text := TokenText("A", None);
    assert text == "${A}";
    assert text + "" == text;
    SubstPlaceholder("A", None, "", env);
    assert Subst("", env) == "";
  }

  /** An empty name is no placeholder. */
  lemma EmptyNameIsText()
    ensures MatchToken("${}").None? && MatchToken("${:x}").None?
  {
    assert NameLength("${}", 2) == 0;
    assert NameLength("${:x}", 2) == 0;
  }

  /** `_replace_env_variables`: strings are substituted, dict values and
      list items rewritten recursively (keys kept, order kept), anything
      else returned as it is. */
  function ReplaceEnv(v: Value, env: map<string, string>): (r: Value)
    ensures v.VStr? <==> r.VStr?
    ensures v.VStr? ==> r.s == Subst(v.s, env)
    ensures v.VDict? <==> r.VDict?
    ensures v.VList? <==> r.VList?
    ensures v.VDict? ==> Keys(r.entries) == Keys(v.entries)
    ensures v.VList? ==> |r.items| == |v.items|
    ensures !v.VStr? && !v.VDict? && !v.VList? ==> r == v
    decreases v
  {
    match v
    case VStr(s) => VStr(Subst(s, env))
    case VDict(entries) =>
      VDict(seq(|entries|, i requires 0 <= i < |entries| => (entries[i].0, ReplaceEnv(entries[i].1, env))))
    case VList(items) =>
      VList(seq(|items|, i requires 0 <= i < |items| => ReplaceEnv(items[i], env)))
    case _ => v
  }

  /** The string leaves of a configuration tree, depth first and in order;
      dict keys are not leaves. */
  function Leaves(v: Value): seq<string>
    decreases v
  {
    match v
    case VStr(s) => [s]
    case VDict(entries) => Flatten(seq(|entries|, i requires 0 <= i < |entries| => Leaves(entries[i].1)))
    case VList(items) => Flatten(seq(|items|, i requires 0 <= i < |items| => Leaves(items[i])))
    case _ => []
  }

  function Flatten(xs: seq<seq<string>>): seq<string> {
    if |xs| == 0 then [] else xs[0] + Flatten(xs[1..])
  }

  /** Every string of a list substituted on its own. */
  function SubstAll(ss: seq<string>, env: map<string, string>): seq<string> {
    seq(|ss|, i requires 0 <= i < |ss| => Subst(ss[i], env))
  }

  lemma {:induction false} FlattenSubst(xs: seq<seq<string>>, ys: seq<seq<string>>, env: map<string, string>)
    requires |xs| == |ys| && forall i :: 0 <= i < |xs| ==> ys[i] == SubstAll(xs[i], env)
    ensures Flatten(ys) == SubstAll(Flatten(xs), env)
    decreases |xs|
  {
    if |xs| > 0 {
      FlattenSubst(xs[1..], ys[1..], env);
      assert SubstAll(xs[0] + Flatten(xs[1..]), env) == SubstAll(xs[0], env) + SubstAll(Flatten(xs[1..]), env);
    }
  }

  /** The rewrite touches the text of the strings only: the string leaves
      of the result are those of the input, in the same order, each
      substituted. */
  lemma {:induction false} ReplaceEnvLeaves(v: Value, env: map<string, string>)
    ensures Leaves(ReplaceEnv(v, env)) == SubstAll(Leaves(v), env)
    decreases v
  {
    match v
    case VStr(s) =>
    case VDict(entries) =>
      var r := ReplaceEnv(v, env).entries;
      forall i | 0 <= i < |entries| ensures Leaves(r[i].1) == SubstAll(Leaves(entries[i].1), env) {
        ReplaceEnvLeaves(entries[i].1, env);
      }
      FlattenSubst(seq(|entries|, i requires 0 <= i < |entries| => Leaves(entries[i].1)),
                   seq(|r|, i requires 0 <= i < |r| => Leaves(r[i].1)), env);
    case VList(items) =>
      var r := ReplaceEnv(v, env).items;
      forall i | 0 <= i < |items| ensures Leaves(r[i]) == SubstAll(Leaves(items[i]), env) {
        ReplaceEnvLeaves(items[i], env);
      }
      FlattenSubst(seq(|items|, i requires 0 <= i < |items| => Leaves(items[i])),
                   seq(|r|, i requires 0 <= i < |r| => Leaves(r[i])), env);
    case _ =>
  }

  /** With no variables set, every placeholder takes its default: a tree
      without any placeholder text comes back unchanged. */
  predicate NoPlaceholders(v: Value)
    decreases v
  {
    match v
    case VStr(s) => forall i :: 0 <= i < |s| ==> MatchToken(s[i..]).None?
    case VDict(entries) => forall i :: 0 <= i < |entries| ==> NoPlaceholders(entries[i].1)
    case VList(items) => forall i :: 0 <= i < |items| ==> NoPlaceholders(items[i])
    case _ => true
  }

  lemma {:induction false} ReplaceEnvIdentity(v: Value, env: map<string, string>)
    requires NoPlaceholders(v)
    ensures ReplaceEnv(v, env) == v
    decreases v
  {
    match v
    case VStr(s) =>
      SubstNoMatch(s, env);
    case VDict(entries) =>
      forall i | 0 <= i < |entries| ensures ReplaceEnv(entries[i].1, env) == entries[i].1 {
        ReplaceEnvIdentity(entries[i].1, env);
      }
      assert ReplaceEnv(v, env).entries == entries;
    case VList(items) =>
      forall i | 0 <= i < |items| ensures ReplaceEnv(items[i], env) == items[i] {
        ReplaceEnvIdentity(items[i], env);
      }
      assert ReplaceEnv(v, env).items == items;
    case _ =>
  }

  /** `BotConfig`: enabled flag, webhook URL and chat ids, as given. */
  datatype BotConfig = BotConfig(enabled: Value, webhookUrl: Value, chatIds: Value)

  /** `dict.get(key, default)` on a value that must be a dict; anything else
      raises `AttributeError`. */
  function GetField(v: Value, key: string, default: Value): Option<Value> {
    if v.VDict? then Some(GetOr(v.entries, key, default)) else None
  }

  /** The settings of one selected bot; Feishu's webhook URL is its app id. */
  function MakeBot(name: string, data: Value): Option<BotConfig> {
    var urlKey := if name == "feishu" then "app_id" else "webhook_url";
    if !data.VDict? then None
    else Some(BotConfig(GetOr(data.entries, "enabled", VBool(false)), GetOr(data.entries, urlKey, VStr("")),
                        GetOr(data.entries, "chat_ids", VList([]))))
  }

  /** The loop of `_build_config` over the bots section, up to entry `n`. */
  function BotsUpTo(bots: Dict<string, Value>, n: nat): Option<Dict<string, BotConfig>>
    requires n <= |bots|
  {
    if n == 0 then Some([])
    else
      var before := BotsUpTo(bots, n - 1);
      var (name, data) := bots[n - 1];
      if before.None? then None
      else if name != "wecom" && name != "feishu" then before
      else
        match MakeBot(name, data)
        case None => None
        case Some(b) => Some(Put(before.value, name, b))
  }

  /** `_build_config`'s bot loop: only "wecom" and "feishu" are kept; a
      selected bot whose settings are not a mapping raises. */
  method BuildBots(bots: Dict<string, Value>) returns (r: Option<Dict<string, BotConfig>>)
    ensures r == BotsUpTo(bots, |bots|)
  {
    var config: Dict<string, BotConfig> := [];
    var i := 0;
    while i < |bots|
      invariant 0 <= i <= |bots|
      invariant BotsUpTo(bots, i) == Some(config)
    {
      var (name, data) := bots[i];
      if name == "wecom" || name == "feishu" {
        var bot := MakeBot(name, data);
        if bot.None? {
          assert BotsUpTo(bots, i + 1).None?;
          BotsFailureStays(bots, i + 1, |bots|);
          return None;
        }
        config := Put(config, name, bot.value);
      }
      assert BotsUpTo(bots, i + 1) == Some(config);
      i := i + 1;
    }
    return Some(config);
  }

  /** Once a selected bot fails, the whole loop fails. */
  lemma {:induction false} BotsFailureStays(bots: Dict<string, Value>, i: nat, n: nat)
    requires i <= n <= |bots|
    requires BotsUpTo(bots, i).None?
    ensures BotsUpTo(bots, n).None?
    decreases n - i
  {
    if i < n {
      BotsFailureStays(bots, i + 1, n);
    }
  }

  /** The selected bots: no key other than "wecom" and "feishu", each
      present exactly when the section names it, with the settings built
      from the last entry of that name. */
  lemma {:induction false} BotsSelected(bots: Dict<string, Value>, n: nat, name: string)
    requires n <= |bots|
    requires BotsUpTo(bots, n).Some?
    ensures HasKey(BotsUpTo(bots, n).value, name) <==>
      (name == "wecom" || name == "feishu") && HasKey(bots[..n], name)
    ensures Distinct(BotsUpTo(bots, n).value)
    decreases n
  {
    if n > 0 {
      BotsSelected(bots, n - 1, name);
      assert bots[..n] == bots[..n - 1] + [bots[n - 1]];
      assert Keys(bots[..n]) == Keys(bots[..n - 1]) + [bots[n - 1].0];
    }
  }

  /** Feishu's selected settings take the URL from "app_id". */
  lemma FeishuUrlIsAppId(data: Dict<string, Value>)
    ensures MakeBot("feishu", VDict(data)).value.webhookUrl == GetOr(data, "app_id", VStr(""))
    ensures MakeBot("wecom", VDict(data)).value.webhookUrl == GetOr(data, "webhook_url", VStr(""))
  {
  }

  /** `RAGConfig` with its field defaults. */
  datatype RagConfig = RagConfig(chunkSize: Value, chunkOverlap: Value, topK: Value, scoreThreshold: Value)

  /** The retrieval settings: `data.get("rag", {}).get("retrieval", {})`,
      missing fields taking 500, 50, 5 and 0.7; a section that is present
      but not a mapping raises. */
  function RagSettings(data: Dict<string, Value>): (r: Option<RagConfig>)
    ensures !HasKey(data, "rag") ==> r == Some(RagConfig(VInt(500), VInt(50), VInt(5), VFloat(0.7)))
  {
    var rag := GetOr(data, "rag", VDict([]));
    match GetField(rag, "retrieval", VDict([]))
    case None => None
    case Some(retrieval) =>
      if !retrieval.VDict? then None
      else
        var e := retrieval.entries;
        Some(RagConfig(GetOr(e, "chunk_size", VInt(500)), GetOr(e, "chunk_overlap", VInt(50)),
                       GetOr(e, "top_k", VInt(5)), GetOr(e, "score_threshold", VFloat(0.7))))
  }
}

=== FILE: conversation_manager.dfy ===
/** The guided information-collection dialogue: a table from a user key to a
    session that walks the user through the configured questions, with a
    30-minute expiry. */
module Conversations {
  import opened Wrappers
  import opened Dicts
  import opened Text

  /** One configured question: its answer key, the prompt shown and the
      required flag. */
  datatype Field = Field(name: string, question: string, required: bool)

  /** The session's "state" entry. */
  datatype Phase = Collecting | Completed

  /** A session record: "state", "current_field", "collected_data" (an
      insertion-ordered dict) and "started_at" (microseconds). */
  datatype Session = Session(state: Phase, currentField: nat, collectedData: Dict<string, string>, startedAt: int)

  /** A prompt as returned to the adapter: "message", "field_name", "required". */
  datatype Prompt = Prompt(message: string, fieldName: string, required: bool)

  /** What `process_response` returns: the bare `start_conversation` result
      (it has no "status" key), a "collecting" result with the next prompt,
      or a "completed" result carrying the collected data. */
  datatype Reply = Restarted(first: Prompt) | Asking(next: Prompt) | Finished(collectedData: Dict<string, string>)

  /** `timedelta(minutes=30)` in microseconds. */
  const ExpiryWindow: int := 30 * 60 * 1_000_000

  /** A session is expired when its age is strictly greater than 30 minutes. */
  predicate Expired(s: Session, now: int) {
    now - s.startedAt > ExpiryWindow
  }

  function PromptFor(f: Field): Prompt {
    Prompt(f.question, f.name, f.required)
  }

  /** The record `start_conversation` stores. */
  function NewSession(now: int): Session {
    Session(Collecting, 0, [], now)
  }

  /** How many fields have been answered: all of them once completed. */
  ghost function Answered(fields: seq<Field>, s: Session): int {
    if s.state == Completed then |fields| else s.currentField
  }

  /** The session invariant: the index stays inside the field list, and the
      answer keys are exactly the names of the fields answered so far. */
  ghost predicate SessionValid(fields: seq<Field>, s: Session) {
    && s.currentField < |fields|
    && (s.state == Completed ==> s.currentField == |fields| - 1)
    && Distinct(s.collectedData)
    && forall k :: HasKey(s.collectedData, k) <==> exists i :: 0 <= i < Answered(fields, s) && fields[i].name == k
  }

  ghost predicate TableValid<K>(fields: seq<Field>, t: map<K, Session>) {
    forall k :: k in t ==> SessionValid(fields, t[k])
  }

  /** Recording one answer in an unexpired session (the part of
      `process_response` after the expiry check). */
  function Answer(fields: seq<Field>, s: Session, response: string): (r: (Session, Reply))
    requires s.currentField < |fields|
    ensures r.0.startedAt == s.startedAt && r.0.currentField < |fields|
    ensures forall k :: Get(r.0.collectedData, k) == if k == fields[s.currentField].name then Some(response) else Get(s.collectedData, k)
    ensures s.currentField + 1 < |fields| ==>
      r.0.state == s.state && r.0.currentField == s.currentField + 1 && r.1 == Asking(PromptFor(fields[s.currentField + 1]))
    ensures s.currentField + 1 == |fields| ==>
      r.0.state == Completed && r.0.currentField == s.currentField && r.1 == Finished(r.0.collectedData)
  {
    var data := Put(s.collectedData, fields[s.currentField].name, response);
    var next := s.currentField + 1;
    if next < |fields| then
      (s.(currentField := next, collectedData := data), Asking(PromptFor(fields[next])))
    else
      (s.(state := Completed, collectedData := data), Finished(data))
  }

  /** Recording an answer keeps the session invariant. */
  lemma AnswerKeepsValid(fields: seq<Field>, s: Session, response: string)
    requires SessionValid(fields, s)
    ensures SessionValid(fields, Answer(fields, s, response).0)
  {
    var s' := Answer(fields, s, response).0;
    var cf := s.currentField;
    assert Answered(fields, s') == if s.state == Completed then |fields| else cf + 1;
    forall k
      ensures HasKey(s'.collectedData, k) <==> exists i :: 0 <= i < Answered(fields, s') && fields[i].name == k
    {
      if HasKey(s'.collectedData, k) && k != fields[cf].name {
        assert HasKey(s.collectedData, k);
      }
      if k == fields[cf].name {
        assert Get(s'.collectedData, k).Some?;
      }
      if exists i :: 0 <= i < Answered(fields, s') && fields[i].name == k {
        var i :| 0 <= i < Answered(fields, s') && fields[i].name == k;
        if i != cf {
          assert HasKey(s.collectedData, k);
        }
      }
    }
  }

  /** `process_response` never reads "state": the reply, the stored answers
      and the index do not depend on it. */
  lemma AnswerIgnoresPhase(fields: seq<Field>, s: Session, a: Phase, b: Phase, response: string)
    requires s.currentField < |fields|
    ensures Answer(fields, s.(state := a), response).1 == Answer(fields, s.(state := b), response).1
    ensures Answer(fields, s.(state := a), response).0.collectedData == Answer(fields, s.(state := b), response).0.collectedData
    ensures Answer(fields, s.(state := a), response).0.currentField == Answer(fields, s.(state := b), response).0.currentField
  {
    AnswerParts(fields, s.(state := a), response);
    AnswerParts(fields, s.(state := b), response);
  }

  /** The parts of an answer's outcome, in terms of the session's index and
      data alone. */
  lemma AnswerParts(fields: seq<Field>, s: Session, response: string)
    requires s.currentField < |fields|
    ensures var data := Put(s.collectedData, fields[s.currentField].name, response);
      var (s', reply) := Answer(fields, s, response);
      && s'.collectedData == data
      && s'.currentField == (if s.currentField + 1 < |fields| then s.currentField + 1 else s.currentField)
      && reply == (if s.currentField + 1 < |fields| then Asking(PromptFor(fields[s.currentField + 1])) else Finished(data))
  {
  }

  /** An unexpired completed session that receives another message has the
      last field's answer overwritten and reports "completed" again. */
  lemma CompletedOverwritesLast(fields: seq<Field>, s: Session, response: string)
    requires SessionValid(fields, s) && s.state == Completed
    ensures var (s', reply) := Answer(fields, s, response);
      && s'.state == Completed
      && s'.currentField == |fields| - 1
      && Get(s'.collectedData, fields[|fields| - 1].name) == Some(response)
      && Keys(s'.collectedData) == Keys(s.collectedData)
      && reply == Finished(s'.collectedData)
  {
    var last := fields[|fields| - 1].name;
    assert HasKey(s.collectedData, last);
  }

  /** The session after answering `responses` one after another. */
  function Run(fields: seq<Field>, s: Session, responses: seq<string>): (r: Session)
    requires s.currentField < |fields|
    ensures r.currentField < |fields|
    decreases |responses|
  {
    if |responses| == 0 then s
    else Answer(fields, Run(fields, s, responses[..|responses| - 1]), responses[|responses| - 1]).0
  }

  function Names(fields: seq<Field>): seq<string> {
    seq(|fields|, i requires 0 <= i < |fields| => fields[i].name)
  }

  ghost predicate DistinctNames(fields: seq<Field>) {
    forall i, j :: 0 <= i < j < |fields| ==> fields[i].name != fields[j].name
  }

  /** The answers paired with the names of the first fields, in order. */
  function Zip<A, B>(names: seq<A>, values: seq<B>): (d: seq<(A, B)>)
    requires |values| <= |names|
    ensures |d| == |values|
  {
    seq(|values|, i requires 0 <= i < |values| => (names[i], values[i]))
  }

  /** One more answer adds one pair at the end. */
  lemma ZipSnoc<A, B>(names: seq<A>, values: seq<B>)
    requires 1 <= |values| <= |names|
    ensures Zip(names, values) == Zip(names, values[..|values| - 1]) + [(names[|values| - 1], values[|values| - 1])]
  {
  }

  /** From a fresh session, answering k < N questions leaves it collecting at
      index k, and exactly N answers complete it with the index on the last
      field; the collected data pairs each field name with its answer, in
      field order. */
  lemma {:induction false} RunFromFresh(fields: seq<Field>, responses: seq<string>, now: int)
    requires |fields| > 0 && DistinctNames(fields) && |responses| <= |fields|
    ensures var s := Run(fields, NewSession(now), responses);
      && s.startedAt == now
      && s.collectedData == Zip(Names(fields), responses)
      && (|responses| < |fields| ==> s.state == Collecting && s.currentField == |responses|)
      && (|responses| == |fields| ==> s.state == Completed && s.currentField == |fields| - 1)
    decreases |responses|
  {
    var n := |responses|;
    if n > 0 {
      var init := responses[..n - 1];
      RunFromFresh(fields, init, now);
      var p := Run(fields, NewSession(now), init);
      FrontLast(responses);
      AnswerAppends(fields, p, init, responses[n - 1]);
    }
  }

  /** One answer to a collecting session that holds the first answers in
      order appends the next pair. */
  lemma AnswerAppends(fields: seq<Field>, p: Session, done: seq<string>, response: string)
    requires DistinctNames(fields) && |done| < |fields|
    requires p.state == Collecting && p.currentField == |done| && p.collectedData == Zip(Names(fields), done)
    ensures var s := Answer(fields, p, response).0;
      && s.startedAt == p.startedAt
      && s.collectedData == Zip(Names(fields), done + [response])
      && (|done| + 1 < |fields| ==> s.state == Collecting && s.currentField == |done| + 1)
      && (|done| + 1 == |fields| ==> s.state == Completed && s.currentField == |fields| - 1)
  {
    var name := fields[|done|].name;
    assert forall i :: 0 <= i < |p.collectedData| ==> Keys(p.collectedData)[i] != name;
    PutNew(p.collectedData, name, response);
    ZipSnoc(Names(fields), done + [response]);
    assert (done + [response])[..|done|] == done;
  }

  /** `start_conversation` on the table: the key is overwritten with a fresh
      record, whatever was there. */
  function Start<K(!new)>(t: map<K, Session>, user: K, now: int): (r: map<K, Session>)
    ensures user in r && r[user] == NewSession(now) && r[user].collectedData == []
    ensures forall k :: k != user ==> (k in r <==> k in t) && (k in t ==> r[k] == t[k])
  {
    t[user := NewSession(now)]
  }

  /** `process_response` on the table. */
  function Process<K(!new)>(fields: seq<Field>, t: map<K, Session>, user: K, response: string, now: int): (r: (map<K, Session>, Reply))
    requires |fields| > 0 && TableValid(fields, t)
    ensures TableValid(fields, r.0)
    ensures user in r.0 && r.0 == t[user := r.0[user]]
    ensures user !in t || Expired(t[user], now) ==>
      r.0[user] == NewSession(now) && r.1 == Restarted(PromptFor(fields[0]))
    ensures user in t && !Expired(t[user], now) ==>
      && !r.1.Restarted?
      && r.0[user].startedAt == t[user].startedAt
      && Get(r.0[user].collectedData, fields[t[user].currentField].name) == Some(response)
  {
    if user !in t || Expired(t[user], now) then
      (Start(t, user, now), Restarted(PromptFor(fields[0])))
    else
      AnswerKeepsValid(fields, t[user], response);
      var (s', reply) := Answer(fields, t[user], response);
      (t[user := s'], reply)
  }

  /** The triggering text of a restart is discarded: the outcome is the same
      whatever it was. */
  lemma RestartDropsResponse<K(!new)>(fields: seq<Field>, t: map<K, Session>, user: K, a: string, b: string, now: int)
    requires |fields| > 0 && TableValid(fields, t)
    requires user !in t || Expired(t[user], now)
    ensures Process(fields, t, user, a, now) == Process(fields, t, user, b, now)
    ensures Process(fields, t, user, a, now).0[user].collectedData == []
  {
  }

  /** `is_conversation_active` on the table: the new table and the answer. */
  function Probe<K>(t: map<K, Session>, user: K, now: int): (r: (map<K, Session>, bool))
    ensures r.1 <==> user in t && !Expired(t[user], now) && t[user].state == Collecting
    ensures user in t && Expired(t[user], now) ==> r.0 == t - {user} && user !in r.0
    ensures !(user in t && Expired(t[user], now)) ==> r.0 == t
  {
    if user !in t then (t, false)
    else if Expired(t[user], now) then (t - {user}, false)
    else (t, t[user].state == Collecting)
  }

  /** An active key answered at the same instant records the answer: it is
      never restarted, and the text is stored under the current field. */
  lemma ActiveThenAnswered<K(!new)>(fields: seq<Field>, t: map<K, Session>, user: K, response: string, now: int)
    requires |fields| > 0 && TableValid(fields, t)
    requires Probe(t, user, now).1
    ensures var (t', reply) := Process(fields, Probe(t, user, now).0, user, response, now);
      && !reply.Restarted?
      && Get(t'[user].collectedData, fields[t[user].currentField].name) == Some(response)
  {
  }

  /** `cleanup_expired_conversations` on the table. */
  function Sweep<K(!new)>(t: map<K, Session>, now: int): (r: map<K, Session>)
    ensures forall k :: k in r <==> k in t && !Expired(t[k], now)
    ensures forall k :: k in r ==> r[k] == t[k]
  {
    map k | k in t && !Expired(t[k], now) :: t[k]
  }

  /** Display names of the four known answer keys. */
  function ReadableName(key: string): string {
    if key == "version" then "版本"
    else if key == "environment" then "环境"
    else if key == "specific_case" then "特定情况"
    else if key == "error_details" then "错误详情"
    else key
  }

  const NoSummary: string := "暂无收集信息"

  function SummaryLine(entry: (string, string)): string {
    "- " + ReadableName(entry.0) + ": " + entry.1
  }

  /** `get_conversation_summary` for the stored data (`None` when absent). */
  function Summary(data: Option<Dict<string, string>>): string {
    if data.None? || |data.value| == 0 then NoSummary
    else Join(seq(|data.value|, i requires 0 <= i < |data.value| => SummaryLine(data.value[i])), "\n")
  }

  /** The sentinel appears exactly when there is nothing to summarise; any
      stored answer yields a text beginning with the first answer's line. */
  lemma SummaryNoDataIff(data: Option<Dict<string, string>>)
    ensures Summary(data) == NoSummary <==> data.None? || |data.value| == 0
    ensures data.Some? && |data.value| > 0 ==> StartsWith(Summary(data), SummaryLine(data.value[0]))
  {
    if data.Some? && |data.value| > 0 {
      var lines := seq(|data.value|, i requires 0 <= i < |data.value| => SummaryLine(data.value[i]));
      JoinStartsWithFirst(lines, "\n");
      assert Summary(data)[0] == '-';
      assert NoSummary[0] != '-';
    }
  }

  /** The session table of one chat channel. */
  class ConversationManager<K(==,!new)> {
    const fields: seq<Field>
    var conversations: map<K, Session>

    ghost predicate Valid()
      reads this
    {
      |fields| > 0 && TableValid(fields, conversations)
    }

    constructor(fields: seq<Field>)
      requires |fields| > 0
      ensures Valid() && this.fields == fields && conversations == map[]
    {
      this.fields := fields;
      conversations := map[];
    }

    method StartConversation(user: K, now: int) returns (first: Prompt)
      requires Valid()
      modifies this
      ensures Valid()
      ensures conversations == Start(old(conversations), user, now)
      ensures first == PromptFor(fields[0])
    {
      conversations := conversations[user := NewSession(now)];
      first := PromptFor(fields[0]);
    }

    method ProcessResponse(user: K, response: string, now: int) returns (reply: Reply)
      requires Valid()
      modifies this
      ensures Valid()
      ensures (conversations, reply) == Process(fields, old(conversations), user, response, now)
    {
      if user !in conversations {
        var first := StartConversation(user, now);
        return Restarted(first);
      }
      var conversation := conversations[user];
      if now - conversation.startedAt > ExpiryWindow {
        var first := StartConversation(user, now);
        return Restarted(first);
      }
      AnswerKeepsValid(fields, conversation, response);
      AnswerParts(fields, conversation, response);
      ghost var expected := Answer(fields, conversation, response);
      var idx := conversation.currentField;
      var data := Put(conversation.collectedData, fields[idx].name, response);
      var next := idx + 1;
      var updated: Session;
      if next < |fields| {
        updated := conversation.(currentField := next, collectedData := data);
        reply := Asking(PromptFor(fields[next]));
      } else {
        updated := conversation.(state := Completed, collectedData := data);
        reply := Finished(data);
      }
      assert (updated, reply) == expected;
      conversations := conversations[user := updated];
    }

    /** `get_collected_data`: never checks expiry; `None` only for an absent key. */
    method GetCollectedData(user: K) returns (data: Option<Dict<string, string>>)
      ensures data.None? <==> user !in conversations
      ensures data.Some? ==> data.value == conversations[user].collectedData
    {
      if user in conversations {
        data := Some(conversations[user].collectedData);
      } else {
        data := None;
      }
    }

    method IsConversationActive(user: K, now: int) returns (active: bool)
      requires Valid()
      modifies this
      ensures Valid()
      ensures (conversations, active) == Probe(old(conversations), user, now)
    {
      if user !in conversations {
        return false;
      }
      var conversation := conversations[user];
      if now - conversation.startedAt > ExpiryWindow {
        conversations := conversations - {user};
        return false;
      }
      active := conversation.state == Collecting;
    }

    method CancelConversation(user: K)
      requires Valid()
      modifies this
      ensures Valid()
      ensures conversations == old(conversations) - {user}
    {
      if user in conversations {
        conversations := conversations - {user};
      }
    }

    /** The first loop of `cleanup_expired_conversations`: the keys whose
        session is older than 30 minutes. */
    method ExpiredUsers(now: int) returns (expired: set<K>)
      ensures forall k :: k in expired <==> k in conversations && Expired(conversations[k], now)
    {
      expired := {};
      var remaining := conversations.Keys;
      while remaining != {}
        invariant remaining <= conversations.Keys
        invariant forall k :: k in expired <==> k in conversations && k !in remaining && Expired(conversations[k], now)
        decreases remaining
      {
        var user :| user in remaining;
        if now - conversations[user].startedAt > ExpiryWindow {
          expired := expired + {user};
        }
        remaining := remaining - {user};
      }
    }

    method CleanupExpiredConversations(now: int)
      requires Valid()
      modifies this
      ensures Valid()
      ensures conversations == Sweep(old(conversations), now)
    {
      var expired := ExpiredUsers(now);
      var pending := expired;
      while pending != {}
        invariant pending <= expired
        invariant conversations == old(conversations) - (expired - pending)
        invariant Valid()
        decreases pending
      {
        var user :| user in pending;
        conversations := conversations - {user};
        pending := pending - {user};
      }
      assert conversations == Sweep(old(conversations), now);
    }

    /** `get_conversation_summary`: one "- name: value" line per answer. */
    method GetConversationSummary(user: K) returns (summary: string)
      ensures summary == Summary(if user in conversations then Some(conversations[user].collectedData) else None)
    {
      var data := GetCollectedData(user);
      if data.None? || |data.value| == 0 {
        return NoSummary;
      }
      var entries := data.value;
      var parts: seq<string> := [];
      var i := 0;
      while i < |entries|
        invariant 0 <= i <= |entries|
        invariant |parts| == i
        invariant forall j :: 0 <= j < i ==> parts[j] == SummaryLine(entries[j])
      {
        parts := parts + ["- " + ReadableName(entries[i].0) + ": " + entries[i].1];
        i := i + 1;
      }
      assert parts == seq(|entries|, j requires 0 <= j < |entries| => SummaryLine(entries[j]));
      summary := Join(parts, "\n");
    }
  }
}

=== FILE: crawl_apifox_docs.dfy ===
/** The documentation crawler: a first-in first-out queue of URLs, the set
    of visited URLs, a page budget, the filter that decides which links are
    queued, the cleaning of page titles, and the choice of a free file name
    for each saved page. Fetching and parsing a page, URL joining and
    parsing, and the character classes are parameters. */
module ApifoxCrawler {
  import opened Wrappers
  import opened Text
  import DocsUpdater

  const BaseUrl := "https://docs.apifox.com/"

  /** No URL occurs twice. */
  predicate NoDup(q: seq<string>) {
    forall i, j :: 0 <= i < j < |q| ==> q[i] != q[j]
  }

  lemma NoDupTail(q: seq<string>)
    requires |q| > 0
    ensures NoDup(q) ==> NoDup(q[1..])
  {
  }

  /** What fetching and parsing a page gives: the text of the first title
      selector that matched (none matched: `None`), the page body as
      Markdown, and the targets of its links, already made absolute. The
      content extraction removes the script, style, nav, footer and header
      elements before the links are read, so links inside them are never
      among `links`. */
  datatype Page = Page(title: Option<string>, markdown: string, links: seq<string>)

  /** A link target worth queueing: on the site's host, not visited, not a
      PDF or ZIP file, and without a fragment. */
  predicate Wanted(url: string, visited: set<string>, site: string, netloc: string -> string) {
    && netloc(url) == site && url !in visited
    && !EndsWith(url, ".pdf") && !EndsWith(url, ".zip") && '#' !in url
  }

  /** The filter of this crawler's link extraction. */
  function LinkFilter(visited: set<string>, netloc: string -> string): string -> bool {
    url => Wanted(url, visited, netloc(BaseUrl), netloc)
  }

  /** The queue after `links` are considered one after another: a wanted
      link is appended unless it is already queued. */
  function Enqueued(queue: seq<string>, links: seq<string>, wanted: string -> bool): seq<string>
    decreases |links|
  {
    if |links| == 0 then queue
    else
      var q := Enqueued(queue, links[..|links| - 1], wanted);
      var url := links[|links| - 1];
      if wanted(url) && url !in q then q + [url] else q
  }

  /** Link extraction only appends; what it appends is wanted, comes from
      the page and was not queued; every wanted link ends up queued; and a
      queue without duplicates stays so. */
  lemma {:induction false} EnqueuedSpec(queue: seq<string>, links: seq<string>, wanted: string -> bool)
    ensures var r := Enqueued(queue, links, wanted);
      && |queue| <= |r| && r[..|queue|] == queue
      && (forall i :: |queue| <= i < |r| ==> wanted(r[i]) && r[i] in links && r[i] !in queue)
      && (forall url :: url in links && wanted(url) ==> url in r)
      && (NoDup(queue) ==> NoDup(r))
    decreases |links|
  {
    if |links| > 0 {
      var init := links[..|links| - 1];
      EnqueuedSpec(queue, init, wanted);
      assert links == init + [links[|links| - 1]];
    }
  }

  /** The characters a cleaned title keeps. */
  predicate TitleChar(c: char, isAlnum: char -> bool) {
    isAlnum(c) || c == ' ' || c == '-' || c == '_' || c == '/'
  }

  /** The characters of `s` that satisfy `TitleChar`, in order. */
  function KeepTitleChars(s: string, isAlnum: char -> bool): (r: string)
    ensures |r| <= |s|
    ensures forall i :: 0 <= i < |r| ==> TitleChar(r[i], isAlnum)
  {
    if |s| == 0 then ""
    else
      var rest := KeepTitleChars(s[1..], isAlnum);
      if TitleChar(s[0], isAlnum) then [s[0]] + rest else rest
  }

  /** Cleaning keeps a clean text as it is, so cleaning twice is cleaning
      once. */
  lemma {:induction false} KeepTitleCharsClean(s: string, isAlnum: char -> bool)
    requires forall i :: 0 <= i < |s| ==> TitleChar(s[i], isAlnum)
    ensures KeepTitleChars(s, isAlnum) == s
    decreases |s|
  {
    if |s| > 0 {
      KeepTitleCharsClean(s[1..], isAlnum);
      assert s == [s[0]] + s[1..];
    }
  }

  lemma KeepTitleCharsIdempotent(s: string, isAlnum: char -> bool)
    ensures KeepTitleChars(KeepTitleChars(s, isAlnum), isAlnum) == KeepTitleChars(s, isAlnum)
  {
    KeepTitleCharsClean(KeepTitleChars(s, isAlnum), isAlnum);
  }

  const Untitled := "未命名页面"

  /** `extract_title`: the matched text, stripped and cleaned (possibly
      empty), or the placeholder title when no selector matched. */
  function ExtractTitle(selected: Option<string>, isAlnum: char -> bool): (title: string)
    ensures selected.None? ==> title == Untitled
    ensures selected.Some? ==> forall i :: 0 <= i < |title| ==> TitleChar(title[i], isAlnum)
  {
    match selected
    case None => Untitled
    case Some(text) => KeepTitleChars(Strip(text), isAlnum)
  }

  /** The `k`-th file name tried for a title: "title.md", then
      "title_1.md", "title_2.md", …. */
  function Candidate(title: string, k: nat): string {
    if k == 0 then title + ".md" else title + "_" + NatToString(k) + ".md"
  }

  /** Different attempts give different names. */
  lemma CandidateInjective(title: string, j: nat, k: nat)
    requires Candidate(title, j) == Candidate(title, k)
    ensures j == k
  {
    var c := Candidate(title, j);
    if j != 0 && k != 0 {
      assert NatToString(j) == c[|title| + 1..|c| - 3];
      assert NatToString(k) == c[|title| + 1..|c| - 3];
      NatToStringInjective(j, k);
    }
  }

  /** Attempt `k` is the first name not among `existing`. */
  predicate FirstFree(existing: set<string>, title: string, k: nat) {
    Candidate(title, k) !in existing && forall j :: 0 <= j < k ==> Candidate(title, j) in existing
  }

  lemma FirstFreeUnique(existing: set<string>, title: string, j: nat, k: nat)
    requires FirstFree(existing, title, j) && FirstFree(existing, title, k)
    ensures j == k
  {
  }

  /** A list without duplicates drawn from a set is no longer than the set. */
  lemma {:induction false} DistinctWithin(xs: seq<string>, s: set<string>)
    requires NoDup(xs) && forall i :: 0 <= i < |xs| ==> xs[i] in s
    ensures |xs| <= |s|
    decreases |xs|
  {
    if |xs| > 0 {
      var last := xs[|xs| - 1];
      DistinctWithin(xs[..|xs| - 1], s - {last});
    }
  }

  /** The collision loop of `save_page`: the first free name. The loop
      ends because every name it passes over is a different file of the
      (finite) directory. */
  method ChooseFileName(title: string, existing: set<string>) returns (name: string)
    ensures exists k :: FirstFree(existing, title, k) && name == Candidate(title, k)
  {
    var k := 0;
    name := Candidate(title, 0);
    ghost var tried: seq<string> := [];
    while name in existing
      invariant name == Candidate(title, k) && |tried| == k <= |existing|
      invariant forall j :: 0 <= j < k ==> tried[j] == Candidate(title, j) && tried[j] in existing
      invariant NoDup(tried)
      decreases |existing| - k
    {
      forall j | 0 <= j < k ensures tried[j] != name {
        if tried[j] == name {
          CandidateInjective(title, j, k);
        }
      }
      tried := tried + [name];
      DistinctWithin(tried, existing);
      k := k + 1;
      name := Candidate(title, k);
    }
  }

  /** The text `save_page` writes: title, source line, rule, body. */
  function PageText(title: string, url: string, markdown: string): string {
    "# " + title + "\n\n" + "**来源**: " + url + "\n\n" + "---\n\n" + markdown
  }

  /** A saved text whose first lines are "# title", "" and the source line:
      the updater reads back the page's URL (with the first-colon reading). */
  /** The page text splits into the title line, a blank line, the header
      line and the lines of the rest. */
  lemma PageLines(first: string, header: string, rest: string)
    requires '\n' !in first && '\n' !in header
    ensures Split(first + "\n\n" + header + "\n" + rest, '\n') == [first, [], header] + Split(rest, '\n')
  {
    var tail := header + ['\n'] + rest;
    TwoLinesLayout(first, header, rest, '\n');
    SplitCons(first, '\n', [] + ['\n'] + tail);
    SplitCons([], '\n', tail);
    SplitCons(header, '\n', rest);
    ConsThree(first, [], header, Split(rest, '\n'));
  }

  /** A header line third, after a line without the marker and a blank
      one, is the source line. */
  lemma HeaderThird(first: string, header: string, more: seq<string>)
    requires !StartsWith(first, DocsUpdater.SourceMarker) && StartsWith(header, DocsUpdater.SourceMarker)
    ensures DocsUpdater.SourceLine([first, [], header] + more) == Some(header)
  {
    var lines := [first, [], header] + more;
    assert lines[1..][1..] == [header] + more;
    assert DocsUpdater.SourceLine(lines[1..][1..]) == Some(header);
  }

  /** A page whose third line is a header `read` takes a URL from has that
      URL as its source. */
  lemma SourceOfPage(first: string, header: string, rest: string, read: string -> Option<string>, src: string)
    requires '\n' !in first && '\n' !in header
    requires !StartsWith(first, DocsUpdater.SourceMarker) && StartsWith(header, DocsUpdater.SourceMarker)
    requires read(header) == Some(src)
    ensures DocsUpdater.SourceOf(first + "\n\n" + header + "\n" + rest, read) == DocsUpdater.Url(src)
  {
    PageLines(first, header, rest);
    HeaderThird(first, header, Split(rest, '\n'));
  }

  /** A text of a title line, a blank line and the header of `url` has as
      its source whatever `read` takes from that header. */
  lemma SourceAfterTitle(title: string, url: string, rest: string, read: string -> Option<string>, src: string)
    requires '\n' !in title && '\n' !in url
    requires read(DocsUpdater.Header(url)) == Some(src)
    ensures DocsUpdater.SourceOf("# " + title + "\n\n" + DocsUpdater.Header(url) + "\n" + rest, read) == DocsUpdater.Url(src)
  {
    var header := DocsUpdater.Header(url);
    var first := "# " + title;
    assert '\n' !in header by {
      assert header == DocsUpdater.SourceMarker + ": " + url;
    }
    assert !StartsWith(first, DocsUpdater.SourceMarker) by {
      assert first[0] == '#';
    }
    StartsWithAppend(DocsUpdater.SourceMarker, ": " + url);
    SourceOfPage(first, header, rest, read, src);
  }

  /** Every saved page names its own URL, with the corrected reading. */
  lemma PageTextSource(title: string, url: string, markdown: string)
    requires '\n' !in title && '\n' !in url
    requires url == [] || (!IsSpace(url[0]) && !IsSpace(url[|url| - 1]))
    ensures DocsUpdater.SourceOf(PageText(title, url, markdown), DocsUpdater.UrlOf) == DocsUpdater.Url(url)
  {
    assert PageText(title, url, markdown) == "# " + title + "\n\n" + DocsUpdater.Header(url) + "\n" + ("\n---\n\n" + markdown);
    DocsUpdater.HeaderRoundTrip(url);
    SourceAfterTitle(title, url, "\n---\n\n" + markdown, DocsUpdater.UrlOf, url);
  }

  /** As written, every saved page of an "https:" address has the source
      "https". */
  lemma AsWrittenPageSource(title: string, url: string, markdown: string)
    requires '\n' !in title && '\n' !in url && StartsWith(url, "https:")
    ensures DocsUpdater.SourceOf(PageText(title, url, markdown), DocsUpdater.UrlAsWritten) == DocsUpdater.Url("https")
  {
    assert PageText(title, url, markdown) == "# " + title + "\n\n" + DocsUpdater.Header(url) + "\n" + ("\n---\n\n" + markdown);
    DocsUpdater.HttpsHeader(url);
    SourceAfterTitle(title, url, "\n---\n\n" + markdown, DocsUpdater.UrlAsWritten, "https");
  }

  /** A file this crawler writes for an "https:" page. */
  ghost predicate HttpsPageFile(f: DocsUpdater.MdFile)
  {
    exists title, url, markdown :: '\n' !in title && '\n' !in url && StartsWith(url, "https:")
      && f.content == Some(PageText(title, url, markdown))
  }

  /** As written, an update check over files this crawler wrote for
      "https:" pages keeps at most one page, under the URL "https". */
  lemma AsWrittenCheck(pages: map<string, DocsUpdater.PageInfo>, files: seq<DocsUpdater.MdFile>,
                       fetch: string -> Option<string>, hash: string -> string, now: string)
    requires forall i :: 0 <= i < |files| ==> HttpsPageFile(files[i])
    ensures DocsUpdater.Checked(pages, files, DocsUpdater.UrlAsWritten, fetch, hash, now).1.Keys <= {"https"}
    ensures |DocsUpdater.Checked(pages, files, DocsUpdater.UrlAsWritten, fetch, hash, now).1| <= 1
  {
    forall i | 0 <= i < |files|
      ensures DocsUpdater.FileSource(files[i], DocsUpdater.UrlAsWritten) == DocsUpdater.Url("https")
    {
      var title, url, markdown :| '\n' !in title && '\n' !in url && StartsWith(url, "https:")
        && files[i].content == Some(PageText(title, url, markdown));
      AsWrittenPageSource(title, url, markdown);
    }
    DocsUpdater.SingleSourceCheck(pages, files, DocsUpdater.UrlAsWritten, fetch, hash, now, "https");
  }

  /** Past the attempts already found taken, the next one is free or is
      one more distinct file of the directory; so some attempt is free. */
  lemma {:induction false} FreeFrom(existing: set<string>, title: string, tried: seq<string>)
    requires NoDup(tried)
    requires forall j :: 0 <= j < |tried| ==> tried[j] == Candidate(title, j) && tried[j] in existing
    ensures exists k :: FirstFree(existing, title, k)
    decreases |existing| - |tried|
  {
    var k := |tried|;
    var name := Candidate(title, k);
    DistinctWithin(tried, existing);
    if name !in existing {
      assert FirstFree(existing, title, k);
    } else {
      forall j | 0 <= j < k
        ensures tried[j] != name
      {
        if tried[j] == name {
          CandidateInjective(title, j, k);
        }
      }
      DistinctWithin(tried + [name], existing);
      FreeFrom(existing, title, tried + [name]);
    }
  }

  /** The name the collision loop settles on for `title`. */
  ghost function FreeName(existing: set<string>, title: string): (name: string)
    ensures exists k :: FirstFree(existing, title, k) && name == Candidate(title, k)
    ensures name !in existing
  {
    FreeFrom(existing, title, []);
    var k :| FirstFree(existing, title, k);
    Candidate(title, k)
  }

  /** The first free attempt is `FreeName`. */
  lemma FreeNameIs(existing: set<string>, title: string, k: nat)
    requires FirstFree(existing, title, k)
    ensures FreeName(existing, title) == Candidate(title, k)
  {
    var j :| FirstFree(existing, title, j) && FreeName(existing, title) == Candidate(title, j);
    FirstFreeUnique(existing, title, j, k);
  }

  /** The directory after `text` is written under the first free name for
      `title`: one more file, and no existing file is touched. */
  ghost function Save(files: map<string, string>, title: string, text: string): (r: map<string, string>)
    ensures r.Keys == files.Keys + {FreeName(files.Keys, title)} && |r| == |files| + 1
    ensures r[FreeName(files.Keys, title)] == text
    ensures forall name :: name in files ==> r[name] == files[name]
  {
    files[FreeName(files.Keys, title) := text]
  }

  /** What crawling one URL gives when it succeeds: the title its file is
      named after, the text written, and the link targets found. */
  datatype Outcome = Outcome(title: string, text: string, links: seq<string>)

  /** The state of a crawl loop: visited URLs, the queue, the output
      directory and the number of pages crawled. */
  datatype CrawlState = CrawlState(visited: set<string>, queue: seq<string>, files: map<string, string>, count: nat)

  /** One turn of the crawl loop. The front URL leaves the queue. A visited
      one is skipped and a failing one dropped, neither counted. A crawled
      one has its file saved and its wanted links queued behind the rest,
      judged against the URLs visited before it; then it is marked visited
      and counted. */
  ghost function CrawlStep(s: CrawlState, crawl: string -> Option<Outcome>, filter: set<string> -> string -> bool): (r: CrawlState)
    requires s.queue != []
    ensures r.count == s.count + 1 || (r.count == s.count && |r.queue| == |s.queue| - 1)
  {
    var url := s.queue[0];
    var rest := s.queue[1..];
    if url in s.visited || crawl(url).None? then s.(queue := rest)
    else
      var o := crawl(url).value;
      EnqueuedSpec(rest, o.links, filter(s.visited));
      CrawlState(s.visited + {url}, Enqueued(rest, o.links, filter(s.visited)), Save(s.files, o.title, o.text), s.count + 1)
  }

  /** The loop from state `s`: turns until the queue is empty or `maxPages`
      pages were crawled. */
  ghost function CrawlFrom(s: CrawlState, maxPages: int, crawl: string -> Option<Outcome>, filter: set<string> -> string -> bool): CrawlState
    decreases maxPages - s.count, |s.queue|
  {
    if s.queue == [] || s.count >= maxPages then s
    else CrawlFrom(CrawlStep(s, crawl, filter), maxPages, crawl, filter)
  }

  /** First in, first out: a turn keeps the rest of the queue, in order, at
      its front, and only appends links of the page it crawled. */
  lemma StepFifo(s: CrawlState, crawl: string -> Option<Outcome>, filter: set<string> -> string -> bool)
    requires s.queue != []
    ensures var r := CrawlStep(s, crawl, filter);
      && |s.queue| - 1 <= |r.queue| && r.queue[..|s.queue| - 1] == s.queue[1..]
      && forall i :: |s.queue| - 1 <= i < |r.queue| ==>
           crawl(s.queue[0]).Some? && r.queue[i] in crawl(s.queue[0]).value.links && r.queue[i] !in s.queue[1..]
  {
    var url := s.queue[0];
    if url !in s.visited && crawl(url).Some? {
      EnqueuedSpec(s.queue[1..], crawl(url).value.links, filter(s.visited));
    }
  }

  /** The page budget: the count never falls, never passes `maxPages` once
      it is below it, and the loop stops only on an empty queue or a spent
      budget. */
  lemma {:induction false} CrawlBudget(s: CrawlState, maxPages: int, crawl: string -> Option<Outcome>, filter: set<string> -> string -> bool)
    ensures var r := CrawlFrom(s, maxPages, crawl, filter);
      && s.count <= r.count
      && (r.count == s.count || r.count <= maxPages)
      && (r.queue == [] || r.count >= maxPages)
    decreases maxPages - s.count, |s.queue|
  {
    if s.queue != [] && s.count < maxPages {
      CrawlBudget(CrawlStep(s, crawl, filter), maxPages, crawl, filter);
    }
  }

  /** Every counted page is a newly visited URL whose crawl succeeded. */
  lemma {:induction false} CrawlVisits(s: CrawlState, maxPages: int, crawl: string -> Option<Outcome>, filter: set<string> -> string -> bool)
    ensures var r := CrawlFrom(s, maxPages, crawl, filter);
      && s.visited <= r.visited
      && |r.visited| == |s.visited| + r.count - s.count
      && forall u :: u in r.visited && u !in s.visited ==> crawl(u).Some?
    decreases maxPages - s.count, |s.queue|
  {
    if s.queue != [] && s.count < maxPages {
      CrawlVisits(CrawlStep(s, crawl, filter), maxPages, crawl, filter);
    }
  }

  /** Every counted page adds one file, and no file that was there is
      overwritten. */
  lemma {:induction false} CrawlFiles(s: CrawlState, maxPages: int, crawl: string -> Option<Outcome>, filter: set<string> -> string -> bool)
    ensures var r := CrawlFrom(s, maxPages, crawl, filter);
      && s.files.Keys <= r.files.Keys
      && |r.files| == |s.files| + r.count - s.count
      && forall name :: name in s.files ==> r.files[name] == s.files[name]
    decreases maxPages - s.count, |s.queue|
  {
    if s.queue != [] && s.count < maxPages {
      CrawlFiles(CrawlStep(s, crawl, filter), maxPages, crawl, filter);
    }
  }

  /** A queue without duplicates stays so. */
  lemma {:induction false} CrawlNoDup(s: CrawlState, maxPages: int, crawl: string -> Option<Outcome>, filter: set<string> -> string -> bool)
    requires NoDup(s.queue)
    ensures NoDup(CrawlFrom(s, maxPages, crawl, filter).queue)
    decreases maxPages - s.count, |s.queue|
  {
    if s.queue != [] && s.count < maxPages {
      NoDupTail(s.queue);
      var url := s.queue[0];
      if url !in s.visited && crawl(url).Some? {
        EnqueuedSpec(s.queue[1..], crawl(url).value.links, filter(s.visited));
      }
      CrawlNoDup(CrawlStep(s, crawl, filter), maxPages, crawl, filter);
    }
  }

  /** A crawl that stops under budget has dealt with every URL queued at
      its start: each one is visited or fails. */
  lemma {:induction false} CrawlExhausts(s: CrawlState, maxPages: int, crawl: string -> Option<Outcome>, filter: set<string> -> string -> bool)
    ensures var r := CrawlFrom(s, maxPages, crawl, filter);
      r.count < maxPages ==> forall u :: u in s.queue ==> u in r.visited || crawl(u).None?
    decreases maxPages - s.count, |s.queue|
  {
    if s.queue != [] && s.count < maxPages {
      var next := CrawlStep(s, crawl, filter);
      CrawlExhausts(next, maxPages, crawl, filter);
      CrawlVisits(next, maxPages, crawl, filter);
      StepFifo(s, crawl, filter);
      assert forall u :: u in s.queue[1..] ==> u in next.queue;
    }
  }

  /** What crawling a URL gives in this crawler: the extracted title, the
      saved page text and the page's links. */
  function Outcomes(fetch: string -> Option<Page>, isAlnum: char -> bool): string -> Option<Outcome> {
    url =>
      match fetch(url)
      case None => None
      case Some(page) =>
        var title := ExtractTitle(page.title, isAlnum);
        Some(Outcome(title, PageText(title, url, page.markdown), page.links))
  }

  /** This crawler's link filter, for each visited set. */
  function Filters(netloc: string -> string): set<string> -> string -> bool {
    visited => LinkFilter(visited, netloc)
  }

  /** The crawler: visited URLs, the queue, and the output directory
      (file name to text). */
  class Crawler {
    var visited: set<string>
    var queue: seq<string>
    var files: map<string, string>

    constructor(existing: map<string, string>)
      ensures visited == {} && queue == [] && files == existing
    {
      visited := {};
      queue := [];
      files := existing;
    }

    /** `extract_links`. */
    method ExtractLinks(links: seq<string>, netloc: string -> string)
      modifies this
      ensures queue == Enqueued(old(queue), links, LinkFilter(visited, netloc))
      ensures visited == old(visited) && files == old(files)
    {
      var site := netloc(BaseUrl);
      var i := 0;
      while i < |links|
        invariant 0 <= i <= |links|
        invariant queue == Enqueued(old(queue), links[..i], LinkFilter(visited, netloc))
        invariant visited == old(visited) && files == old(files)
      {
        assert links[..i + 1][..i] == links[..i];
        var url := links[i];
        if netloc(url) == site && url !in visited && url !in queue
           && !EndsWith(url, ".pdf") && !EndsWith(url, ".zip") && '#' !in url {
          queue := queue + [url];
        }
        i := i + 1;
      }
      assert links[..i] == links;
    }

    /** `save_page`: the text goes to the first free name for the title. */
    method SavePage(url: string, title: string, markdown: string)
      modifies this
      ensures files == Save(old(files), title, PageText(title, url, markdown))
      ensures visited == old(visited) && queue == old(queue)
    {
      var name := ChooseFileName(title, files.Keys);
      ghost var k :| FirstFree(files.Keys, title, k) && name == Candidate(title, k);
      FreeNameIs(files.Keys, title, k);
      files := files[name := PageText(title, url, markdown)];
    }

    /** `crawl_page`: a page that cannot be fetched or parsed (`None`)
        changes nothing; otherwise it is saved and its links are queued. */
    method CrawlPage(url: string, fetch: string -> Option<Page>, isAlnum: char -> bool, netloc: string -> string)
      modifies this
      ensures fetch(url).None? ==> visited == old(visited) && queue == old(queue) && files == old(files)
      ensures fetch(url).Some? ==> var page := fetch(url).value;
        && queue == Enqueued(old(queue), page.links, LinkFilter(visited, netloc))
        && files == Save(old(files), ExtractTitle(page.title, isAlnum),
                         PageText(ExtractTitle(page.title, isAlnum), url, page.markdown))
      ensures visited == old(visited)
    {
      var page := fetch(url);
      if page.None? {
        return;
      }
      var title := ExtractTitle(page.value.title, isAlnum);
      SavePage(url, title, page.value.markdown);
      ExtractLinks(page.value.links, netloc);
    }

    /** The body of the crawl loop for a URL taken from the queue that was
        not visited: when its page is crawled, the page is saved, its links
        are queued and it is marked visited; otherwise nothing changes. */
    method Visit(url: string, fetch: string -> Option<Page>, isAlnum: char -> bool, netloc: string -> string)
      returns (ok: bool)
      modifies this
      ensures ok <==> fetch(url).Some?
      ensures !ok ==> visited == old(visited) && queue == old(queue) && files == old(files)
      ensures ok ==> var o := Outcomes(fetch, isAlnum)(url).value;
        && visited == old(visited) + {url}
        && queue == Enqueued(old(queue), o.links, LinkFilter(old(visited), netloc))
        && files == Save(old(files), o.title, o.text)
    {
      CrawlPage(url, fetch, isAlnum, netloc);
      ok := fetch(url).Some?;
      if ok {
        visited := visited + {url};
      }
    }

    /** `crawl`: the base URL is queued, then the loop turns as `CrawlStep`
        says until the queue is empty or `maxPages` pages were crawled. */
    method Crawl(maxPages: int, fetch: string -> Option<Page>, isAlnum: char -> bool, netloc: string -> string)
      returns (count: nat)
      modifies this
      ensures CrawlState(visited, queue, files, count)
           == CrawlFrom(CrawlState(old(visited), old(queue) + [BaseUrl], old(files), 0), maxPages, Outcomes(fetch, isAlnum), Filters(netloc))
    {
      queue := queue + [BaseUrl];
      count := 0;
      ghost var crawl, filter := Outcomes(fetch, isAlnum), Filters(netloc);
      ghost var start := CrawlState(visited, queue, files, count);
      while queue != [] && count < maxPages
        invariant CrawlFrom(CrawlState(visited, queue, files, count), maxPages, crawl, filter) == CrawlFrom(start, maxPages, crawl, filter)
        decreases maxPages - count, |queue|
      {
        ghost var before := CrawlState(visited, queue, files, count);
        var url := queue[0];
        queue := queue[1..];
        if url !in visited {
          var ok := Visit(url, fetch, isAlnum, netloc);
          if ok {
            count := count + 1;
          }
        }
        assert CrawlState(visited, queue, files, count) == CrawlStep(before, crawl, filter);
      }
    }
  }
}

=== FILE: dicts.dfy ===
/** Python dictionaries: a sequence of key/value entries in insertion order.
    Assigning to an existing key keeps its position; a new key goes at the end;
    `d.update(e)` assigns the entries of `e` one after another. */
module Dicts {
  import opened Wrappers

  type Dict<K, V> = seq<(K, V)>

  function Keys<K, V>(d: Dict<K, V>): (ks: seq<K>)
    ensures |ks| == |d|
    ensures forall i :: 0 <= i < |d| ==> ks[i] == d[i].0
  {
    seq(|d|, i requires 0 <= i < |d| => d[i].0)
  }

  predicate HasKey<K(==), V>(d: Dict<K, V>, k: K) {
    k in Keys(d)
  }

  /** Every key occurs once (true of every real Python dict). */
  ghost predicate Distinct<K, V>(d: Dict<K, V>) {
    forall i, j :: 0 <= i < j < |d| ==> d[i].0 != d[j].0
  }

  /** `d.get(k)`: the value stored under `k`, if any. */
  function Get<K(==), V>(d: Dict<K, V>, k: K): (r: Option<V>)
    ensures r.None? <==> !HasKey(d, k)
  {
    if |d| == 0 then None
    else if d[0].0 == k then Some(d[0].1)
    else
      assert Keys(d) == [d[0].0] + Keys(d[1..]);
      Get(d[1..], k)
  }

  /** `d.get(k, default)`. */
  function GetOr<K(==), V>(d: Dict<K, V>, k: K, default: V): V {
    Get(d, k).GetOr(default)
  }

  /** In a dict without repeated keys, every entry is what `Get` finds. */
  lemma {:induction false} GetEntry<K, V>(d: Dict<K, V>, i: nat)
    requires Distinct(d) && i < |d|
    ensures Get(d, d[i].0) == Some(d[i].1)
  {
    if i > 0 {
      GetEntry(d[1..], i - 1);
    }
  }

  lemma Regroup<T>(a: seq<T>, b: seq<T>, c: seq<T>)
    ensures a + (b + c) == (a + b) + c
  {
  }

  /** A dict with one entry in front of another. */
  lemma ConsKeys<K, V>(e: (K, V), d: Dict<K, V>)
    ensures Keys([e] + d) == [e.0] + Keys(d)
  {
  }

  lemma ConsGet<K, V>(e: (K, V), d: Dict<K, V>)
    ensures forall j :: Get([e] + d, j) == if j == e.0 then Some(e.1) else Get(d, j)
  {
    assert ([e] + d)[1..] == d;
  }

  lemma ConsDistinct<K, V>(e: (K, V), d: Dict<K, V>)
    ensures Distinct([e] + d) <==> Distinct(d) && e.0 !in Keys(d)
  {
    var s := [e] + d;
    if Distinct(s) {
      forall i, j | 0 <= i < j < |d| ensures d[i].0 != d[j].0 {
        assert s[i + 1] == d[i] && s[j + 1] == d[j];
      }
      forall i | 0 <= i < |d| ensures Keys(d)[i] != e.0 {
        assert s[0] == e && s[i + 1] == d[i];
      }
    }
    if Distinct(d) && e.0 !in Keys(d) {
      forall i, j | 0 <= i < j < |s| ensures s[i].0 != s[j].0 {
        assert s[j] == d[j - 1];
        if i > 0 {
          assert s[i] == d[i - 1];
        } else {
          assert Keys(d)[j - 1] == d[j - 1].0;
        }
      }
    }
  }

  /** Assigning the key of the first entry replaces that entry. */
  lemma PutHead<K, V>(e: (K, V), tail: Dict<K, V>, v: V)
    ensures forall j :: Get([(e.0, v)] + tail, j) == if j == e.0 then Some(v) else Get([e] + tail, j)
    ensures HasKey([e] + tail, e.0) && Keys([(e.0, v)] + tail) == Keys([e] + tail)
    ensures Distinct([e] + tail) ==> Distinct([(e.0, v)] + tail)
  {
    ConsKeys(e, tail);
    ConsKeys((e.0, v), tail);
    ConsGet(e, tail);
    ConsGet((e.0, v), tail);
    ConsDistinct(e, tail);
    ConsDistinct((e.0, v), tail);
  }

  /** Assigning another key keeps the first entry in front of the rest. */
  lemma PutBehind<K, V>(e: (K, V), tail: Dict<K, V>, rest: Dict<K, V>, k: K, v: V)
    requires e.0 != k
    requires forall j :: Get(rest, j) == if j == k then Some(v) else Get(tail, j)
    requires Keys(rest) == if HasKey(tail, k) then Keys(tail) else Keys(tail) + [k]
    requires Distinct(tail) ==> Distinct(rest)
    ensures forall j :: Get([e] + rest, j) == if j == k then Some(v) else Get([e] + tail, j)
    ensures Keys([e] + rest) == if HasKey([e] + tail, k) then Keys([e] + tail) else Keys([e] + tail) + [k]
    ensures Distinct([e] + tail) ==> Distinct([e] + rest)
  {
    ConsKeys(e, tail);
    ConsKeys(e, rest);
    ConsGet(e, tail);
    ConsGet(e, rest);
    ConsDistinct(e, tail);
    ConsDistinct(e, rest);
    assert HasKey([e] + tail, k) <==> HasKey(tail, k);
    Regroup([e.0], Keys(tail), [k]);
  }

  /** `d[k] = v`: replaces the value of an existing key in place, or appends. */
  function Put<K(==,!new), V>(d: Dict<K, V>, k: K, v: V): (r: Dict<K, V>)
    ensures forall j :: Get(r, j) == if j == k then Some(v) else Get(d, j)
    ensures Keys(r) == if HasKey(d, k) then Keys(d) else Keys(d) + [k]
    ensures Distinct(d) ==> Distinct(r)
  {
    if |d| == 0 then
      ConsKeys((k, v), []);
      ConsGet((k, v), []);
      [(k, v)]
    else
      assert d == [d[0]] + d[1..];
      if d[0].0 == k then
        PutHead(d[0], d[1..], v);
        [(k, v)] + d[1..]
      else
        var rest := Put(d[1..], k, v);
        PutBehind(d[0], d[1..], rest, k, v);
        [d[0]] + rest
  }

  /** `Put` at one key: the assigned key reads back, every other key is
      untouched, and no key goes missing. */
  lemma PutAt<K(!new), V>(d: Dict<K, V>, k: K, v: V, j: K)
    ensures Get(Put(d, k, v), j) == if j == k then Some(v) else Get(d, j)
    ensures HasKey(d, j) ==> HasKey(Put(d, k, v), j)
  {
  }

  /** Assigning a key that is not yet present appends exactly one entry. */
  lemma {:induction false} PutNew<K(!new), V>(d: Dict<K, V>, k: K, v: V)
    requires !HasKey(d, k)
    ensures Put(d, k, v) == d + [(k, v)]
  {
    if |d| > 0 {
      assert d == [d[0]] + d[1..];
      ConsKeys(d[0], d[1..]);
      PutNew(d[1..], k, v);
      Regroup([d[0]], d[1..], [(k, v)]);
    }
  }

  /** `del d[k]` when present, no change otherwise. */
  function Remove<K(==,!new), V>(d: Dict<K, V>, k: K): (r: Dict<K, V>)
    ensures forall j :: Get(r, j) == if j == k then None else Get(d, j)
    ensures |r| <= |d|
  {
    if |d| == 0 then []
    else if d[0].0 == k then Remove(d[1..], k)
    else [d[0]] + Remove(d[1..], k)
  }

  /** `d.update(e)`, or `{**d, **e}`: the entries of `e` assigned in order. */
  function Update<K(==,!new), V>(d: Dict<K, V>, e: Dict<K, V>): (r: Dict<K, V>)
    ensures Distinct(d) ==> Distinct(r)
    ensures Keys(d) <= Keys(r)
    decreases |e|
  {
    if |e| == 0 then d
    else Put(Update(d, e[..|e| - 1]), e[|e| - 1].0, e[|e| - 1].1)
  }

  /** Looking a key up in a dict with one more entry at its end. */
  lemma {:induction false} GetSnoc<K, V>(e: Dict<K, V>, k: K, v: V, j: K)
    ensures Get(e + [(k, v)], j) == if HasKey(e, j) then Get(e, j) else if j == k then Some(v) else None
  {
    if |e| > 0 {
      assert (e + [(k, v)])[1..] == e[1..] + [(k, v)];
      assert Keys(e) == [e[0].0] + Keys(e[1..]);
      GetSnoc(e[1..], k, v, j);
    }
  }

  /** After `d.update(e)`, a key has the caller's value when `e` has it and
      keeps its value from `d` otherwise; keys of `e` absent from `d` are added. */
  lemma {:induction false} UpdateGet<K(!new), V>(d: Dict<K, V>, e: Dict<K, V>, j: K)
    requires Distinct(e)
    ensures Get(Update(d, e), j) == if HasKey(e, j) then Get(e, j) else Get(d, j)
    decreases |e|
  {
    if |e| > 0 {
      var init := e[..|e| - 1];
      var last := e[|e| - 1];
      assert e == init + [last];
      assert Distinct(init);
      UpdateGet(d, init, j);
      GetSnoc(init, last.0, last.1, j);
      assert !HasKey(init, last.0);
    }
  }
}

=== FILE: feishu_bot.dfy ===
/** The Feishu chat adapter: the same routing as the WeCom adapter, keyed by
    chat and user together. Unknown commands get no reply, and the analysis
    of a completed session does nothing, so the completed session stays in
    the table. Every `send_message` is recorded, with its chat, in an output
    log. */
module FeishuChat {
  import opened Wrappers
  import opened Text
  import opened Conversations
  import WeCom

  /** `f"{chat_id}_{user_id}"`: the key of every session-table call. */
  function Key(chat: string, user: string): string {
    chat + "_" + user
  }

  /** For a user id without an underscore, the last underscore of the key
      is the separator. */
  lemma SeparatorIsLast(chat: string, user: string)
    requires '_' !in user
    ensures LastIndexOf(Key(chat, user), '_') == |chat|
  {
    var k := Key(chat, user);
    assert k[|chat|] == '_';
    assert forall j :: |chat| < j < |k| ==> k[j] == user[j - |chat| - 1];
  }

  /** When user ids have no underscore, the key determines both chat and
      user. */
  lemma KeyInjective(c1: string, u1: string, c2: string, u2: string)
    requires '_' !in u1 && '_' !in u2
    requires Key(c1, u1) == Key(c2, u2)
    ensures c1 == c2 && u1 == u2
  {
    SeparatorIsLast(c1, u1);
    SeparatorIsLast(c2, u2);
    var k := Key(c1, u1);
    assert c1 == k[..|c1|] && c2 == k[..|c2|];
    assert u1 == k[|c1| + 1..] && u2 == k[|c2| + 1..];
  }

  /** Without that restriction two different chat and user pairs can share
      a session. */
  lemma KeyCollision()
    ensures Key("a_b", "c") == Key("a", "b_c")
  {
  }

  /** A message event after its content was parsed: chat id, sender's user
      id and the "text" entry, each possibly missing. */
  datatype Event = Event(chat: Option<string>, user: Option<string>, text: Option<string>)

  /** `_handle_command`: "/cancel" drops the session and replies, "/help"
      replies, anything else does nothing. */
  function Command(t: map<string, Session>, chat: string, user: string, command: string): (map<string, Session>, seq<(string, string)>) {
    if command == "/cancel" then (t - {Key(chat, user)}, [(chat, WeCom.CancelledText)])
    else if command == "/help" then (t, [(chat, WeCom.HelpText)])
    else (t, [])
  }

  /** `_handle_new_question`. */
  function NewQuestion(fields: seq<Field>, t: map<string, Session>, chat: string, user: string, question: string, now: int)
    : (map<string, Session>, seq<(string, string)>)
    requires |fields| > 0
  {
    (Start(t, Key(chat, user), now), [(chat, WeCom.Echo(question)), (chat, PromptFor(fields[0]).message)])
  }

  /** `_handle_conversation`: only a "collecting" reply sends anything;
      `_analyze_and_classify` has an empty body. */
  function Converse(fields: seq<Field>, t: map<string, Session>, chat: string, user: string, response: string, now: int)
    : (map<string, Session>, seq<(string, string)>)
    requires |fields| > 0 && TableValid(fields, t)
  {
    var (t', reply) := Process(fields, t, Key(chat, user), response, now);
    (t', if reply.Asking? then [(chat, reply.next.message)] else [])
  }

  /** `handle_message` on the session table. The clock is read twice:
      at `now` by `is_conversation_active`, and at `later` by
      `process_response` or `start_conversation`. */
  function Handle(fields: seq<Field>, t: map<string, Session>, e: Event, now: int, later: int): (map<string, Session>, seq<(string, string)>)
    requires |fields| > 0 && TableValid(fields, t)
  {
    var chat := e.chat.GetOr("");
    var user := e.user.GetOr("");
    var text := e.text.GetOr("");
    if StartsWith(text, "/") then Command(t, chat, user, text)
    else
      var (t', active) := Probe(t, Key(chat, user), now);
      if active then Converse(fields, t', chat, user, text, later)
      else NewQuestion(fields, t', chat, user, text, later)
  }

  /** Commands never reach the session flow; only "/cancel" changes the
      table, and only "/cancel" and "/help" get a reply, sent to the chat. */
  lemma CommandRouting(fields: seq<Field>, t: map<string, Session>, e: Event, now: int, later: int)
    requires |fields| > 0 && TableValid(fields, t)
    requires StartsWith(e.text.GetOr(""), "/")
    ensures var (t', sends) := Handle(fields, t, e, now, later);
      var command := e.text.GetOr("");
      && t' == (if command == "/cancel" then t - {Key(e.chat.GetOr(""), e.user.GetOr(""))} else t)
      && (sends == [] <==> command != "/cancel" && command != "/help")
      && sends == (if command == "/cancel" then [(e.chat.GetOr(""), WeCom.CancelledText)]
                   else if command == "/help" then [(e.chat.GetOr(""), WeCom.HelpText)]
                   else [])
  {
  }

  /** A message without an active session starts one under the composite
      key, whatever its text, and the text is only echoed. */
  lemma NewQuestionRouting(fields: seq<Field>, t: map<string, Session>, e: Event, text: string, now: int, later: int)
    requires |fields| > 0 && TableValid(fields, t)
    requires !StartsWith(e.text.GetOr(""), "/") && !StartsWith(text, "/")
    requires !Probe(t, Key(e.chat.GetOr(""), e.user.GetOr("")), now).1
    ensures var (t', sends) := Handle(fields, t, e, now, later);
      var key := Key(e.chat.GetOr(""), e.user.GetOr(""));
      && t' == Handle(fields, t, e.(text := Some(text)), now, later).0
      && t'[key] == NewSession(later)
      && sends == [(e.chat.GetOr(""), WeCom.Echo(e.text.GetOr(""))), (e.chat.GetOr(""), fields[0].question)]
  {
  }

  /** The answer that completes a session sends nothing and leaves the
      completed session in the table; from then on the key is inactive, so
      the next message, at any time, starts the session over. The answer is
      handled with the clock read at `now` and then at `answered`, the next
      message at `next1` and then at `next2`. */
  lemma CompletedIsRestarted(fields: seq<Field>, t: map<string, Session>, e: Event, next: Event,
                             now: int, answered: int, next1: int, next2: int)
    requires |fields| > 0 && TableValid(fields, t)
    requires !StartsWith(e.text.GetOr(""), "/") && !StartsWith(next.text.GetOr(""), "/")
    requires next.chat == e.chat && next.user == e.user
    requires var key := Key(e.chat.GetOr(""), e.user.GetOr(""));
      Probe(t, key, now).1 && Process(fields, t, key, e.text.GetOr(""), answered).1.Finished?
    ensures var key := Key(e.chat.GetOr(""), e.user.GetOr(""));
      var (t1, sends) := Handle(fields, t, e, now, answered);
      && sends == []
      && key in t1 && t1[key].state == Completed
      && !Probe(t1, key, next1).1
      && Handle(fields, t1, next, next1, next2).0[key] == NewSession(next2)
  {
    var key := Key(e.chat.GetOr(""), e.user.GetOr(""));
    assert Probe(t, key, now).0 == t;
    var s := t[key];
    assert s.currentField + 1 == |fields|;
    var t1 := Handle(fields, t, e, now, answered).0;
    assert t1[key] == Answer(fields, s, e.text.GetOr("")).0;
  }

  /** A key found active that expires before `process_response` reads the
      clock is started over: the answer is lost, the session is fresh, and
      nothing is sent, since the reply has no "status" and the lookup of it
      raises inside the handler. */
  lemma LateExpiryDropsAnswer(fields: seq<Field>, t: map<string, Session>, e: Event, now: int, later: int)
    requires |fields| > 0 && TableValid(fields, t)
    requires !StartsWith(e.text.GetOr(""), "/")
    requires var key := Key(e.chat.GetOr(""), e.user.GetOr(""));
      Probe(t, key, now).1 && Expired(t[key], later)
    ensures var key := Key(e.chat.GetOr(""), e.user.GetOr(""));
      var (t', sends) := Handle(fields, t, e, now, later);
      && t' == t[key := NewSession(later)]
      && t'[key].collectedData == []
      && sends == []
  {
    assert Probe(t, Key(e.chat.GetOr(""), e.user.GetOr("")), now).0 == t;
  }

  /** The Feishu bot: its own session table and the log of sent messages
      with their chats. */
  class FeishuBot {
    const manager: ConversationManager<string>
    var sent: seq<(string, string)>

    ghost predicate Valid()
      reads this, manager
    {
      manager.Valid()
    }

    /** The bot builds a session table of its own. */
    constructor(fields: seq<Field>)
      requires |fields| > 0
      ensures Valid() && fresh(manager)
      ensures manager.fields == fields && manager.conversations == map[] && sent == []
    {
      manager := new ConversationManager(fields);
      sent := [];
    }

    /** `send_message`: only logged. */
    method SendMessage(chat: string, content: string)
      modifies this
      ensures sent == old(sent) + [(chat, content)]
    {
      sent := sent + [(chat, content)];
    }

    method HandleCommand(chat: string, user: string, command: string)
      requires Valid()
      modifies this, manager
      ensures Valid()
      ensures (manager.conversations, sent) == (Command(old(manager.conversations), chat, user, command).0,
                                                old(sent) + Command(old(manager.conversations), chat, user, command).1)
    {
      if command == "/cancel" {
        manager.CancelConversation(Key(chat, user));
        SendMessage(chat, WeCom.CancelledText);
      } else if command == "/help" {
        SendMessage(chat, WeCom.HelpText);
      } else {
        assert sent == old(sent) + [];
      }
    }

    method HandleNewQuestion(chat: string, user: string, question: string, now: int)
      requires Valid()
      modifies this, manager
      ensures Valid()
      ensures (manager.conversations, sent) == (NewQuestion(manager.fields, old(manager.conversations), chat, user, question, now).0,
                                                old(sent) + NewQuestion(manager.fields, old(manager.conversations), chat, user, question, now).1)
    {
      var key := Key(chat, user);
      SendMessage(chat, WeCom.Echo(question));
      var first := manager.StartConversation(key, now);
      SendMessage(chat, first.message);
      assert sent == old(sent) + [(chat, WeCom.Echo(question)), (chat, first.message)];
    }

    method HandleConversation(chat: string, user: string, response: string, now: int)
      requires Valid()
      modifies this, manager
      ensures Valid()
      ensures (manager.conversations, sent) == (Converse(manager.fields, old(manager.conversations), chat, user, response, now).0,
                                                old(sent) + Converse(manager.fields, old(manager.conversations), chat, user, response, now).1)
    {
      var key := Key(chat, user);
      var reply := manager.ProcessResponse(key, response, now);
      if reply.Asking? {
        SendMessage(chat, reply.next.message);
      } else {
        assert sent == old(sent) + [];
      }
    }

    /** `now` is the clock read of the activity check, `later` the one of
        the call that follows it. */
    method HandleMessage(e: Event, now: int, later: int)
      requires Valid()
      modifies this, manager
      ensures Valid()
      ensures (manager.conversations, sent) == (Handle(manager.fields, old(manager.conversations), e, now, later).0,
                                                old(sent) + Handle(manager.fields, old(manager.conversations), e, now, later).1)
    {
      var chat := e.chat.GetOr("");
      var user := e.user.GetOr("");
      var text := e.text.GetOr("");
      if StartsWith(text, "/") {
        HandleCommand(chat, user, text);
        return;
      }
      var active := manager.IsConversationActive(Key(chat, user), now);
      if active {
        HandleConversation(chat, user, text, later);
      } else {
        HandleNewQuestion(chat, user, text, later);
      }
    }
  }
}

=== FILE: feishu_integration.dfy ===
/** Ticket creation in the Feishu bitable: which logical fields a ticket of
    each type carries, how they are mapped onto table columns, the type
    labels and the keyword-based priority. */
module FeishuTickets {
  import opened Wrappers
  import opened Dicts
  import opened Text

  /** `_translate_type`'s table. */
  const TypeLabels: Dict<string, string> := [("bug", "缺陷"), ("feature", "需求"), ("usage", "使用咨询")]

  /** `_translate_type`: the table lookup with "其他" for any other type. */
  function TranslateType(ticketType: string): string {
    GetOr(TypeLabels, ticketType, "其他")
  }

  /** The three known types get their own labels, everything else "其他",
      and no two known types share a label. */
  lemma TranslateTypeCases(ticketType: string)
    ensures TranslateType("bug") == "缺陷"
    ensures TranslateType("feature") == "需求"
    ensures TranslateType("usage") == "使用咨询"
    ensures ticketType !in {"bug", "feature", "usage"} ==> TranslateType(ticketType) == "其他"
    ensures TranslateType(ticketType) != "其他" <==> ticketType in {"bug", "feature", "usage"}
  {
    assert Keys(TypeLabels) == ["bug", "feature", "usage"];
  }

  /** The bug keywords for "P0" and for "P1". */
  const CriticalWords: seq<string> := ["崩溃", "数据丢失", "无法使用"]
  const SevereWords: seq<string> := ["严重", "错误"]

  /** Python's `any(k in text for k in words)`. */
  predicate MentionsAny(text: string, words: seq<string>) {
    exists i :: 0 <= i < |words| && Contains(text, words[i])
  }

  /** The priority of a bug from its description. */
  function BugPriority(description: string): string {
    if MentionsAny(description, CriticalWords) then "P0"
    else if MentionsAny(description, SevereWords) then "P1"
    else "P2"
  }

  /** `_calculate_priority`: bugs by keyword, features "P2", anything else "P3".
      The lower-casing of the description is left out: every keyword is
      written in caseless CJK characters. */
  function CalculatePriority(ticketType: string, data: Dict<string, string>): (r: string)
    ensures r in {"P0", "P1", "P2", "P3"}
    ensures r == "P3" <==> ticketType != "bug" && ticketType != "feature"
    ensures ticketType == "feature" ==> r == "P2"
  {
    if ticketType == "bug" then BugPriority(GetOr(data, "description", ""))
    else if ticketType == "feature" then "P2"
    else "P3"
  }

  /** Urgency rank: 0 for "P0" up to 3 for "P3". */
  function Rank(priority: string): int {
    if priority == "P0" then 0 else if priority == "P1" then 1 else if priority == "P2" then 2 else 3
  }

  /** A text occurring in `s` also occurs in anything `s` is part of. */
  lemma ContainsWithin(s: string, before: string, after: string, t: string)
    requires Contains(s, t)
    ensures Contains(before + s + after, t)
  {
    ContainsAt(s, t);
    var i :| OccursAt(s, t, i);
    var big := before + s + after;
    assert big[|before| + i..|before| + i + |t|] == s[i..i + |t|];
    assert OccursAt(big, t, |before| + i);
    ContainsAt(big, t);
  }

  /** Adding text around a bug description never lowers its priority. */
  lemma BugPriorityMonotone(description: string, before: string, after: string)
    ensures Rank(BugPriority(before + description + after)) <= Rank(BugPriority(description))
  {
    var big := before + description + after;
    if MentionsAny(description, CriticalWords) {
      var i :| 0 <= i < |CriticalWords| && Contains(description, CriticalWords[i]);
      ContainsWithin(description, before, after, CriticalWords[i]);
      assert MentionsAny(big, CriticalWords);
    } else if MentionsAny(description, SevereWords) {
      var i :| 0 <= i < |SevereWords| && Contains(description, SevereWords[i]);
      ContainsWithin(description, before, after, SevereWords[i]);
      assert MentionsAny(big, SevereWords);
    }
  }

  /** The logical fields `create_ticket` writes, in order, with their values:
      the base fields, the fields of the type, then the priority. */
  function TicketEntries(ticketType: string, title: string, data: Dict<string, string>): (es: Dict<string, string>)
    ensures |es| >= 4
    ensures es[..3] == BaseEntries(ticketType, title, data)
    ensures es[|es| - 1] == ("priority", CalculatePriority(ticketType, data))
  {
    BaseEntries(ticketType, title, data) + DetailEntries(ticketType, data) + [("priority", CalculatePriority(ticketType, data))]
  }

  /** Title, type label and submitter. */
  function BaseEntries(ticketType: string, title: string, data: Dict<string, string>): Dict<string, string> {
    [("title", title), ("type", TranslateType(ticketType)), ("submitter", GetOr(data, "submitter", "未知用户"))]
  }

  /** For a bug the six environment fields; for a feature the background
      (as description) and the expectation; nothing otherwise. */
  function DetailEntries(ticketType: string, data: Dict<string, string>): Dict<string, string> {
    if ticketType == "bug" then
      [("version", GetOr(data, "version", "")), ("environment", GetOr(data, "environment", "")),
       ("description", GetOr(data, "description", "")), ("steps", GetOr(data, "steps", "")),
       ("expected", GetOr(data, "expected", "")), ("actual", GetOr(data, "actual", ""))]
    else if ticketType == "feature" then
      [("description", GetOr(data, "background", "")), ("expected", GetOr(data, "expected", ""))]
    else []
  }

  /** `str(KeyError(k))` for a string key. */
  function KeyErrorText(key: string): string {
    "'" + key + "'"
  }

  /** Writing the entries one by one as `fields[field_mappings[k]] = v`: the
      first logical key without a column mapping raises `KeyError`. The
      mapping and the row are compared and looked up by key only, so they
      are maps. */
  function Fill(mappings: map<string, string>, entries: Dict<string, string>): Result<map<string, string>, string>
    decreases |entries|
  {
    if |entries| == 0 then Success(map[])
    else
      var before := Fill(mappings, entries[..|entries| - 1]);
      var key := entries[|entries| - 1].0;
      if before.Failure? then before
      else if key !in mappings then Failure(KeyErrorText(key))
      else Success(before.value[mappings[key] := entries[|entries| - 1].1])
  }

  /** Filling fails exactly when some logical key has no column, and then
      with the first such key's `KeyError`. */
  lemma {:induction false} FillFailure(mappings: map<string, string>, entries: Dict<string, string>)
    ensures Fill(mappings, entries).Success? <==> forall i :: 0 <= i < |entries| ==> entries[i].0 in mappings
    ensures Fill(mappings, entries).Failure? ==> exists j ::
      && 0 <= j < |entries|
      && entries[j].0 !in mappings
      && (forall i :: 0 <= i < j ==> entries[i].0 in mappings)
      && Fill(mappings, entries).error == KeyErrorText(entries[j].0)
    decreases |entries|
  {
    if |entries| > 0 {
      var init := entries[..|entries| - 1];
      FillFailure(mappings, init);
      assert forall i :: 0 <= i < |init| ==> init[i] == entries[i];
      if Fill(mappings, init).Failure? {
        var j :| 0 <= j < |init| && init[j].0 !in mappings
          && (forall i :: 0 <= i < j ==> init[i].0 in mappings)
          && Fill(mappings, init).error == KeyErrorText(init[j].0);
        assert entries[j].0 !in mappings;
      } else if entries[|entries| - 1].0 !in mappings {
        assert forall i :: 0 <= i < |entries| - 1 ==> entries[i].0 in mappings;
      }
    }
  }

  /** On success the row has exactly the columns the logical keys map to. */
  lemma {:induction false} FillKeys(mappings: map<string, string>, entries: Dict<string, string>)
    requires Fill(mappings, entries).Success?
    ensures Fill(mappings, entries).value.Keys == set i | 0 <= i < |entries| && entries[i].0 in mappings :: mappings[entries[i].0]
    decreases |entries|
  {
    if |entries| > 0 {
      var n := |entries| - 1;
      var init := entries[..n];
      assert forall i :: 0 <= i < n ==> init[i] == entries[i];
      FillKeys(mappings, init);
      var row := Fill(mappings, entries).value;
      assert row.Keys == Fill(mappings, init).value.Keys + {mappings[entries[n].0]};
    }
  }

  /** Logical keys mapped to distinct columns: each column holds its
      entry's value. */
  lemma {:induction false} FillValues(mappings: map<string, string>, entries: Dict<string, string>)
    requires forall i :: 0 <= i < |entries| ==> entries[i].0 in mappings
    requires forall i, j :: 0 <= i < j < |entries| ==> mappings[entries[i].0] != mappings[entries[j].0]
    ensures Fill(mappings, entries).Success?
    ensures forall i :: 0 <= i < |entries| ==>
      mappings[entries[i].0] in Fill(mappings, entries).value && Fill(mappings, entries).value[mappings[entries[i].0]] == entries[i].1
    decreases |entries|
  {
    if |entries| > 0 {
      var n := |entries| - 1;
      var init := entries[..n];
      assert forall i :: 0 <= i < n ==> init[i] == entries[i];
      FillValues(mappings, init);
    }
  }

  /** What `create_ticket` returns. */
  datatype TicketOutcome = Created(recordId: string, url: string) | Failed(error: string)

  /** The reply of `_create_record`: the stub has no body, so it is always
      `None`. */
  function CreateRecord(row: map<string, string>): Option<string> {
    None
  }

  /** The error text of calling `.success()` on `None`. */
  const NoneSuccessError: string := "'NoneType' object has no attribute 'success'"

  /** `create_ticket` on the table `tableId` of the base `appToken`
      (notification left out): any exception becomes
      `{"success": False, "error": str(e)}`. */
  function CreateTicket(mappings: map<string, string>, appToken: string, tableId: string, ticketType: string, title: string, data: Dict<string, string>): (r: TicketOutcome)
  {
    var row := Fill(mappings, TicketEntries(ticketType, title, data));
    if row.Failure? then Failed(row.error)
    else
      match CreateRecord(row.value)
      case None => Failed(NoneSuccessError)
      case Some(id) => Created(id, "https://feishu.cn/base/" + appToken + "/" + tableId + "?record=" + id)
  }

  /** No ticket is ever created: the outcome is the missing column's
      `KeyError` or the stub's `None`. */
  lemma CreateTicketFails(mappings: map<string, string>, appToken: string, tableId: string, ticketType: string, title: string,
                          data: Dict<string, string>)
    ensures CreateTicket(mappings, appToken, tableId, ticketType, title, data).Failed?
    ensures var es := TicketEntries(ticketType, title, data);
      (forall i :: 0 <= i < |es| ==> es[i].0 in mappings) <==>
      CreateTicket(mappings, appToken, tableId, ticketType, title, data).error == NoneSuccessError
  {
    var es := TicketEntries(ticketType, title, data);
    FillFailure(mappings, es);
    EntryKeysShort(ticketType, title, data);
    assert |NoneSuccessError| == 44;
    var row := Fill(mappings, es);
    if row.Failure? {
      var j :| 0 <= j < |es| && es[j].0 !in mappings && row.error == KeyErrorText(es[j].0);
      assert |row.error| <= 13;
    }
  }

  /** Every logical key is a short word: at most 11 characters. */
  lemma EntryKeysShort(ticketType: string, title: string, data: Dict<string, string>)
    ensures forall i :: 0 <= i < |TicketEntries(ticketType, title, data)| ==> |TicketEntries(ticketType, title, data)[i].0| <= 11
  {
    var head := BaseEntries(ticketType, title, data);
    var middle := DetailEntries(ticketType, data);
    var last := [("priority", CalculatePriority(ticketType, data))];
    BaseKeysShort(title, TranslateType(ticketType), GetOr(data, "submitter", "未知用户"));
    if ticketType == "bug" {
      BugKeysShort(GetOr(data, "version", ""), GetOr(data, "environment", ""), GetOr(data, "description", ""),
                   GetOr(data, "steps", ""), GetOr(data, "expected", ""), GetOr(data, "actual", ""));
    } else if ticketType == "feature" {
      FeatureKeysShort(GetOr(data, "background", ""), GetOr(data, "expected", ""));
    }
    PriorityKeyShort(CalculatePriority(ticketType, data));
    ShortKeysConcat(head, middle);
    ShortKeysConcat(head + middle, last);
  }

  predicate ShortKeys(d: Dict<string, string>) {
    forall i :: 0 <= i < |d| ==> |d[i].0| <= 11
  }

  lemma BaseKeysShort(a: string, b: string, c: string)
    ensures ShortKeys([("title", a), ("type", b), ("submitter", c)])
  {
  }

  lemma BugKeysShort(a: string, b: string, c: string, d: string, e: string, f: string)
    ensures ShortKeys([("version", a), ("environment", b), ("description", c), ("steps", d), ("expected", e), ("actual", f)])
  {
  }

  lemma FeatureKeysShort(a: string, b: string)
    ensures ShortKeys([("description", a), ("expected", b)])
  {
  }

  lemma PriorityKeyShort(a: string)
    ensures ShortKeys([("priority", a)])
  {
  }

  lemma ShortKeysConcat(a: Dict<string, string>, b: Dict<string, string>)
    requires ShortKeys(a) && ShortKeys(b)
    ensures ShortKeys(a + b)
  {
    forall i | 0 <= i < |a + b|
      ensures |(a + b)[i].0| <= 11
    {
      if i >= |a| {
        assert (a + b)[i] == b[i - |a|];
      }
    }
  }

  /** The logical keys of a bug ticket, in writing order. */
  const BugKeys: seq<string> := ["title", "type", "submitter", "version", "environment", "description", "steps", "expected", "actual", "priority"]

  lemma BugKeysDistinct()
    ensures forall i, j :: 0 <= i < j < |BugKeys| ==> BugKeys[i] != BugKeys[j]
  {
  }

  /** The bug entries, in writing order. */
  lemma BugEntries(title: string, data: Dict<string, string>)
    ensures forall i :: 0 <= i < |TicketEntries("bug", title, data)| ==> TicketEntries("bug", title, data)[i].0 == BugKeys[i]
    ensures |TicketEntries("bug", title, data)| == |BugKeys|
    ensures TicketEntries("bug", title, data)[1].1 == "缺陷"
    ensures TicketEntries("bug", title, data)[5].1 == GetOr(data, "description", "")
    ensures TicketEntries("bug", title, data)[8].1 == GetOr(data, "actual", "")
    ensures TicketEntries("bug", title, data)[9].1 == BugPriority(GetOr(data, "description", ""))
  {
    TranslateTypeCases("bug");
    BugLayout(title, TranslateType("bug"), GetOr(data, "submitter", "未知用户"),
              GetOr(data, "version", ""), GetOr(data, "environment", ""), GetOr(data, "description", ""),
              GetOr(data, "steps", ""), GetOr(data, "expected", ""), GetOr(data, "actual", ""),
              CalculatePriority("bug", data));
  }

  /** The layout of a bug ticket's entries, whatever their values. */
  lemma BugLayout(t: string, ty: string, sub: string, a: string, b: string, c: string, d: string, e: string, f: string, p: string)
    ensures var es := [("title", t), ("type", ty), ("submitter", sub)]
        + [("version", a), ("environment", b), ("description", c), ("steps", d), ("expected", e), ("actual", f)]
        + [("priority", p)];
      && |es| == |BugKeys|
      && (forall i :: 0 <= i < |es| ==> es[i].0 == BugKeys[i])
      && es[1].1 == ty && es[5].1 == c && es[8].1 == f && es[9].1 == p
  {
  }

  /** `k` is a key of `m` holding `v`. */
  predicate Holds(m: map<string, string>, k: string, v: string) {
    k in m && m[k] == v
  }

  /** The row of a bug ticket, when every logical key has a column and the
      mapping sends different keys to different columns: it carries the
      label "缺陷", the bug's own description and actual behaviour, and the
      keyword priority. */
  lemma BugRow(mappings: map<string, string>, title: string, data: Dict<string, string>)
    requires "title" in mappings && "type" in mappings && "submitter" in mappings
    requires "version" in mappings && "environment" in mappings && "description" in mappings
    requires "steps" in mappings && "expected" in mappings && "actual" in mappings && "priority" in mappings
    requires forall a, b :: a in mappings && b in mappings && a != b ==> mappings[a] != mappings[b]
    ensures var row := Fill(mappings, TicketEntries("bug", title, data));
      && row.Success?
      && Holds(row.value, mappings["type"], "缺陷")
      && Holds(row.value, mappings["description"], GetOr(data, "description", ""))
      && Holds(row.value, mappings["actual"], GetOr(data, "actual", ""))
      && Holds(row.value, mappings["priority"], BugPriority(GetOr(data, "description", "")))
  {
    BugEntries(title, data);
    BugKeysDistinct();
    MappedBugKeys(mappings);
    KeyedRow(mappings, BugKeys, TicketEntries("bug", title, data));
    assert BugKeys[1] == "type" && BugKeys[5] == "description" && BugKeys[8] == "actual" && BugKeys[9] == "priority";
  }

  /** Entries laid out under distinct keys, each mapped to its own column,
      fill a row holding each value in its key's column. */
  lemma KeyedRow(mappings: map<string, string>, keys: seq<string>, es: Dict<string, string>)
    requires |es| == |keys| && forall i :: 0 <= i < |es| ==> es[i].0 == keys[i]
    requires forall i :: 0 <= i < |keys| ==> keys[i] in mappings
    requires forall i, j :: 0 <= i < j < |keys| ==> keys[i] != keys[j]
    requires forall a, b :: a in mappings && b in mappings && a != b ==> mappings[a] != mappings[b]
    ensures Fill(mappings, es).Success?
    ensures forall i :: 0 <= i < |es| ==> Holds(Fill(mappings, es).value, mappings[keys[i]], es[i].1)
  {
    FillValues(mappings, es);
  }

  /** Every bug key has a column. */
  lemma MappedBugKeys(mappings: map<string, string>)
    requires "title" in mappings && "type" in mappings && "submitter" in mappings
    requires "version" in mappings && "environment" in mappings && "description" in mappings
    requires "steps" in mappings && "expected" in mappings && "actual" in mappings && "priority" in mappings
    ensures forall i :: 0 <= i < |BugKeys| ==> BugKeys[i] in mappings
  {
    assert forall k :: k in BugKeys ==> k in mappings;
  }

  /** A feature ticket writes its background into the description column,
      and a ticket of any other non-bug type has only the four common
      fields. */
  lemma FeatureAndOtherRows(ticketType: string, title: string, data: Dict<string, string>)
    ensures TicketEntries("feature", title, data)[3] == ("description", GetOr(data, "background", ""))
    ensures TicketEntries("feature", title, data)[4] == ("expected", GetOr(data, "expected", ""))
    ensures ticketType != "bug" && ticketType != "feature" ==>
      Keys(TicketEntries(ticketType, title, data)) == ["title", "type", "submitter", "priority"]
  {
  }
}

=== FILE: knowledge_base.dfy ===
/** The retrieval knowledge base: result-count selection, the score filter
    over the vector store's answers, the context text built from the kept
    documents, and the guards that make an uninitialised store inert. The
    vector store's similarity search, text splitting and embedding are
    parameters. */
module KnowledgeBase {
  import opened Wrappers
  import opened Dicts
  import opened Text
  import opened PyValues

  /** A stored document: its text and its id in the store. */
  datatype Document = Document(content: string, id: string)

  /** One answer of a similarity search. */
  datatype Scored = Scored(doc: Document, score: real)

  /** `top_k or config.rag.top_k`: an absent or zero request falls back to
      the configured count. */
  function ChooseK(topK: Option<int>, configured: int): (k: int)
    ensures k == configured <==> topK.None? || topK.value == 0 || topK.value == configured
    ensures topK.Some? && topK.value != 0 ==> k == topK.value
  {
    if topK.Some? && topK.value != 0 then topK.value else configured
  }

  /** The documents of the answers whose score reaches the threshold, in
      the order the store gave them. */
  function Kept(results: seq<Scored>, threshold: real): (docs: seq<Document>)
    ensures |docs| <= |results|
  {
    if |results| == 0 then []
    else
      var rest := Kept(results[1..], threshold);
      if results[0].score >= threshold then [results[0].doc] + rest else rest
  }

  /** The filter works answer by answer: filtering a concatenation is the
      concatenation of the filtered parts, so the order is kept. */
  lemma {:induction false} KeptAppend(a: seq<Scored>, b: seq<Scored>, threshold: real)
    ensures Kept(a + b, threshold) == Kept(a, threshold) + Kept(b, threshold)
    decreases |a|
  {
    if |a| == 0 {
      assert a + b == b;
    } else {
      assert (a + b)[0] == a[0];
      assert (a + b)[1..] == a[1..] + b;
      KeptAppend(a[1..], b, threshold);
    }
  }

  /** A document is kept exactly when some answer for it reaches the
      threshold. */
  lemma {:induction false} KeptMembers(results: seq<Scored>, threshold: real, d: Document)
    ensures d in Kept(results, threshold) <==>
      exists i :: 0 <= i < |results| && results[i].doc == d && results[i].score >= threshold
    decreases |results|
  {
    if |results| > 0 {
      KeptMembers(results[1..], threshold, d);
      if exists i :: 0 <= i < |results| && results[i].doc == d && results[i].score >= threshold {
        var i :| 0 <= i < |results| && results[i].doc == d && results[i].score >= threshold;
        if i > 0 {
          assert results[1..][i - 1] == results[i];
        }
      }
      if exists j :: 0 <= j < |results| - 1 && results[1..][j].doc == d && results[1..][j].score >= threshold {
        var j :| 0 <= j < |results| - 1 && results[1..][j].doc == d && results[1..][j].score >= threshold;
        assert results[j + 1] == results[1..][j];
      }
    }
  }

  /** Answers at or above the threshold are all kept; answers below it are
      all dropped. */
  lemma {:induction false} KeptExactly(results: seq<Scored>, threshold: real)
    ensures (forall i :: 0 <= i < |results| ==> results[i].score >= threshold) ==>
      Kept(results, threshold) == seq(|results|, i requires 0 <= i < |results| => results[i].doc)
    ensures (forall i :: 0 <= i < |results| ==> results[i].score < threshold) ==> Kept(results, threshold) == []
    decreases |results|
  {
    if |results| > 0 {
      KeptExactly(results[1..], threshold);
      assert forall i :: 0 <= i < |results| - 1 ==> results[1..][i] == results[i + 1];
    }
  }

  /** What a search finds: nothing without a store or when the search
      raises (`None` from `similarity`), otherwise the answers that reach
      the threshold. */
  function Found(store: Option<seq<Document>>, query: string, k: int, threshold: real,
                 similarity: (seq<Document>, string, int) -> Option<seq<Scored>>): seq<Document>
  {
    if store.None? then []
    else
      match similarity(store.value, query, k)
      case None => []
      case Some(results) => Kept(results, threshold)
  }

  /** One block of the context text, numbered from 1. */
  function Block(i: nat, doc: Document): string {
    "### 文档 " + NatToString(i) + "\n" + doc.content + "\n"
  }

  /** The blocks of `docs`, numbered from `first`. */
  function Blocks(docs: seq<Document>, first: nat): (parts: seq<string>)
    ensures |parts| == |docs|
    ensures forall i :: 0 <= i < |docs| ==> parts[i] == Block(first + i, docs[i])
  {
    seq(|docs|, i requires 0 <= i < |docs| => Block(first + i, docs[i]))
  }

  const NothingFound := "未找到相关文档"

  /** The context text of a search: the sentinel for no documents,
      otherwise the numbered blocks joined by line breaks. */
  function ContextText(docs: seq<Document>): string {
    if |docs| == 0 then NothingFound else Join(Blocks(docs, 1), "\n")
  }

  /** A non-empty context starts with the first document under "文档 1",
      so it is never the sentinel. */
  lemma ContextStartsWithFirst(docs: seq<Document>)
    requires |docs| > 0
    ensures StartsWith(ContextText(docs), "### 文档 1\n" + docs[0].content + "\n")
    ensures ContextText(docs) != NothingFound
  {
    JoinStartsWithFirst(Blocks(docs, 1), "\n");
    assert NatToString(1) == "1";
    var first := "### 文档 1\n" + docs[0].content + "\n";
    assert Blocks(docs, 1)[0] == first;
    assert ContextText(docs)[..|first|] == first;
    assert first[0] == '#' != NothingFound[0];
  }

  /** The knowledge base: configured count and threshold, and the vector
      store, absent until initialised. */
  class KnowledgeBase {
    const topK: int
    const threshold: real
    var store: Option<seq<Document>>

    constructor(topK: int, threshold: real)
      ensures this.topK == topK && this.threshold == threshold && store.None?
    {
      this.topK := topK;
      this.threshold := threshold;
      store := None;
    }

    /** `initialize`: an existing database on disk is loaded; otherwise
        the store stays as it was. */
    method Initialize(exists_: bool, loaded: seq<Document>)
      modifies this
      ensures store == if exists_ then Some(loaded) else old(store)
    {
      if exists_ {
        store := Some(loaded);
      }
    }

    /** `search`, with the count chosen by `ChooseK`. */
    method Search(query: string, k: Option<int>, similarity: (seq<Document>, string, int) -> Option<seq<Scored>>)
      returns (docs: seq<Document>)
      ensures docs == Found(store, query, ChooseK(k, topK), threshold, similarity)
    {
      if store.None? {
        return [];
      }
      var results := similarity(store.value, query, ChooseK(k, topK));
      if results.None? {
        return [];
      }
      docs := Kept(results.value, threshold);
    }

    /** `search_with_context`: the search, formatted block by block. */
    method SearchWithContext(query: string, k: Option<int>, similarity: (seq<Document>, string, int) -> Option<seq<Scored>>)
      returns (context: string)
      ensures context == ContextText(Found(store, query, ChooseK(k, topK), threshold, similarity))
    {
      var docs := Search(query, k, similarity);
      if |docs| == 0 {
        return NothingFound;
      }
      var parts: seq<string> := [];
      var i := 0;
      while i < |docs|
        invariant 0 <= i <= |docs|
        invariant parts == Blocks(docs[..i], 1)
      {
        parts := parts + [Block(i + 1, docs[i])];
        i := i + 1;
      }
      assert docs[..i] == docs;
      context := Join(parts, "\n");
    }

    /** `add_documents`: nothing happens without a store or when splitting
        or adding raises (`None` from `split`); otherwise the fragments are
        appended. */
    method AddDocuments(documents: seq<Document>, split: seq<Document> -> Option<seq<Document>>)
      modifies this
      ensures old(store).None? ==> store == old(store)
      ensures old(store).Some? && split(documents).None? ==> store == old(store)
      ensures old(store).Some? && split(documents).Some? ==> store == Some(old(store).value + split(documents).value)
    {
      if store.None? {
        return;
      }
      var fragments := split(documents);
      if fragments.Some? {
        store := Some(store.value + fragments.value);
      }
    }

    /** `delete_documents`: nothing happens without a store or when the
        deletion raises; otherwise the documents with those ids are gone. */
    method DeleteDocuments(ids: seq<string>, raises: bool)
      modifies this
      ensures old(store).None? || raises ==> store == old(store)
      ensures old(store).Some? && !raises ==> store == Some(Without(old(store).value, ids))
    {
      if store.None? || raises {
        return;
      }
      store := Some(Without(store.value, ids));
    }

    /** `get_stats`. */
    function Stats(): (r: Dict<string, Value>)
      reads this
      ensures Get(r, "status") == Some(VStr(if store.None? then "not_initialized" else "ok"))
      ensures store.None? ==> |r| == 1
      ensures store.Some? ==> Get(r, "total_documents") == Some(VInt(|store.value|))
    {
      if store.None? then [("status", VStr("not_initialized"))]
      else [("status", VStr("ok")), ("total_documents", VInt(|store.value|)),
            ("embeddings_model", VStr("shibing624/text2vec-base-chinese"))]
    }
  }

  /** The documents whose id is not among `ids`, in order. */
  function Without(docs: seq<Document>, ids: seq<string>): (r: seq<Document>)
    ensures forall d :: d in r <==> d in docs && d.id !in ids
  {
    if |docs| == 0 then []
    else if docs[0].id in ids then Without(docs[1..], ids)
    else [docs[0]] + Without(docs[1..], ids)
  }
}

=== FILE: pyvalues.dfy ===
/** The Python values that flow through the configuration tree, the
    classifier's JSON and the template variables: what `yaml.safe_load` and
    `json.loads` produce, with string-keyed mappings. */
module PyValues {
  import opened Dicts

  datatype Value =
    | VNone
    | VBool(b: bool)
    | VInt(i: int)
    | VFloat(r: real)
    | VStr(s: string)
    | VList(items: seq<Value>)
    | VDict(entries: Dict<string, Value>)

  /** Python truthiness (`if x:` / `not x`). */
  predicate Truthy(v: Value) {
    match v
    case VNone => false
    case VBool(b) => b
    case VInt(i) => i != 0
    case VFloat(r) => r != 0.0
    case VStr(s) => s != ""
    case VList(items) => items != []
    case VDict(entries) => entries != []
  }
}

=== FILE: question_classifier.dfy ===
/** Normalisation of the language model's classification reply: the JSON
    object is cut out of the reply text, the four required keys are filled,
    the type is clamped to the known ones and the confidence is converted.
    The model call, the JSON decoder and `float()` on text are parameters. */
module Classifier {
  import opened Wrappers
  import opened Dicts
  import opened Text
  import opened PyValues

  /** The keys every classification carries, in the order they are filled. */
  const RequiredKeys: seq<string> := ["type", "confidence", "reason", "suggested_answer"]

  /** The types kept as they are (`in ["bug", "feature", "usage"]`);
      anything else becomes "unknown". */
  predicate KnownType(v: Value) {
    v == VStr("bug") || v == VStr("feature") || v == VStr("usage")
  }

  /** The JSON candidate: from the first "{" through the last "}" (empty when
      the last "}" comes before the first "{"), or nothing when the reply
      has no "{" at all. */
  function Candidate(text: string): (r: Option<string>)
    ensures r.None? <==> '{' !in text
    ensures r.Some? && r.value != [] ==> r.value[0] == '{' && r.value[|r.value| - 1] == '}'
    ensures r.Some? && r.value != [] ==>
      exists i :: OccursAt(text, r.value, i) && '{' !in text[..i] && '}' !in text[i + |r.value|..]
    ensures r == Some("") <==> '{' in text && '}' !in text[IndexOf(text, '{')..]
    ensures r.Some? ==> exists i :: OccursAt(text, r.value, i)
  {
    var start := IndexOf(text, '{');
    var end := LastIndexOf(text, '}') + 1;
    if start == -1 then None
    else if end > start then
      assert OccursAt(text, text[start..end], start);
      assert text[end..] == text[LastIndexOf(text, '}') + 1..];
      Some(text[start..end])
    else
      assert OccursAt(text, "", 0);
      Some("")
  }

  /** A candidate is exactly the reply when the reply is itself one object
      with no braces outside it. */
  lemma CandidateOfObject(body: string)
    requires '{' !in body && '}' !in body
    ensures Candidate("{" + body + "}") == Some("{" + body + "}")
  {
    var text := "{" + body + "}";
    assert text[0] == '{';
    assert text[|text| - 1] == '}';
    assert IndexOf(text, '{') == 0;
    assert LastIndexOf(text, '}') == |text| - 1;
    assert text[0..|text|] == text;
  }

  /** The loop over the required keys: each missing one is set to "". */
  function WithDefaults(d: Dict<string, Value>, keys: seq<string>): Dict<string, Value>
    decreases |keys|
  {
    if |keys| == 0 then d
    else
      var before := WithDefaults(d, keys[..|keys| - 1]);
      if HasKey(before, keys[|keys| - 1]) then before else Put(before, keys[|keys| - 1], VStr(""))
  }

  /** Filling keeps every present value, adds exactly the missing keys
      with the value "", and adds nothing else. */
  lemma {:induction false} WithDefaultsGet(d: Dict<string, Value>, keys: seq<string>, k: string)
    ensures Get(WithDefaults(d, keys), k) ==
      if HasKey(d, k) then Get(d, k) else if k in keys then Some(VStr("")) else None
    decreases |keys|
  {
    if |keys| > 0 {
      var init := keys[..|keys| - 1];
      var last := keys[|keys| - 1];
      WithDefaultsGet(d, init, k);
      assert keys == init + [last];
      assert k in keys <==> k in init || k == last;
      var before := WithDefaults(d, init);
      if !HasKey(before, last) {
        PutAt(before, last, VStr(""), k);
      }
    }
  }

  /** Filling only appends: the entries already present keep their
      positions, and no key is repeated. */
  lemma {:induction false} WithDefaultsPrefix(d: Dict<string, Value>, keys: seq<string>)
    ensures |WithDefaults(d, keys)| >= |d| && WithDefaults(d, keys)[..|d|] == d
    ensures Distinct(d) ==> Distinct(WithDefaults(d, keys))
    decreases |keys|
  {
    if |keys| > 0 {
      var init := keys[..|keys| - 1];
      var last := keys[|keys| - 1];
      WithDefaultsPrefix(d, init);
      var before := WithDefaults(d, init);
      if !HasKey(before, last) {
        PutNew(before, last, VStr(""));
        assert (before + [(last, VStr(""))])[..|d|] == before[..|d|];
      }
    }
  }

  /** `float(v)`: numbers and booleans convert, blank text raises, other
      text goes through `parseFloat`, anything else raises. */
  function ToFloat(v: Value, parseFloat: string -> Option<real>): Option<real> {
    match v
    case VInt(i) => Some(i as real)
    case VFloat(r) => Some(r)
    case VBool(b) => Some(if b then 1.0 else 0.0)
    case VStr(s) => if Strip(s) == "" then None else parseFloat(s)
    case _ => None
  }

  /** Blank text does not convert. */
  lemma BlankNoFloat(s: string, parseFloat: string -> Option<real>)
    requires s == []
    ensures ToFloat(VStr(s), parseFloat) == None
  {
    StripNoPadding(s);
  }

  /** The "type" check and the confidence conversion, applied in place after
      the required keys are present. */
  function Clamp(d: Dict<string, Value>, parseFloat: string -> Option<real>): Dict<string, Value>
  {
    var t := GetOr(d, "type", VNone);
    var typed := if KnownType(t) then d else Put(d, "type", VStr("unknown"));
    var c := ToFloat(GetOr(typed, "confidence", VNone), parseFloat);
    Put(typed, "confidence", VFloat(c.GetOr(0.5)))
  }

  /** A classification written out as a dict literal. */
  function Record(kind: Value, confidence: Value, reason: Value, answer: Value): Dict<string, Value> {
    [("type", kind), ("confidence", confidence), ("reason", reason), ("suggested_answer", answer)]
  }

  lemma RecordGet(kind: Value, confidence: Value, reason: Value, answer: Value)
    ensures var r := Record(kind, confidence, reason, answer);
      && Keys(r) == RequiredKeys
      && Get(r, "type") == Some(kind) && Get(r, "confidence") == Some(confidence)
      && Get(r, "reason") == Some(reason) && Get(r, "suggested_answer") == Some(answer)
  {
    var r := Record(kind, confidence, reason, answer);
    assert Keys(r) == RequiredKeys;
    assert Distinct(r);
    GetEntry(r, 0);
    GetEntry(r, 1);
    GetEntry(r, 2);
    GetEntry(r, 3);
  }

  /** The result returned when the reply cannot be parsed. */
  function Unparsed(text: string): Dict<string, Value> {
    Record(VStr("unknown"), VFloat(0.3), VStr("无法解析分类结果"), VStr(text))
  }

  /** The result returned when the model call raises. */
  function Unavailable(error: string): Dict<string, Value> {
    Record(VStr("unknown"), VFloat(0.0), VStr("分类失败: " + error), VStr(""))
  }

  /** `_parse_classification_result`. */
  function Parse(text: string, loads: string -> Option<Dict<string, Value>>, parseFloat: string -> Option<real>): Dict<string, Value> {
    var candidate := Candidate(text);
    if candidate.None? then Unparsed(text)
    else
      match loads(candidate.value)
      case None => Unparsed(text)
      case Some(d) => Clamp(WithDefaults(d, RequiredKeys), parseFloat)
  }

  /** A well-formed classification: the four keys are present, the type is
      one of the three known ones or "unknown", the confidence is a number. */
  predicate WellFormed(r: Dict<string, Value>) {
    && HasKey(r, "type") && HasKey(r, "confidence") && HasKey(r, "reason") && HasKey(r, "suggested_answer")
    && (KnownType(GetOr(r, "type", VNone)) || GetOr(r, "type", VNone) == VStr("unknown"))
    && GetOr(r, "confidence", VNone).VFloat?
  }

  /** The required keys of a decoded object after filling: its own value
      when present, "" otherwise. */
  lemma FilledRequired(d: Dict<string, Value>, k: string)
    requires k in RequiredKeys
    ensures HasKey(WithDefaults(d, RequiredKeys), k)
    ensures Get(WithDefaults(d, RequiredKeys), k) == if HasKey(d, k) then Get(d, k) else Some(VStr(""))
  {
    WithDefaultsGet(d, RequiredKeys, k);
  }

  /** Clamping loses no key. */
  lemma ClampKeepsKeys(w: Dict<string, Value>, parseFloat: string -> Option<real>)
    ensures forall k :: HasKey(w, k) ==> HasKey(Clamp(w, parseFloat), k)
  {
    var t := GetOr(w, "type", VNone);
    var unknown := VStr("unknown");
    var typed := if KnownType(t) then w else Put(w, "type", unknown);
    var conf := VFloat(ToFloat(GetOr(typed, "confidence", VNone), parseFloat).GetOr(0.5));
    var r := Put(typed, "confidence", conf);
    assert r == Clamp(w, parseFloat);
    forall k | HasKey(w, k) ensures HasKey(r, k) {
      PutAt(w, "type", unknown, k);
      PutAt(typed, "confidence", conf, k);
    }
  }

  /** Clamping changes only the type (to "unknown" unless known) and the
      confidence (to a number, 0.5 when it does not convert). */
  lemma ClampGet(w: Dict<string, Value>, parseFloat: string -> Option<real>)
    requires HasKey(w, "type") && HasKey(w, "confidence")
    ensures var r := Clamp(w, parseFloat);
      && Get(r, "type") == (if KnownType(GetOr(w, "type", VNone)) then Get(w, "type") else Some(VStr("unknown")))
      && Get(r, "confidence") == Some(VFloat(ToFloat(GetOr(w, "confidence", VNone), parseFloat).GetOr(0.5)))
      && Get(r, "reason") == Get(w, "reason")
      && Get(r, "suggested_answer") == Get(w, "suggested_answer")
  {
    var t := GetOr(w, "type", VNone);
    var unknown := VStr("unknown");
    var typed := if KnownType(t) then w else Put(w, "type", unknown);
    var conf := VFloat(ToFloat(GetOr(w, "confidence", VNone), parseFloat).GetOr(0.5));
    if !KnownType(t) {
      PutAt(w, "type", unknown, "confidence");
    }
    assert GetOr(typed, "confidence", VNone) == GetOr(w, "confidence", VNone);
    var r := Put(typed, "confidence", conf);
    assert r == Clamp(w, parseFloat);
    PutAt(typed, "confidence", conf, "type");
    PutAt(typed, "confidence", conf, "reason");
    PutAt(typed, "confidence", conf, "suggested_answer");
    PutAt(w, "type", unknown, "type");
    PutAt(w, "type", unknown, "reason");
    PutAt(w, "type", unknown, "suggested_answer");
  }

  /** A decoded object, once filled and clamped, is well formed. */
  lemma ClampedWellFormed(d: Dict<string, Value>, parseFloat: string -> Option<real>)
    ensures WellFormed(Clamp(WithDefaults(d, RequiredKeys), parseFloat))
  {
    var w := WithDefaults(d, RequiredKeys);
    FilledRequired(d, "type");
    FilledRequired(d, "confidence");
    FilledRequired(d, "reason");
    FilledRequired(d, "suggested_answer");
    ClampGet(w, parseFloat);
  }

  /** The type after clamping, from what filling gave it. */
  lemma ClampedTypeOf(d: Dict<string, Value>, w: Dict<string, Value>, parseFloat: string -> Option<real>)
    requires HasKey(w, "type") && HasKey(w, "confidence")
    requires Get(w, "type") == if HasKey(d, "type") then Get(d, "type") else Some(VStr(""))
    ensures GetOr(Clamp(w, parseFloat), "type", VNone) ==
      if KnownType(GetOr(d, "type", VNone)) then GetOr(d, "type", VNone) else VStr("unknown")
  {
    ClampGet(w, parseFloat);
  }

  /** The decoded type survives exactly when it is a known one; otherwise,
      missing included, it becomes "unknown". */
  lemma ClampedType(d: Dict<string, Value>, parseFloat: string -> Option<real>)
    ensures GetOr(Clamp(WithDefaults(d, RequiredKeys), parseFloat), "type", VNone) ==
      if KnownType(GetOr(d, "type", VNone)) then GetOr(d, "type", VNone) else VStr("unknown")
  {
    FilledRequired(d, "type");
    FilledRequired(d, "confidence");
    ClampedTypeOf(d, WithDefaults(d, RequiredKeys), parseFloat);
  }

  /** Text fields and a missing confidence after clamping, from what
      filling gave them. */
  lemma ClampedTextOf(d: Dict<string, Value>, w: Dict<string, Value>, parseFloat: string -> Option<real>)
    requires HasKey(w, "type") && HasKey(w, "confidence")
    requires Get(w, "confidence") == if HasKey(d, "confidence") then Get(d, "confidence") else Some(VStr(""))
    requires Get(w, "reason") == if HasKey(d, "reason") then Get(d, "reason") else Some(VStr(""))
    requires Get(w, "suggested_answer") == if HasKey(d, "suggested_answer") then Get(d, "suggested_answer") else Some(VStr(""))
    ensures var r := Clamp(w, parseFloat);
      && Get(r, "reason") == (if HasKey(d, "reason") then Get(d, "reason") else Some(VStr("")))
      && Get(r, "suggested_answer") == (if HasKey(d, "suggested_answer") then Get(d, "suggested_answer") else Some(VStr("")))
      && (!HasKey(d, "confidence") ==> Get(r, "confidence") == Some(VFloat(0.5)))
  {
    ClampGet(w, parseFloat);
    if !HasKey(d, "confidence") {
      BlankNoFloat("", parseFloat);
    }
  }

  /** Clamping keeps a present reason or answer and fills a missing one
      with "", and a missing confidence becomes 0.5. */
  lemma ClampedKeepsText(d: Dict<string, Value>, parseFloat: string -> Option<real>)
    ensures var r := Clamp(WithDefaults(d, RequiredKeys), parseFloat);
      && Get(r, "reason") == (if HasKey(d, "reason") then Get(d, "reason") else Some(VStr("")))
      && Get(r, "suggested_answer") == (if HasKey(d, "suggested_answer") then Get(d, "suggested_answer") else Some(VStr("")))
      && (!HasKey(d, "confidence") ==> Get(r, "confidence") == Some(VFloat(0.5)))
  {
    FilledRequired(d, "type");
    FilledRequired(d, "confidence");
    FilledRequired(d, "reason");
    FilledRequired(d, "suggested_answer");
    ClampedTextOf(d, WithDefaults(d, RequiredKeys), parseFloat);
  }

  /** Whatever the model replies, the parsed result is well formed, and a
      reply without "{" gives the unparsed fallback carrying the reply. */
  lemma ParseWellFormed(text: string, loads: string -> Option<Dict<string, Value>>, parseFloat: string -> Option<real>)
    ensures WellFormed(Parse(text, loads, parseFloat))
    ensures '{' !in text ==> Parse(text, loads, parseFloat) == Unparsed(text)
    ensures Candidate(text).None? || loads(Candidate(text).value).None? ==>
      Get(Parse(text, loads, parseFloat), "suggested_answer") == Some(VStr(text))
  {
    var c := Candidate(text);
    RecordGet(VStr("unknown"), VFloat(0.3), VStr("无法解析分类结果"), VStr(text));
    if c.Some? && loads(c.value).Some? {
      ClampedWellFormed(loads(c.value).value, parseFloat);
    }
  }

  /** `_format_additional_info`: "无" for an empty map, else one
      "- key: value" line per entry in map order. */
  method FormatAdditionalInfo(info: Dict<string, string>) returns (text: string)
    ensures info == [] ==> text == "无"
    ensures info != [] ==> text == Join(InfoLines(info), "\n")
  {
    if info == [] {
      return "无";
    }
    var formatted: seq<string> := [];
    var i := 0;
    while i < |info|
      invariant 0 <= i <= |info|
      invariant formatted == InfoLines(info[..i])
    {
      assert info[..i + 1] == info[..i] + [info[i]];
      formatted := formatted + ["- " + info[i].0 + ": " + info[i].1];
      i := i + 1;
    }
    assert info[..|info|] == info;
    text := Join(formatted, "\n");
  }

  /** The lines of the formatted information, one per entry. */
  function InfoLines(info: Dict<string, string>): (lines: seq<string>)
    ensures |lines| == |info|
    ensures forall i :: 0 <= i < |info| ==> lines[i] == "- " + info[i].0 + ": " + info[i].1
    decreases |info|
  {
    if |info| == 0 then [] else InfoLines(info[..|info| - 1]) + ["- " + info[|info| - 1].0 + ": " + info[|info| - 1].1]
  }

  lemma LineHasNoBreak(key: string, value: string)
    requires '\n' !in key && '\n' !in value
    ensures '\n' !in "- " + key + ": " + value
  {
    var line := "- " + key + ": " + value;
    forall i | 0 <= i < |line| ensures line[i] != '\n' {
      if i < 2 + |key| + 2 && i >= 2 + |key| {
        assert line[i] == ": "[i - 2 - |key|];
      }
    }
  }

  /** The formatted information splits back into its lines when no key or
      value spans several lines. */
  lemma InfoLinesRecoverable(info: Dict<string, string>)
    requires info != []
    requires forall i :: 0 <= i < |info| ==> '\n' !in info[i].0 && '\n' !in info[i].1
    ensures Split(Join(InfoLines(info), "\n"), '\n') == InfoLines(info)
  {
    var lines := InfoLines(info);
    forall i | 0 <= i < |lines| ensures '\n' !in lines[i] {
      LineHasNoBreak(info[i].0, info[i].1);
    }
    assert "\n" == ['\n'];
    SplitJoin(lines, '\n');
  }

  /** One request of `batch_classify`: the item's optional keys. */
  datatype Request = Request(question: Option<string>, context: Option<string>, additionalInfo: Option<Dict<string, string>>)

  /** `classify`: the model is asked with the question, the context and the
      formatted information; its raised error, if any, gives the fallback
      result. */
  method Classify(question: string, context: string, info: Dict<string, string>,
                  ask: (string, string, string) -> Result<string, string>,
                  loads: string -> Option<Dict<string, Value>>, parseFloat: string -> Option<real>)
    returns (result: Dict<string, Value>)
    ensures WellFormed(result)
    ensures result == ClassifyOutcome(ask(question, context, FormattedInfo(info)), loads, parseFloat)
  {
    var formatted := FormatAdditionalInfo(info);
    match ask(question, context, formatted)
    case Failure(e) =>
      result := Unavailable(e);
      RecordGet(VStr("unknown"), VFloat(0.0), VStr("分类失败: " + e), VStr(""));
    case Success(reply) =>
      result := Parse(reply, loads, parseFloat);
      ParseWellFormed(reply, loads, parseFloat);
  }

  /** The classification that a model outcome yields. */
  function ClassifyOutcome(reply: Result<string, string>, loads: string -> Option<Dict<string, Value>>, parseFloat: string -> Option<real>): (r: Dict<string, Value>)
    ensures WellFormed(r)
  {
    match reply
    case Failure(e) =>
      RecordGet(VStr("unknown"), VFloat(0.0), VStr("分类失败: " + e), VStr(""));
      Unavailable(e)
    case Success(text) =>
      ParseWellFormed(text, loads, parseFloat);
      Parse(text, loads, parseFloat)
  }

  /** `batch_classify`: one classification per request, in request order. */
  method BatchClassify(requests: seq<Request>, ask: (string, string, string) -> Result<string, string>,
                       loads: string -> Option<Dict<string, Value>>, parseFloat: string -> Option<real>)
    returns (results: seq<Dict<string, Value>>)
    ensures |results| == |requests|
    ensures forall i :: 0 <= i < |requests| ==> WellFormed(results[i])
    ensures forall i :: 0 <= i < |requests| ==> results[i] == Outcome(requests[i], ask, loads, parseFloat)
  {
    results := [];
    var i := 0;
    while i < |requests|
      invariant 0 <= i <= |requests|
      invariant |results| == i
      invariant forall j :: 0 <= j < i ==> results[j] == Outcome(requests[j], ask, loads, parseFloat)
    {
      var item := requests[i];
      var result := Classify(item.question.GetOr(""), item.context.GetOr(""), item.additionalInfo.GetOr([]), ask, loads, parseFloat);
      results := results + [result];
      i := i + 1;
    }
  }

  /** What `classify` yields for one request. */
  function Outcome(request: Request, ask: (string, string, string) -> Result<string, string>,
                   loads: string -> Option<Dict<string, Value>>, parseFloat: string -> Option<real>): (r: Dict<string, Value>)
    ensures WellFormed(r)
  {
    ClassifyOutcome(ask(request.question.GetOr(""), request.context.GetOr(""), FormattedInfo(request.additionalInfo.GetOr([]))), loads, parseFloat)
  }

  /** The text `FormatAdditionalInfo` returns. */
  function FormattedInfo(info: Dict<string, string>): string {
    if info == [] then "无" else Join(InfoLines(info), "\n")
  }
}

=== FILE: simple_crawler.dfy ===
/** The simplified crawler: the same first-in first-out crawl with a page
    budget, a laxer link filter, a title fallback, file names cleaned down
    to letters, digits, " ", "-" and "_", and a line-by-line Markdown
    conversion. Fetching and parsing, URL joining and parsing, and the
    character classes are parameters. */
module SimpleCrawler {
  import opened Wrappers
  import opened Text
  import DocsUpdater
  import opened ApifoxCrawler

  /** An element of the page body, in document order, with its text. */
  datatype Element = Element(tag: string, text: string)

  /** What fetching and parsing a page gives: the text of the first of h1
      and title that was found (`None` when neither), the body's h2, h3, p,
      ul, ol, pre and code elements, and the absolute link targets. The
      content extraction removes the script, style, nav, footer and header
      elements before the links are read, so links inside them are never
      among `links`. */
  datatype Page = Page(title: Option<string>, body: seq<Element>, links: seq<string>)

  const Untitled := "未命名"

  /** `extract_title(soup) or "未命名"`: the stripped text, unless there is
      none or it is empty. */
  function PageTitle(found: Option<string>): (title: string)
    ensures title != ""
    ensures found.Some? && Strip(found.value) != "" ==> title == Strip(found.value)
    ensures found.None? || Strip(found.value) == "" ==> title == Untitled
  {
    if found.None? || Strip(found.value) == "" then Untitled else Strip(found.value)
  }

  /** The line an element contributes, if any: headings and non-empty
      paragraphs by their stripped text, preformatted text fenced as it
      is; lists and inline code contribute nothing. */
  function ElementLine(e: Element): Option<string> {
    if e.tag == "h2" then Some("\n## " + Strip(e.text) + "\n")
    else if e.tag == "h3" then Some("\n### " + Strip(e.text) + "\n")
    else if e.tag == "p" then (if Strip(e.text) == "" then None else Some(Strip(e.text) + "\n"))
    else if e.tag == "pre" then Some("\n```\n" + e.text + "\n```\n")
    else None
  }

  /** The lines of the body, in order. */
  function BodyLines(body: seq<Element>): seq<string>
    decreases |body|
  {
    if |body| == 0 then []
    else
      var line := ElementLine(body[|body| - 1]);
      BodyLines(body[..|body| - 1]) + (if line.Some? then [line.value] else [])
  }

  /** The three header lines: title, source, rule. */
  function HeaderLines(title: string, url: string): seq<string> {
    ["# " + title + "\n", "**来源**: " + url + "\n", "---\n"]
  }

  /** `to_markdown`: the header and body lines joined by line breaks. */
  method ToMarkdown(body: seq<Element>, title: string, url: string) returns (text: string)
    ensures text == Join(HeaderLines(title, url) + BodyLines(body), "\n")
  {
    var lines := HeaderLines(title, url);
    var i := 0;
    while i < |body|
      invariant 0 <= i <= |body|
      invariant lines == HeaderLines(title, url) + BodyLines(body[..i])
    {
      assert body[..i + 1][..i] == body[..i];
      var line := ElementLine(body[i]);
      if line.Some? {
        lines := lines + [line.value];
      }
      i := i + 1;
    }
    assert body[..i] == body;
    text := Join(lines, "\n");
  }

  /** A converted page has as its source whatever `read` takes from its
      header. */
  lemma ConvertedSource(body: seq<Element>, title: string, url: string, read: string -> Option<string>, src: string)
    requires '\n' !in title && '\n' !in url
    requires read(DocsUpdater.Header(url)) == Some(src)
    ensures DocsUpdater.SourceOf(Join(HeaderLines(title, url) + BodyLines(body), "\n"), read) == DocsUpdater.Url(src)
  {
    var lines := HeaderLines(title, url) + BodyLines(body);
    var rest := Join(lines[2..], "\n");
    assert lines[1..][1..] == lines[2..];
    var h0, h1 := lines[0], lines[1];
    assert h0 == "# " + title + "\n";
    assert h1 == DocsUpdater.Header(url) + "\n" by {
      SourceLineText(url);
    }
    assert Join(lines[1..], "\n") == h1 + "\n" + rest;
    assert Join(lines, "\n") == h0 + "\n" + (h1 + "\n" + rest);
    TitleSourceShape(title, DocsUpdater.Header(url), rest);
    SourceAfterTitle(title, url, "\n" + rest, read, src);
  }

  /** A converted page names its own URL to the updater, with the
      corrected reading. */
  lemma MarkdownSource(body: seq<Element>, title: string, url: string)
    requires '\n' !in title && '\n' !in url
    requires url == [] || (!IsSpace(url[0]) && !IsSpace(url[|url| - 1]))
    ensures DocsUpdater.SourceOf(Join(HeaderLines(title, url) + BodyLines(body), "\n"), DocsUpdater.UrlOf) == DocsUpdater.Url(url)
  {
    DocsUpdater.HeaderRoundTrip(url);
    ConvertedSource(body, title, url, DocsUpdater.UrlOf, url);
  }

  /** As written, every converted page of an "https:" address has the
      source "https". */
  lemma AsWrittenMarkdownSource(body: seq<Element>, title: string, url: string)
    requires '\n' !in title && '\n' !in url && StartsWith(url, "https:")
    ensures DocsUpdater.SourceOf(Join(HeaderLines(title, url) + BodyLines(body), "\n"), DocsUpdater.UrlAsWritten)
         == DocsUpdater.Url("https")
  {
    DocsUpdater.HttpsHeader(url);
    ConvertedSource(body, title, url, DocsUpdater.UrlAsWritten, "https");
  }

  /** The second header line is the updater's source header. */
  lemma SourceLineText(url: string)
    ensures "**来源**: " + url + "\n" == DocsUpdater.Header(url) + "\n"
  {
    assert "**来源**: " == DocsUpdater.SourceMarker + ": ";
  }

  /** Regrouping the header lines and their separators. */
  lemma TitleSourceShape(title: string, header: string, rest: string)
    ensures ("# " + title + "\n") + "\n" + ((header + "\n") + "\n" + rest)
         == "# " + title + "\n\n" + header + "\n" + ("\n" + rest)
  {
  }

  /** The characters a file name keeps. */
  predicate NameChar(c: char, isAlnum: char -> bool) {
    isAlnum(c) || c == ' ' || c == '-' || c == '_'
  }

  /** The characters of `s` that satisfy `NameChar`, in order. */
  function KeepNameChars(s: string, isAlnum: char -> bool): (r: string)
    ensures forall i :: 0 <= i < |r| ==> NameChar(r[i], isAlnum)
  {
    if |s| == 0 then ""
    else
      var rest := KeepNameChars(s[1..], isAlnum);
      if NameChar(s[0], isAlnum) then [s[0]] + rest else rest
  }

  /** Stripping keeps a string made of name characters so. */
  lemma StripNameChars(s: string, isAlnum: char -> bool)
    requires forall i :: 0 <= i < |s| ==> NameChar(s[i], isAlnum)
    ensures forall i :: 0 <= i < |Strip(s)| ==> NameChar(Strip(s)[i], isAlnum)
  {
    var r := Strip(s);
    var k :| OccursAt(s, r, k);
    forall i | 0 <= i < |r|
      ensures NameChar(r[i], isAlnum)
    {
      assert r[i] == s[k..k + |r|][i] == s[k + i];
    }
  }

  /** The cleaned title `save_file` names the file after: never empty, and
      either the fallback or made of name characters only. */
  function SafeTitle(title: string, isAlnum: char -> bool): (r: string)
    ensures r != ""
    ensures r == Untitled || forall i :: 0 <= i < |r| ==> NameChar(r[i], isAlnum)
  {
    var cleaned := Strip(KeepNameChars(title, isAlnum));
    StripNameChars(KeepNameChars(title, isAlnum), isAlnum);
    if cleaned == "" then Untitled else cleaned
  }

  /** The filter of this crawler: same host and not visited; nothing is
      excluded by extension or fragment. */
  function SiteFilter(visited: set<string>, netloc: string -> string): string -> bool {
    url => netloc(url) == netloc(BaseUrl) && url !in visited
  }

  /** What crawling a URL gives in this crawler: the cleaned title the
      file is named after, the converted text and the page's links. */
  function Converted(fetch: string -> Option<Page>, isAlnum: char -> bool): string -> Option<Outcome> {
    url =>
      match fetch(url)
      case None => None
      case Some(page) => Some(Convert(page, url, isAlnum))
  }

  /** A fetched page as it is saved and followed: its cleaned title, its
      converted text and its links. */
  function Convert(page: Page, url: string, isAlnum: char -> bool): Outcome {
    var title := PageTitle(page.title);
    Outcome(SafeTitle(title, isAlnum), Join(HeaderLines(title, url) + BodyLines(page.body), "\n"), page.links)
  }

  /** This crawler's link filter, for each visited set. */
  function SiteFilters(netloc: string -> string): set<string> -> string -> bool {
    visited => SiteFilter(visited, netloc)
  }

  /** The simplified crawler: visited URLs, the queue (holding the base
      URL from the start), and the output directory. */
  class Crawler {
    var visited: set<string>
    var queue: seq<string>
    var files: map<string, string>

    constructor(existing: map<string, string>)
      ensures visited == {} && queue == [BaseUrl] && files == existing
    {
      visited := {};
      queue := [BaseUrl];
      files := existing;
    }

    /** `extract_links`. */
    method ExtractLinks(links: seq<string>, netloc: string -> string)
      modifies this
      ensures queue == Enqueued(old(queue), links, SiteFilter(visited, netloc))
      ensures visited == old(visited) && files == old(files)
    {
      var i := 0;
      while i < |links|
        invariant 0 <= i <= |links|
        invariant queue == Enqueued(old(queue), links[..i], SiteFilter(visited, netloc))
        invariant visited == old(visited) && files == old(files)
      {
        assert links[..i + 1][..i] == links[..i];
        var url := links[i];
        if netloc(url) == netloc(BaseUrl) && url !in visited && url !in queue {
          queue := queue + [url];
        }
        i := i + 1;
      }
      assert links[..i] == links;
    }

    /** `save_file`: the text goes to the first free name for the cleaned
        title. */
    method SaveFile(title: string, text: string, isAlnum: char -> bool)
      modifies this
      ensures files == Save(old(files), SafeTitle(title, isAlnum), text)
      ensures visited == old(visited) && queue == old(queue)
    {
      var safe := SafeTitle(title, isAlnum);
      var name := ChooseFileName(safe, files.Keys);
      ghost var k :| FirstFree(files.Keys, safe, k) && name == Candidate(safe, k);
      FreeNameIs(files.Keys, safe, k);
      files := files[name := text];
    }

    /** `crawl_page`: a page that cannot be fetched or parsed (`None`)
        changes nothing; otherwise it is converted and saved, and its links
        are queued. */
    method CrawlPage(url: string, fetch: string -> Option<Page>, isAlnum: char -> bool, netloc: string -> string)
      modifies this
      ensures fetch(url).None? ==> queue == old(queue) && files == old(files)
      ensures fetch(url).Some? ==> var o := Convert(fetch(url).value, url, isAlnum);
        && queue == Enqueued(old(queue), o.links, SiteFilter(visited, netloc))
        && files == Save(old(files), o.title, o.text)
      ensures visited == old(visited)
    {
      var page := fetch(url);
      if page.None? {
        return;
      }
      var title := PageTitle(page.value.title);
      var text := ToMarkdown(page.value.body, title, url);
      SaveFile(title, text, isAlnum);
      ExtractLinks(page.value.links, netloc);
    }

    /** The body of the crawl loop for a URL taken from the queue that was
        not visited: when its page is crawled, the page is saved, its links
        are queued and it is marked visited; otherwise nothing changes. */
    method Visit(url: string, fetch: string -> Option<Page>, isAlnum: char -> bool, netloc: string -> string)
      returns (ok: bool)
      modifies this
      ensures ok <==> fetch(url).Some?
      ensures !ok ==> visited == old(visited) && queue == old(queue) && files == old(files)
      ensures ok ==> var o := Convert(fetch(url).value, url, isAlnum);
        && visited == old(visited) + {url}
        && queue == Enqueued(old(queue), o.links, SiteFilter(old(visited), netloc))
        && files == Save(old(files), o.title, o.text)
    {
      CrawlPage(url, fetch, isAlnum, netloc);
      ok := fetch(url).Some?;
      if ok {
        visited := visited + {url};
      }
    }

    /** `crawl`: the loop turns as `CrawlStep` says until the queue is
        empty or `maxPages` pages were crawled. */
    method Crawl(maxPages: int, fetch: string -> Option<Page>, isAlnum: char -> bool, netloc: string -> string)
      returns (count: nat)
      modifies this
      ensures CrawlState(visited, queue, files, count)
           == CrawlFrom(CrawlState(old(visited), old(queue), old(files), 0), maxPages, Converted(fetch, isAlnum), SiteFilters(netloc))
    {
      count := 0;
      ghost var crawl, filter := Converted(fetch, isAlnum), SiteFilters(netloc);
      ghost var start := CrawlState(visited, queue, files, count);
      while queue != [] && count < maxPages
        invariant CrawlFrom(CrawlState(visited, queue, files, count), maxPages, crawl, filter) == CrawlFrom(start, maxPages, crawl, filter)
        decreases maxPages - count, |queue|
      {
        ghost var before := CrawlState(visited, queue, files, count);
        var url := queue[0];
        queue := queue[1..];
        if url !in visited {
          var ok := Visit(url, fetch, isAlnum, netloc);
          if ok {
            count := count + 1;
            assert crawl(url) == Some(Convert(fetch(url).value, url, isAlnum));
          }
        }
        assert CrawlState(visited, queue, files, count) == CrawlStep(before, crawl, filter);
      }
    }
  }
}

=== FILE: template_manager.dfy ===
/** Ticket templates: which template files are loaded, the per-type default
    variables, the merge of the caller's variables over them and the
    dispatch by ticket type. Jinja compilation and rendering are
    parameters. */
module Templates {
  import opened Wrappers
  import opened Dicts
  import opened PyValues

  /** A compiled template (its source text). */
  datatype Template = Template(source: string)

  /** The ticket types that have a template. */
  predicate TemplateType(t: string) {
    t == "bug" || t == "feature" || t == "usage"
  }

  /** The file a type's template is read from. */
  function TemplatePath(t: string): string {
    "data/templates/" + t + "_template.md"
  }

  /** `_load_templates`: a type gets an entry exactly when its file exists,
      holding that file's text. */
  method LoadTemplates(exists_: string -> bool, read: string -> string) returns (templates: map<string, Template>)
    ensures forall t :: t in templates <==> TemplateType(t) && exists_(TemplatePath(t))
    ensures forall t :: t in templates ==> templates[t] == Template(read(TemplatePath(t)))
  {
    templates := map[];
    var bugPath := TemplatePath("bug");
    if exists_(bugPath) {
      templates := templates["bug" := Template(read(bugPath))];
    }
    var featurePath := TemplatePath("feature");
    if exists_(featurePath) {
      templates := templates["feature" := Template(read(featurePath))];
    }
    var usagePath := TemplatePath("usage");
    if exists_(usagePath) {
      templates := templates["usage" := Template(read(usagePath))];
    }
  }

  function BugDefaults(): Dict<string, Value> {
    [("title", VStr("未命名 Bug")), ("version", VStr("未知")), ("environment", VStr("未知")),
     ("priority_level", VStr("2")), ("description", VStr("待补充")), ("expected", VStr("待补充")),
     ("actual", VStr("待补充")), ("error_log", VStr("")), ("attachments", VStr("")),
     ("specific_case", VStr("")), ("related_docs", VStr("")), ("confidence", VStr("0")),
     ("reason", VStr("")), ("suggested_answer", VStr(""))]
  }

  function FeatureDefaults(): Dict<string, Value> {
    [("title", VStr("未命名需求")), ("feature_type", VStr("功能增强")), ("priority_level", VStr("3")),
     ("background", VStr("待补充")), ("scenario", VStr("待补充")), ("expected", VStr("待补充")),
     ("relation", VStr("")), ("business_value", VStr("待补充")), ("other_benefits", VStr("")),
     ("workaround", VStr("")), ("references", VStr("")), ("attachments", VStr("")),
     ("confidence", VStr("0")), ("reason", VStr("")), ("suggested_answer", VStr(""))]
  }

  function UsageDefaults(): Dict<string, Value> {
    [("question", VStr("")), ("answer", VStr("")), ("related_docs", VStr(""))]
  }

  function DefaultsFor(t: string): Dict<string, Value> {
    if t == "bug" then BugDefaults() else if t == "feature" then FeatureDefaults() else UsageDefaults()
  }

  /** The defaults named by the source: a bug is titled "未命名 Bug" at
      priority level "2", a feature has priority level "3", and the three
      usage variables are empty. */
  lemma DefaultValues()
    ensures Get(BugDefaults(), "title") == Some(VStr("未命名 Bug"))
    ensures Get(BugDefaults(), "priority_level") == Some(VStr("2"))
    ensures Get(FeatureDefaults(), "priority_level") == Some(VStr("3"))
    ensures Get(UsageDefaults(), "question") == Some(VStr(""))
    ensures Get(UsageDefaults(), "answer") == Some(VStr(""))
    ensures Get(UsageDefaults(), "related_docs") == Some(VStr(""))
  {
    var b := BugDefaults();
    assert b[0].0 == "title";
    assert b[1..][0].0 == "version" && b[1..][1..][0].0 == "environment";
    assert b[1..][1..][1..][0] == ("priority_level", VStr("2"));
    var f := FeatureDefaults();
    assert f[1..][0].0 == "feature_type";
    assert f[1..][1..][0] == ("priority_level", VStr("3"));
    var u := UsageDefaults();
    assert u[1..][0] == ("answer", VStr(""));
    assert u[1..][1..][0] == ("related_docs", VStr(""));
  }

  /** `defaults.update(kwargs)`: the variables handed to the template. */
  function Variables(t: string, kwargs: Dict<string, Value>): Dict<string, Value> {
    Update(DefaultsFor(t), kwargs)
  }

  /** Caller values win, unspecified keys keep their defaults, extra caller
      keys pass through, and no other key appears. */
  lemma VariablesGet(t: string, kwargs: Dict<string, Value>, k: string)
    requires Distinct(kwargs)
    ensures Get(Variables(t, kwargs), k) == if HasKey(kwargs, k) then Get(kwargs, k) else Get(DefaultsFor(t), k)
  {
    UpdateGet(DefaultsFor(t), kwargs, k);
  }

  /** The template manager: the templates found at start-up. */
  class TemplateManager {
    const templates: map<string, Template>

    constructor(exists_: string -> bool, read: string -> string)
      ensures forall t :: t in templates <==> TemplateType(t) && exists_(TemplatePath(t))
      ensures forall t :: t in templates ==> templates[t] == Template(read(TemplatePath(t)))
    {
      var loaded := LoadTemplates(exists_, read);
      templates := loaded;
    }

    /** `render_bug_template`, `render_feature_template` and
        `render_usage_template`: "" when the type's template is missing. */
    function RenderOf(t: string, kwargs: Dict<string, Value>, render: (Template, Dict<string, Value>) -> string): string
      requires TemplateType(t)
    {
      if t !in templates then "" else render(templates[t], Variables(t, kwargs))
    }

    /** `render_template`: the three known types are rendered with their
        merged variables, any other type, or a type without a loaded
        template, gives "". */
    function RenderTemplate(t: string, kwargs: Dict<string, Value>, render: (Template, Dict<string, Value>) -> string): (r: string)
      ensures !TemplateType(t) || t !in templates ==> r == ""
      ensures TemplateType(t) && t in templates ==> r == render(templates[t], Variables(t, kwargs))
    {
      if t == "bug" then RenderOf("bug", kwargs, render)
      else if t == "feature" then RenderOf("feature", kwargs, render)
      else if t == "usage" then RenderOf("usage", kwargs, render)
      else ""
    }
  }
}

=== FILE: text.dfy ===
/** The parts of Python's `str` that the modelled code uses: `startswith`,
    `endswith`, `in`, `find`, `rfind`, `split`, `join`, `strip`, slicing and
    the rendering of a non-negative `int` with `str`/f-strings. */
module Text {

  predicate StartsWith(s: string, prefix: string) {
    |prefix| <= |s| && s[..|prefix|] == prefix
  }

  /** Concatenation regroups. */
  lemma ConcatAssoc<T>(a: seq<T>, b: seq<T>, c: seq<T>)
    ensures (a + b) + c == a + (b + c)
  {
  }

  /** Appending elements one at a time appends them all. */
  lemma AppendTwo<T>(s: seq<T>, a: T, b: T)
    ensures (s + [a]) + [b] == s + [a, b]
  {
  }

  lemma AppendThree<T>(s: seq<T>, a: T, b: T, c: T)
    ensures ((s + [a]) + [b]) + [c] == s + [a, b, c]
  {
  }

  /** Three elements put in front one at a time. */
  lemma ConsThree<T>(a: T, b: T, c: T, t: seq<T>)
    ensures [a] + ([b] + ([c] + t)) == [a, b, c] + t
  {
  }

  /** Two lines, a blank line between them, regrouped around their
      separators. */
  lemma TwoLinesLayout<T>(first: seq<T>, second: seq<T>, rest: seq<T>, nl: T)
    ensures first + [nl, nl] + second + [nl] + rest == first + [nl] + ([] + [nl] + (second + [nl] + rest))
  {
  }

  /** A non-empty sequence is its head followed by its tail. */
  lemma HeadTail<T>(q: seq<T>)
    requires |q| >= 1
    ensures [q[0]] + q[1..] == q
  {
  }

  /** A non-empty sequence is its front followed by its last element. */
  lemma FrontLast<T>(q: seq<T>)
    requires |q| >= 1
    ensures q[..|q| - 1] + [q[|q| - 1]] == q
  {
  }

  /** The two sides of one element, sliced back out. */
  lemma SlicesAround<T>(a: seq<T>, x: T, b: seq<T>)
    ensures (a + [x] + b)[..|a|] == a && (a + [x] + b)[|a| + 1..] == b
  {
  }

  /** A text starts with anything it is built from first. */
  lemma StartsWithAppend(prefix: string, rest: string)
    ensures StartsWith(prefix + rest, prefix)
  {
    assert (prefix + rest)[..|prefix|] == prefix;
  }

  predicate EndsWith(s: string, suffix: string) {
    |suffix| <= |s| && s[|s| - |suffix|..] == suffix
  }

  /** `t` occurs in `s` at offset `i`. */
  predicate OccursAt(s: string, t: string, i: int) {
    0 <= i <= |s| - |t| && s[i..i + |t|] == t
  }

  /** Python's `t in s` for strings, scanning from the left. */
  predicate Contains(s: string, t: string)
    decreases |s|
  {
    StartsWith(s, t) || (|s| > 0 && Contains(s[1..], t))
  }

  /** The scan agrees with "occurs at some offset". */
  lemma {:induction false} ContainsAt(s: string, t: string)
    ensures Contains(s, t) <==> exists i :: OccursAt(s, t, i)
    decreases |s|
  {
    if Contains(s, t) {
      if !StartsWith(s, t) {
        ContainsAt(s[1..], t);
        var i :| OccursAt(s[1..], t, i);
        assert s[1..][i..i + |t|] == s[i + 1..i + 1 + |t|];
        assert OccursAt(s, t, i + 1);
      } else {
        assert OccursAt(s, t, 0);
      }
    }
    if exists i :: OccursAt(s, t, i) {
      var i :| OccursAt(s, t, i);
      if i > 0 {
        assert s[1..][i - 1..i - 1 + |t|] == s[i..i + |t|];
        assert OccursAt(s[1..], t, i - 1);
        ContainsAt(s[1..], t);
      } else {
        assert StartsWith(s, t);
      }
    }
  }

  /** Python's `s.find(c)` for a single character: the first index, or -1. */
  function IndexOf(s: string, c: char): (r: int)
    ensures -1 <= r < |s|
    ensures r == -1 <==> c !in s
    ensures r >= 0 ==> s[r] == c && c !in s[..r]
  {
    if |s| == 0 then -1
    else if s[0] == c then 0
    else
      var k := IndexOf(s[1..], c);
      assert s[1..][..if k < 0 then 0 else k] == s[1..if k < 0 then 1 else k + 1];
      if k == -1 then -1 else k + 1
  }

  /** Python's `s.rfind(c)` for a single character: the last index, or -1. */
  function LastIndexOf(s: string, c: char): (r: int)
    ensures -1 <= r < |s|
    ensures r == -1 <==> c !in s
    ensures r >= 0 ==> s[r] == c && forall j :: r < j < |s| ==> s[j] != c
  {
    if |s| == 0 then -1
    else if s[|s| - 1] == c then |s| - 1
    else
      var init := s[..|s| - 1];
      assert s == init + [s[|s| - 1]];
      LastIndexOf(init, c)
  }

  /** Python's `sep.join(parts)`. */
  function Join(parts: seq<string>, sep: string): string {
    if |parts| == 0 then ""
    else if |parts| == 1 then parts[0]
    else parts[0] + sep + Join(parts[1..], sep)
  }

  /** Joining a first part in front of at least one more. */
  lemma JoinCons(first: string, rest: seq<string>, sep: string)
    requires |rest| >= 1
    ensures Join([first] + rest, sep) == first + sep + Join(rest, sep)
  {
    assert ([first] + rest)[1..] == rest;
  }

  /** The joined text begins with the first part. */
  lemma {:induction false} JoinStartsWithFirst(parts: seq<string>, sep: string)
    requires |parts| > 0
    ensures StartsWith(Join(parts, sep), parts[0])
  {
    var j := Join(parts, sep);
    if |parts| > 1 {
      assert j == parts[0] + (sep + Join(parts[1..], sep));
    }
    assert j[..|parts[0]|] == parts[0];
  }

  /** Joining one more part at the end. */
  lemma {:induction false} JoinSnoc(parts: seq<string>, last: string, sep: string)
    ensures Join(parts + [last], sep) == if |parts| == 0 then last else Join(parts, sep) + sep + last
    decreases |parts|
  {
    if |parts| == 0 {
      assert parts + [last] == [last];
    } else if |parts| == 1 {
      assert (parts + [last])[1..] == [last];
    } else {
      assert (parts + [last])[1..] == parts[1..] + [last];
      JoinSnoc(parts[1..], last, sep);
    }
  }

  /** Python's `s.split(c)` for a one-character separator: the pieces between
      the occurrences of `c`. */
  function Split(s: string, c: char): (r: seq<string>)
    ensures |r| >= 1
    ensures forall i :: 0 <= i < |r| ==> c !in r[i]
    ensures Join(r, [c]) == s
    decreases |s|
  {
    var k := IndexOf(s, c);
    if k == -1 then [s]
    else
      var rest := Split(s[k + 1..], c);
      SplitStep(s, k, c, rest);
      [s[..k]] + rest
  }

  /** The first piece cut off before the first separator, in front of the
      pieces of the text after it. */
  lemma SplitStep(s: string, k: nat, c: char, rest: seq<string>)
    requires k < |s| && s[k] == c && c !in s[..k]
    requires |rest| >= 1 && Join(rest, [c]) == s[k + 1..]
    requires forall i :: 0 <= i < |rest| ==> c !in rest[i]
    ensures forall i :: 0 <= i < |[s[..k]] + rest| ==> c !in ([s[..k]] + rest)[i]
    ensures Join([s[..k]] + rest, [c]) == s
  {
    JoinCons(s[..k], rest, [c]);
    assert s == s[..k] + [c] + s[k + 1..];
    forall i | 0 <= i < |[s[..k]] + rest|
      ensures c !in ([s[..k]] + rest)[i]
    {
      if i > 0 {
        assert ([s[..k]] + rest)[i] == rest[i - 1];
      }
    }
  }

  /** The first piece of a split is the text before the first separator. */
  lemma SplitFirst(s: string, c: char)
    ensures Split(s, c)[0] == if c in s then s[..IndexOf(s, c)] else s
  {
  }

  /** The first separator of `a + [c] + b` is the one after `a` when `a`
      has none. */
  lemma IndexOfAfter(a: string, c: char, b: string)
    requires c !in a
    ensures IndexOf(a + [c] + b, c) == |a|
  {
    var s := a + [c] + b;
    assert s[|a|] == c;
    assert forall j :: 0 <= j < |a| ==> s[j] == a[j];
    assert forall k :: |a| < k <= |s| ==> s[..k][|a|] == c;
  }

  /** Splitting at a first separator peels off the text before it. */
  lemma SplitCons(a: string, c: char, b: string)
    requires c !in a
    ensures Split(a + [c] + b, c) == [a] + Split(b, c)
  {
    var s := a + [c] + b;
    IndexOfAfter(a, c, b);
    assert s[..|a|] == a;
    assert s[|a| + 1..] == b;
  }

  /** Splitting a joined text gives the parts back when no part contains
      the separator. */
  lemma {:induction false} SplitJoin(parts: seq<string>, c: char)
    requires |parts| >= 1
    requires forall i :: 0 <= i < |parts| ==> c !in parts[i]
    ensures Split(Join(parts, [c]), c) == parts
    decreases |parts|
  {
    if |parts| == 1 {
      assert IndexOf(parts[0], c) == -1;
    } else {
      var rest := Join(parts[1..], [c]);
      HeadTail(parts);
      JoinCons(parts[0], parts[1..], [c]);
      IndexOfAfter(parts[0], c, rest);
      SlicesAround(parts[0], c, rest);
      SplitJoin(parts[1..], c);
    }
  }

  /** Python's whitespace (`str.isspace`, the set `str.strip()` removes). */
  predicate IsSpace(ch: char) {
    ('\t' <= ch <= '\r') || ('\U{1C}' <= ch <= '\U{1F}') || ch == ' '
    || ch == '\U{85}' || ch == '\U{A0}' || ch == '\U{1680}'
    || ('\U{2000}' <= ch <= '\U{200A}') || ch == '\U{2028}' || ch == '\U{2029}'
    || ch == '\U{202F}' || ch == '\U{205F}' || ch == '\U{3000}'
  }

  /** Python's `s.lstrip()`. */
  function TrimStart(s: string): (r: string)
    ensures |r| <= |s| && r == s[|s| - |r|..]
    ensures r == [] || !IsSpace(r[0])
    ensures forall i :: 0 <= i < |s| - |r| ==> IsSpace(s[i])
  {
    if |s| > 0 && IsSpace(s[0]) then TrimStart(s[1..]) else s
  }

  /** Python's `s.rstrip()`. */
  function TrimEnd(s: string): (r: string)
    ensures |r| <= |s| && r == s[..|r|]
    ensures r == [] || !IsSpace(r[|r| - 1])
    ensures forall i :: |r| <= i < |s| ==> IsSpace(s[i])
  {
    if |s| > 0 && IsSpace(s[|s| - 1]) then TrimEnd(s[..|s| - 1]) else s
  }

  /** Python's `s.strip()`: a contiguous part of `s` with no whitespace at
      either end, and only whitespace removed around it. */
  function Strip(s: string): (r: string)
    ensures exists i :: OccursAt(s, r, i)
    ensures r == [] || (!IsSpace(r[0]) && !IsSpace(r[|r| - 1]))
  {
    var t := TrimStart(s);
    var r := TrimEnd(t);
    assert OccursAt(s, r, |s| - |t|);
    r
  }

  /** A text with no whitespace at its ends is its own strip. */
  lemma StripNoPadding(s: string)
    requires s == [] || (!IsSpace(s[0]) && !IsSpace(s[|s| - 1]))
    ensures Strip(s) == s
  {
  }

  /** Python's `s[:n]` for `n >= 0`. */
  function Prefix(s: string, n: nat): (r: string)
    ensures |r| == if |s| < n then |s| else n
    ensures StartsWith(s, r)
  {
    if |s| <= n then s else s[..n]
  }

  function DigitChar(d: nat): char
    requires d < 10
  {
    "0123456789"[d]
  }

  function DigitValue(ch: char): nat {
    if '0' <= ch <= '9' then (ch as int - '0' as int) as nat else 0
  }

  /** `str(n)` for a non-negative integer: its decimal digits. */
  function NatToString(n: nat): (r: string)
    ensures |r| >= 1
    ensures forall i :: 0 <= i < |r| ==> '0' <= r[i] <= '9'
  {
    if n < 10 then [DigitChar(n)] else NatToString(n / 10) + [DigitChar(n % 10)]
  }

  /** `str(n)` for any integer: a minus sign before the digits of a
      negative number. */
  function IntToString(n: int): string {
    if n < 0 then "-" + NatToString(-n) else NatToString(n)
  }

  /** Reading decimal digits back (the inverse of `NatToString`). */
  function ParseDigits(s: string): nat {
    if |s| == 0 then 0 else ParseDigits(s[..|s| - 1]) * 10 + DigitValue(s[|s| - 1])
  }

  /** Round trip: the decimal rendering of `n` reads back as `n`. */
  lemma {:induction false} ParseNatToString(n: nat)
    ensures ParseDigits(NatToString(n)) == n
  {
    var s := NatToString(n);
    if n < 10 {
      assert s[..0] == [];
    } else {
      assert s[..|s| - 1] == NatToString(n / 10);
      ParseNatToString(n / 10);
    }
  }

  /** Distinct numbers render as distinct texts. */
  lemma NatToStringInjective(m: nat, n: nat)
    requires NatToString(m) == NatToString(n)
    ensures m == n
  {
    ParseNatToString(m);
    ParseNatToString(n);
  }
}

=== FILE: wecom_bot.dfy ===
/** The WeCom chat adapter: each incoming message is routed to the command
    handler, to the answer of an active information-collection session, or
    to the start of a new one; a completed session is analysed, a ticket is
    attempted, and the session is dropped. Every `send_message` is recorded
    in an output log. The knowledge-base search, the language model and the
    template engine are parameters. */
module WeCom {
  import opened Wrappers
  import opened Dicts
  import opened Text
  import opened PyValues
  import opened Conversations
  import Templates
  import FeishuTickets

  /** The acknowledgement of a new question. */
  function Echo(question: string): string {
    "收到您的问题：" + question + "\n\n让我先收集一些信息，以便更好地帮助您。"
  }

  const CancelledText := "已取消当前对话"

  const HelpText := "\n使用帮助：\n1. 直接发送问题，我会引导您收集信息\n2. /cancel - 取消当前对话\n3. /help - 显示帮助\n            "

  /** The reply to a command ("/cancel", "/help" or anything else). */
  function CommandReply(command: string): string {
    if command == "/cancel" then CancelledText
    else if command == "/help" then HelpText
    else "未知命令：" + command
  }

  /** `_translate_type`'s table. */
  const TypeLabels: Dict<string, string> := [("bug", "缺陷/Bug"), ("feature", "功能需求"), ("usage", "使用问题"), ("unknown", "未知类型")]

  /** `_translate_type`: the table lookup with "其他" for any other type. */
  function TranslateType(ticketType: string): string {
    GetOr(TypeLabels, ticketType, "其他")
  }

  /** The four listed types get their own, pairwise different labels;
      every other type gets "其他". */
  lemma TranslateTypeCases(ticketType: string)
    ensures TranslateType("bug") == "缺陷/Bug"
    ensures TranslateType("feature") == "功能需求"
    ensures TranslateType("usage") == "使用问题"
    ensures TranslateType("unknown") == "未知类型"
    ensures TranslateType(ticketType) == "其他" <==> ticketType !in {"bug", "feature", "usage", "unknown"}
  {
    assert Keys(TypeLabels) == ["bug", "feature", "usage", "unknown"];
  }

  /** The question of a completed session: its "description" answer, or "". */
  function Question(data: Dict<string, string>): string {
    GetOr(data, "description", "")
  }

  /** `question[:50]`: the ticket and template title. */
  function TicketTitle(data: Dict<string, string>): (title: string)
    ensures |title| == if |Question(data)| < 50 then |Question(data)| else 50
    ensures StartsWith(Question(data), title)
    ensures !HasKey(data, "description") ==> title == ""
  {
    Prefix(Question(data), 50)
  }

  /** What the knowledge-base search and the classifier give for a question
      and the collected answers. */
  datatype Verdict = Verdict(ticketType: string, confidence: real, reason: string, suggestedAnswer: string)

  /** The collaborators of the analysis: the search-and-classify step, the
      template engine, the text of the `TypeError` a keyword clash raises
      (given the clashing key), and the ticket table's column mapping, base
      token and table id. */
  datatype Services = Services(
    classify: (string, Dict<string, string>) -> Verdict,
    render: (Templates.Template, Dict<string, Value>) -> string,
    typeError: string -> string,
    mappings: map<string, string>,
    appToken: string,
    tableId: string)

  /** Python's `int(x)`: truncation toward zero. */
  function Truncate(x: real): (n: int)
    ensures x >= 0.0 ==> n as real <= x < n as real + 1.0
    ensures x < 0.0 ==> n as real - 1.0 < x <= n as real
  {
    if x >= 0.0 then x.Floor else -((-x).Floor)
  }

  /** `int(classification["confidence"] * 100)`. */
  function Percent(confidence: real): int {
    Truncate(confidence * 100.0)
  }

  /** The keywords the call to `render_template` names explicitly. */
  const Explicit: seq<string> := ["title", "submitter", "confidence", "reason", "suggested_answer"]

  /** The parameters of the bound `render_template` that `**collected_data`
      can also name. */
  const Bound: seq<string> := ["self", "template_type"]

  /** The first key of `data`, in order, that is among `names`. */
  function FirstAmong(data: Dict<string, string>, names: seq<string>): (r: Option<string>)
    ensures r.None? <==> forall i :: 0 <= i < |data| ==> data[i].0 !in names
    ensures r.Some? ==> r.value in names && exists i :: 0 <= i < |data| && data[i].0 == r.value
  {
    if |data| == 0 then None
    else if data[0].0 in names then Some(data[0].0)
    else
      var rest := FirstAmong(data[1..], names);
      assert forall i :: 0 <= i < |data| - 1 ==> data[1..][i] == data[i + 1];
      rest
  }

  /** The key that makes the `render_template` call raise `TypeError`: one
      repeating an explicit keyword (found while the keywords are merged),
      otherwise one naming a bound parameter. */
  function ClashKey(data: Dict<string, string>): (r: Option<string>)
    ensures r.None? <==> forall i :: 0 <= i < |data| ==> data[i].0 !in Explicit + Bound
  {
    var first := FirstAmong(data, Explicit);
    if first.Some? then first else FirstAmong(data, Bound)
  }

  /** The collected answers as keyword values. */
  function StrValues(data: Dict<string, string>): (r: Dict<string, Value>)
    ensures |r| == |data|
    ensures forall i :: 0 <= i < |data| ==> r[i] == (data[i].0, VStr(data[i].1))
  {
    seq(|data|, i requires 0 <= i < |data| => (data[i].0, VStr(data[i].1)))
  }

  /** The keyword arguments of `render_template` when nothing clashes. */
  function Kwargs(title: string, userName: string, v: Verdict, data: Dict<string, string>): Dict<string, Value> {
    [("title", VStr(title)), ("submitter", VStr(userName)), ("confidence", VInt(Percent(v.confidence))),
     ("reason", VStr(v.reason)), ("suggested_answer", VStr(v.suggestedAnswer))] + StrValues(data)
  }

  const ThanksText := "感谢您的信息！我正在分析您的问题..."

  /** The message of an exception inside the analysis. */
  function ErrorText(error: string): string {
    "处理过程中出现错误：" + error
  }

  /** The classification report. */
  function ReportText(v: Verdict): string {
    "分析完成！\n\n问题类型：" + TranslateType(v.ticketType) + "\n置信度：" + IntToString(Percent(v.confidence))
    + "%\n判断理由：" + v.reason + "\n\n正在生成工单模板..."
  }

  /** The rendered template, fenced. */
  function TemplateText(rendered: string): string {
    "```\n" + rendered + "\n```"
  }

  /** The report of the ticket attempt. */
  function OutcomeText(outcome: FeishuTickets.TicketOutcome): string {
    match outcome
    case Created(_, url) => "工单已创建！\n查看链接：" + url + "\n\n我们将尽快处理，感谢您的反馈！"
    case Failed(error) => "工单创建失败：" + error + "\n请联系管理员处理。"
  }

  /** `_analyze_and_classify`: whether it ran to its end (where the
      session is cancelled), and what it sent. */
  function Analysis(tm: Templates.TemplateManager, userName: string, data: Dict<string, string>, sv: Services): (bool, seq<string>) {
    var question := Question(data);
    var title := TicketTitle(data);
    var v := sv.classify(question, data);
    var clash := ClashKey(data);
    if clash.Some? then (false, [ThanksText, ErrorText(sv.typeError(clash.value))])
    else (true, [ThanksText] + Reports(tm, userName, data, v, sv))
  }

  /** What the analysis sends after the keyword arguments were merged:
      the report, the template and the outcome of the ticket attempt. */
  function Reports(tm: Templates.TemplateManager, userName: string, data: Dict<string, string>, v: Verdict, sv: Services): seq<string> {
    var title := TicketTitle(data);
    var rendered := tm.RenderTemplate(v.ticketType, Kwargs(title, userName, v, data), sv.render);
    var outcome := FeishuTickets.CreateTicket(sv.mappings, sv.appToken, sv.tableId, v.ticketType, title, Update([("submitter", userName)], data));
    [ReportText(v), TemplateText(rendered), OutcomeText(outcome)]
  }

  /** The analysis always thanks first. A clashing answer key ends it with
      the error message and leaves the session; otherwise it reports, shows
      the template, reports that the ticket could not be created, and ends
      where the session is cancelled. */
  lemma AnalysisOutcome(tm: Templates.TemplateManager, userName: string, data: Dict<string, string>, sv: Services)
    ensures var (done, sends) := Analysis(tm, userName, data, sv);
      && |sends| >= 2 && sends[0] == ThanksText
      && (done <==> ClashKey(data).None?)
      && (!done ==> sends == [ThanksText, ErrorText(sv.typeError(ClashKey(data).value))])
      && (done ==> |sends| == 4 && StartsWith(sends[3], "工单创建失败："))
  {
    ReportsEndInFailure(tm, userName, data, sv.classify(Question(data), data), sv);
  }

  /** The third report is always the failure notice. */
  lemma ReportsEndInFailure(tm: Templates.TemplateManager, userName: string, data: Dict<string, string>, v: Verdict, sv: Services)
    ensures StartsWith(Reports(tm, userName, data, v, sv)[2], "工单创建失败：")
  {
    var title := TicketTitle(data);
    var outcome := FeishuTickets.CreateTicket(sv.mappings, sv.appToken, sv.tableId, v.ticketType, title, Update([("submitter", userName)], data));
    FeishuTickets.CreateTicketFails(sv.mappings, sv.appToken, sv.tableId, v.ticketType, title, Update([("submitter", userName)], data));
    FailedText(outcome.error);
  }

  /** The report of a failed ticket starts with the failure notice. */
  lemma FailedText(error: string)
    ensures StartsWith(OutcomeText(FeishuTickets.Failed(error)), "工单创建失败：")
  {
    var rest := error + "\n请联系管理员处理。";
    ConcatAssoc("工单创建失败：", error, "\n请联系管理员处理。");
    StartsWithAppend("工单创建失败：", rest);
  }

  /** A message: the sender's identity (opaque), its "name" entry and the
      "Content" entry, each possibly missing. */
  datatype Message<K> = Message(sender: K, name: Option<string>, content: Option<string>)

  /** `_handle_command` on the session table: the new table and the sends. */
  function Command<K>(t: map<K, Session>, user: K, command: string): (map<K, Session>, seq<string>) {
    (if command == "/cancel" then t - {user} else t, [CommandReply(command)])
  }

  /** `_handle_new_question`: the question is only echoed; a fresh session
      is started and its first prompt sent. */
  function NewQuestion<K(!new)>(fields: seq<Field>, t: map<K, Session>, user: K, question: string, now: int): (map<K, Session>, seq<string>)
    requires |fields| > 0
  {
    (Start(t, user, now), [Echo(question), PromptFor(fields[0]).message])
  }

  /** `_handle_conversation`: the answer is recorded; a restart (a reply
      without "status") sends nothing, a "collecting" reply sends the next
      prompt, and a "completed" reply runs the analysis. */
  function Converse<K(!new)>(fields: seq<Field>, t: map<K, Session>, user: K, userName: string, response: string, now: int,
                             tm: Templates.TemplateManager, sv: Services): (map<K, Session>, seq<string>)
    requires |fields| > 0 && TableValid(fields, t)
  {
    var (t', reply) := Process(fields, t, user, response, now);
    match reply
    case Restarted(_) => (t', [])
    case Asking(p) => (t', [p.message])
    case Finished(data) =>
      var (done, sends) := Analysis(tm, userName, data, sv);
      (if done then t' - {user} else t', sends)
  }

  /** `handle_message` on the session table. The clock is read twice:
      at `now` by `is_conversation_active`, and at `later` by
      `process_response` or `start_conversation`. */
  function Handle<K(!new)>(fields: seq<Field>, t: map<K, Session>, m: Message<K>, now: int, later: int,
                           tm: Templates.TemplateManager, sv: Services): (map<K, Session>, seq<string>)
    requires |fields| > 0 && TableValid(fields, t)
  {
    var content := m.content.GetOr("");
    if StartsWith(content, "/") then Command(t, m.sender, content)
    else
      var (t', active) := Probe(t, m.sender, now);
      if active then Converse(fields, t', m.sender, m.name.GetOr("未知用户"), content, later, tm, sv)
      else NewQuestion(fields, t', m.sender, content, later)
  }

  /** A command never reaches the session flow: "/cancel" drops the
      sender's session, any other command leaves the table as it is, and
      exactly one reply is sent. */
  lemma CommandRouting<K(!new)>(fields: seq<Field>, t: map<K, Session>, m: Message<K>, now: int, later: int,
                                tm: Templates.TemplateManager, sv: Services)
    requires |fields| > 0 && TableValid(fields, t)
    requires StartsWith(m.content.GetOr(""), "/")
    ensures var (t', sends) := Handle(fields, t, m, now, later, tm, sv);
      && t' == (if m.content.GetOr("") == "/cancel" then t - {m.sender} else t)
      && sends == [CommandReply(m.content.GetOr(""))]
  {
  }

  /** A message without an active session starts one: whatever its text,
      the table is the same, the text is not stored, and it is echoed
      before the first prompt. */
  lemma NewQuestionRouting<K(!new)>(fields: seq<Field>, t: map<K, Session>, m: Message<K>, text: string, now: int, later: int,
                                    tm: Templates.TemplateManager, sv: Services)
    requires |fields| > 0 && TableValid(fields, t)
    requires !StartsWith(m.content.GetOr(""), "/") && !StartsWith(text, "/")
    requires !Probe(t, m.sender, now).1
    ensures var (t', sends) := Handle(fields, t, m, now, later, tm, sv);
      && t' == Handle(fields, t, m.(content := Some(text)), now, later, tm, sv).0
      && t'[m.sender] == NewSession(later) && t'[m.sender].collectedData == []
      && sends == [Echo(m.content.GetOr("")), fields[0].question]
  {
  }

  /** A message to a session that is active and still unexpired when the
      answer is processed is recorded as the answer to the current
      question: the session is not restarted, and the reply is the next
      prompt or the analysis. */
  lemma ActiveRouting<K(!new)>(fields: seq<Field>, t: map<K, Session>, m: Message<K>, now: int, later: int,
                               tm: Templates.TemplateManager, sv: Services)
    requires |fields| > 0 && TableValid(fields, t)
    requires !StartsWith(m.content.GetOr(""), "/")
    requires Probe(t, m.sender, now).1 && !Expired(t[m.sender], later)
    ensures var (t1, reply) := Process(fields, t, m.sender, m.content.GetOr(""), later);
      var (t', sends) := Handle(fields, t, m, now, later, tm, sv);
      && !reply.Restarted?
      && Get(t1[m.sender].collectedData, fields[t[m.sender].currentField].name) == Some(m.content.GetOr(""))
      && (reply.Asking? ==> t' == t1 && sends == [reply.next.message])
      && (reply.Finished? ==> sends == Analysis(tm, m.name.GetOr("未知用户"), reply.collectedData, sv).1)
      && (reply.Finished? && ClashKey(reply.collectedData).None? ==> m.sender !in t')
      && (reply.Finished? && ClashKey(reply.collectedData).Some? ==> t' == t1)
  {
    assert Probe(t, m.sender, now).0 == t;
    var (t1, reply) := Process(fields, t, m.sender, m.content.GetOr(""), later);
    if reply.Finished? {
      AnalysisOutcome(tm, m.name.GetOr("未知用户"), reply.collectedData, sv);
    }
  }

  /** A session found active that expires before `process_response` reads
      the clock is started over: the answer is lost, the session is fresh,
      and nothing is sent, since the reply has no "status" and the lookup
      of it raises inside the handler. */
  lemma LateExpiryDropsAnswer<K(!new)>(fields: seq<Field>, t: map<K, Session>, m: Message<K>, now: int, later: int,
                                       tm: Templates.TemplateManager, sv: Services)
    requires |fields| > 0 && TableValid(fields, t)
    requires !StartsWith(m.content.GetOr(""), "/")
    requires Probe(t, m.sender, now).1 && Expired(t[m.sender], later)
    ensures var (t', sends) := Handle(fields, t, m, now, later, tm, sv);
      && t' == t[m.sender := NewSession(later)]
      && t'[m.sender].collectedData == []
      && sends == []
  {
    assert Probe(t, m.sender, now).0 == t;
  }

  /** The WeCom bot: its own session table, the template manager, the
      collaborators, and the log of sent messages. */
  class WeComBot<K(==,!new)> {
    const manager: ConversationManager<K>
    const templates: Templates.TemplateManager
    const services: Services
    var sent: seq<string>

    ghost predicate Valid()
      reads this, manager
    {
      manager.Valid()
    }

    /** The bot builds a session table of its own. */
    constructor(fields: seq<Field>, templates: Templates.TemplateManager, services: Services)
      requires |fields| > 0
      ensures Valid() && fresh(manager)
      ensures manager.fields == fields && manager.conversations == map[]
      ensures this.templates == templates && this.services == services && sent == []
    {
      manager := new ConversationManager(fields);
      this.templates := templates;
      this.services := services;
      sent := [];
    }

    /** `send_message`: a failed delivery is only logged, so every call
        counts as sent. */
    method SendMessage(content: string)
      modifies this
      ensures sent == old(sent) + [content]
    {
      sent := sent + [content];
    }

    method HandleCommand(user: K, command: string)
      requires Valid()
      modifies this, manager
      ensures Valid()
      ensures (manager.conversations, sent) == (Command(old(manager.conversations), user, command).0,
                                                old(sent) + Command(old(manager.conversations), user, command).1)
    {
      if command == "/cancel" {
        manager.CancelConversation(user);
        SendMessage(CancelledText);
      } else if command == "/help" {
        SendMessage(HelpText);
      } else {
        SendMessage("未知命令：" + command);
      }
    }

    method HandleNewQuestion(user: K, question: string, now: int)
      requires Valid()
      modifies this, manager
      ensures Valid()
      ensures (manager.conversations, sent) == (NewQuestion(manager.fields, old(manager.conversations), user, question, now).0,
                                                old(sent) + NewQuestion(manager.fields, old(manager.conversations), user, question, now).1)
    {
      SendMessage(Echo(question));
      var first := manager.StartConversation(user, now);
      SendMessage(first.message);
      AppendTwo(old(sent), Echo(question), first.message);
    }

    method AnalyzeAndClassify(user: K, userName: string, data: Dict<string, string>)
      requires Valid()
      modifies this, manager
      ensures Valid()
      ensures var (done, sends) := Analysis(templates, userName, data, services);
        && manager.conversations == (if done then old(manager.conversations) - {user} else old(manager.conversations))
        && sent == old(sent) + sends
    {
      SendMessage(ThanksText);
      var question := Question(data);
      var v := services.classify(question, data);
      var clash := ClashKey(data);
      if clash.Some? {
        SendMessage(ErrorText(services.typeError(clash.value)));
        assert sent == old(sent) + [ThanksText, ErrorText(services.typeError(clash.value))];
        return;
      }
      ReportAndTicket(user, userName, data, v);
      ConcatAssoc(old(sent), [ThanksText], Reports(templates, userName, data, v, services));
    }

    /** The part of `_analyze_and_classify` after the keyword arguments
        were merged: report, template, ticket attempt, cancellation. */
    method ReportAndTicket(user: K, userName: string, data: Dict<string, string>, v: Verdict)
      requires Valid() && ClashKey(data).None? && v == services.classify(Question(data), data)
      modifies this, manager
      ensures Valid()
      ensures manager.conversations == old(manager.conversations) - {user}
      ensures sent == old(sent) + Reports(templates, userName, data, v, services)
    {
      var title := TicketTitle(data);
      var rendered := templates.RenderTemplate(v.ticketType, Kwargs(title, userName, v, data), services.render);
      var outcome := FeishuTickets.CreateTicket(services.mappings, services.appToken, services.tableId, v.ticketType, title, Update([("submitter", userName)], data));
      assert Reports(templates, userName, data, v, services) == [ReportText(v), TemplateText(rendered), OutcomeText(outcome)];
      SendMessage(ReportText(v));
      SendMessage(TemplateText(rendered));
      SendMessage(OutcomeText(outcome));
      AppendThree(old(sent), ReportText(v), TemplateText(rendered), OutcomeText(outcome));
      manager.CancelConversation(user);
    }

    method HandleConversation(user: K, userName: string, response: string, now: int)
      requires Valid()
      modifies this, manager
      ensures Valid()
      ensures (manager.conversations, sent) == (Converse(manager.fields, old(manager.conversations), user, userName, response, now, templates, services).0,
                                                old(sent) + Converse(manager.fields, old(manager.conversations), user, userName, response, now, templates, services).1)
    {
      var reply := manager.ProcessResponse(user, response, now);
      match reply
      case Restarted(_) =>
        assert sent == old(sent) + [];
      case Asking(p) => SendMessage(p.message);
      case Finished(data) => AnalyzeAndClassify(user, userName, data);
    }

    /** `now` is the clock read of the activity check, `later` the one of
        the call that follows it. */
    method HandleMessage(m: Message<K>, now: int, later: int)
      requires Valid()
      modifies this, manager
      ensures Valid()
      ensures (manager.conversations, sent) == (Handle(manager.fields, old(manager.conversations), m, now, later, templates, services).0,
                                                old(sent) + Handle(manager.fields, old(manager.conversations), m, now, later, templates, services).1)
    {
      var userName := m.name.GetOr("未知用户");
      var content := m.content.GetOr("");
      if StartsWith(content, "/") {
        HandleCommand(m.sender, content);
        return;
      }
      var active := manager.IsConversationActive(m.sender, now);
      if active {
        HandleConversation(m.sender, userName, content, later);
      } else {
        HandleNewQuestion(m.sender, content, later);
      }
    }
  }
}

=== FILE: wrappers.dfy ===
/** Optional values and results with an error, as the Python code uses
    `None` and caught exceptions. */
module Wrappers {

  datatype Option<+T> = None | Some(value: T) {
    /** The value, or `default` when absent (Python's `x or default` on an optional). */
    function GetOr(default: T): T {
      if Some? then value else default
    }
  }

  /** A computation that either returns a value or raises with an error text. */
  datatype Result<+R, +E> = Success(value: R) | Failure(error: E)
}
